=== FILE: README.md ===
# Financial MCP server core, modelled in Dafny

This project models the data and decision logic of a stock and financial
calculator server. Each module below follows one source file:

- **DataSources** (`src/config/data_sources.py`): the data-source
  configuration.
  - It covers the closed set of providers (FMP, Alpha Vantage, Yahoo
    Finance), the environment parsing done once at construction, and the
    "enabled" predicates.
  - It also covers the policy that swaps an unusable primary source for the
    first usable entry of the fallback chain.
- **StockDataService** (`src/services/stock_data_service.py`): the unified
  stock-data service, modelled as a state machine.
  - Its state is the configuration, the two cache dictionaries and whether
    an Alpha Vantage client exists.
  - A request maps (state, clock, symbol, provider outcomes) to
    (result, next state, the provider clients called).
- **AlphaVantage** (`src/services/alpha_vantage.py`): the Alpha Vantage
  client, covering its symbol translation and its sentinel fields
  ("Error Message", "Note", "Information").
  - It also covers the float parsing order and the
    `ConnectionError`/`ValueError` split.
- **Fmp** (`src/services/fmp.py`): the Financial Modeling Prep client.
  - It covers suffix-based symbol conversion and the empty-array and
    error-field checks.
  - It also covers the re-wrapping of every internal failure as
    `ValueError`, and the standardised quote and profile records.
- **StockUtils** (`src/utils/stock_utils.py`):
  - `fetch_stock_price`: the unified service, then direct Yahoo Finance,
    then `None`.
  - The decision logic of the direct Yahoo quote.
  - The live eight-pillar analysis, whose score always divides by eight.
- **LegacyPillars** (lines 627–981 of `src/function_app_backup.py`): the
  older eight-pillar analysis.
  - It uses five-year windows, and its pillars report "?" when data is
    missing.
  - Its score is taken over the evaluated pillars only, with four bands.
- **FinancialCalculators** (`src/handlers/financial_calculators.py`): the
  compound-interest and retirement calculators.
  - Each has an ordered validation that picks the first failing message.
  - The compound calculator has a year-by-year breakdown, and the retirement
    calculator has a month-by-month accumulation loop.
- **Version** (`scripts/version.py`):
  - The X.Y.Z check, including the newline that Python's `$` tolerates.
  - The parse, bump and format steps of `bump_version`.

Shared helper modules:

| module | what it models |
|---|---|
| `Wrappers` | `Option` and `Result` |
| `PyErrors` | Python exception kinds and `str(e)` |
| `PyStrings` | `upper`, `replace`, `split`, `strip`, `rstrip` and `int()` on ASCII text |
| `Json` | decoded HTTP bodies with Python's `in`, indexing, `.get` and truthiness |
| `Frames` | the few pandas operations the analyses use |
| `Marks` | the "✓"/"✗"/"?" marks and their counts |

Design choices:

- **Dictionaries:** a Python dict is a `map<string, Json>`.
- **Exceptions:** a raised exception is a `Failure` carrying the exception
  kind and message.
- **Outside world:**
  - What a provider, yfinance or the clock would return is a parameter.
  - Clock readings are whole seconds.
- **Money:** amounts are exact reals.

## Model

| member | source | states |
|---|---|---|
| `DataSources.ParseSource` | src/config/data_sources.py:20-22 | Looking up a provider by value succeeds exactly when some provider has that value, and the value is recovered from the result. Otherwise it fails with the enum's `ValueError` message. |
| `DataSources.SourceValueRoundTrip` | src/config/data_sources.py:8-12 | The enum values and the lookup by value are inverse to each other. |
| `DataSources.FirstAvailableIsFirstUsable` | src/config/data_sources.py:79-89 | The chain walk returns the first usable entry in list order (FMP or Alpha Vantage with a key, or Yahoo Finance), or Yahoo Finance when none is usable. Its answer is always usable. |
| `DataSources.FirstAvailableStopsAtYahoo` | src/config/data_sources.py:81-87 | No entry after the first Yahoo Finance entry is ever chosen. |
| `DataSources.PrimarySourcePolicy` | src/config/data_sources.py:67-77 | The resolved primary is always usable. A usable configured primary comes back unchanged. An unusable one is replaced by the chain walk's answer, which differs from it. |
| `DataSources.EnabledIffKey` | src/config/data_sources.py:53-65 | A provider is enabled exactly when its key variable is set and not empty. |
| `DataSources.DefaultConfig` | src/config/data_sources.py:18-51 | With nothing set: primary FMP, chain [Alpha Vantage, Yahoo Finance], no keys, 25 calls a day and a one-day cache. |
| `DataSources.UnknownPrimaryFails` | src/config/data_sources.py:20-22 | An unknown `DATA_SOURCE` value fails construction with that value's `ValueError`. |
| `DataSources.UnknownTokenFails` | src/config/data_sources.py:48 | One unknown non-blank token anywhere in the fallback list fails the whole parse. |
| `DataSources.BlankTokensParseEmpty` | src/config/data_sources.py:48 | Tokens that are all blank after stripping are dropped, leaving an empty chain. |
| `DataSources.ParseValueTokens` | src/config/data_sources.py:48 | Parsing the values of a provider list gives back that list, in order and with duplicates. |
| `DataSources.FallbackRoundTrip` | src/config/data_sources.py:43-51 | Writing a chain as comma-separated values and parsing it back gives the same chain. An empty variable gives the default chain. |
| `Json.RenderExact` | src/services/alpha_vantage.py:49-50 | An integer put into an error message reads back through `int()` as the same integer, a string is put in unchanged, and `None`/`True`/`False` appear as their Python literals. The float, list and dict stand-ins never read back as an integer. |
| `Json.RenderIntInjective` | src/services/alpha_vantage.py:49-50 | Two integer error values give the same message text exactly when they are equal. |
| `AlphaVantage.QuoteDict` | src/services/alpha_vantage.py:71-85 | The quote record carries the caller's symbol, the vendor name, "success" and the stripped change-percent text. It has no cache or fallback marks. |
| `AlphaVantage.QuoteSymbolContainsNotSuffix` | src/services/alpha_vantage.py:29-35 | The quote translation tests "contains", not "ends with": "x.nse" becomes "X.BSEE". |
| `AlphaVantage.QuoteSymbolDiffers` | src/services/alpha_vantage.py:29-35 | The quote translation applies only the first matching rewrite: "X.NS.BO" becomes "X.BSE.BO". |
| `AlphaVantage.OverviewSymbolDiffers` | src/services/alpha_vantage.py:102 | The overview translation applies both rewrites in turn: "X.NS.BO" becomes "X.BSE.BSE", unlike the quote translation. |
| `AlphaVantage.SymbolTranslation` | src/services/alpha_vantage.py:29-35 | Without ".NS" or ".BO", both translations are plain upper-casing. Every translation is free of lower-case letters. |
| `AlphaVantage.TranslationsAgree` | src/services/alpha_vantage.py:29-35 | For every symbol, the quote and overview translations agree exactly unless the upper-cased symbol contains ".NS" and still contains ".BO" after ".NS" is rewritten. |
| `AlphaVantage.QuoteSentinelPrecedence` | src/services/alpha_vantage.py:49-61 | For an object body the quote fails in this order: "Error Message", then "Note" (rate limit), then "Information", then a missing or empty "Global Quote". Each case has its own message. The "Error Message" and "Information" values appear in the text as `Json.Render` shows them: exactly for strings, integers, booleans and null, and as a stand-in for floats, lists and dicts (see Left out). |
| `AlphaVantage.QuoteSuccessShape` | src/services/alpha_vantage.py:60-87 | A successful quote came from an object body with no sentinel field and a non-empty "Global Quote" object. It keeps the caller's symbol, not the translated one, and has no cache or fallback marks. |
| `AlphaVantage.QuoteRecordShape` | src/services/alpha_vantage.py:63-87 | Parsing succeeds only on a "Global Quote" object, and the record names the caller's symbol, the vendor and "success". |
| `AlphaVantage.ChangePercentStripped` | src/services/alpha_vantage.py:69 | `change_percent` is the raw text with every trailing '%' removed, so it never ends in '%'. It is "0" when the field is absent. |
| `AlphaVantage.OverviewClassification` | src/services/alpha_vantage.py:115-144 | The overview fails in this order: "Error Message", then "Note" or "Information" (one rate-limit message), then a missing "Symbol". On success it keeps the caller's symbol and takes "Name" or "N/A". The "Error Message" value appears in the text as `Json.Render` shows it: exactly for strings, integers, booleans and null, and as a stand-in for floats, lists and dicts (see Left out). |
| `AlphaVantage.ErrorKinds` | src/services/alpha_vantage.py:43-90 | Transport failures, and only they, surface as `ConnectionError` from both calls. Every sentinel field surfaces as `ValueError`. |
| `Fmp.StandardQuote` | src/services/fmp.py:150-171 | The standardised quote keeps the caller's symbol and names FMP as the source, with no cache or fallback marks. |
| `Fmp.StandardProfile` | src/services/fmp.py:184-198 | The standardised profile keeps the caller's symbol. It renames the vendor's `mktCap` to `marketCap` and `fullTimeEmployees` to `employees`. |
| `Fmp.ConvertSymbolIdempotent` | src/services/fmp.py:129-137 | Converted symbols are upper-case and never end in ".NS" or ".BO", so converting twice equals converting once. |
| `Fmp.ConvertSymbolSuffixOnly` | src/services/fmp.py:132-133 | The FMP conversion tests the suffix: "x.ns" becomes "X.NSE", and "X.NSE" is left alone. |
| `Fmp.EmptyResponseFails` | src/services/fmp.py:51-72 | An empty array or null body fails with the "no data" message, re-wrapped with the parse prefix, for both quote and profile. |
| `Fmp.ErrorFieldFails` | src/services/fmp.py:59-62 | A first element with "Error Message" or "error" fails with the parse prefix and "FMP API error: " followed by the error value, preferring a truthy "Error Message". The value appears as `Json.Render` shows it: exactly for strings, integers, booleans and null, and as a stand-in for floats, lists and dicts (see Left out). |
| `Fmp.QuoteOutcome` | src/services/fmp.py:37-72 | For a well-formed body, the quote succeeds exactly when the array is non-empty and its first object has no error field, and the result is then that object standardised. Every failure is a `ValueError` carrying the parse prefix. |
| `Fmp.ProfileOutcome` | src/services/fmp.py:87-112 | For a well-formed body, the profile succeeds exactly when the array is non-empty, and the result is then its first object standardised. Every failure is a prefixed `ValueError`. |
| `Fmp.TransportFailureIsValueError` | src/services/fmp.py:67-69 | Transport failures are re-raised as `ValueError` with the request-failed message, never as a connection error. |
| `StockDataService.NewService` | src/services/stock_data_service.py:19-31 | A new service has empty caches and an Alpha Vantage client exactly when that provider is enabled. |
| `StockDataService.CacheKeyInjective` | src/services/stock_data_service.py:33-35 | Cache keys are equal exactly when the operation and the symbol are, so quote and overview entries never collide. |
| `StockDataService.CaseVariantsAreDistinct` | src/services/stock_data_service.py:33-35 | Symbols are used as given: "aapl" and "AAPL" get different cache entries. |
| `StockDataService.SetCacheFrame` | src/services/stock_data_service.py:45-48 | Storing writes the record and the timestamp for that key only, and keeps the key sets of the two dictionaries equal. |
| `StockDataService.FreshnessWindow` | src/services/stock_data_service.py:37-54 | A stored record is served exactly while its age is below the TTL. At age equal to the TTL it is already stale. |
| `StockDataService.CacheHitServesStoredRecord` | src/services/stock_data_service.py:66-72 | A fresh, non-empty entry is returned marked `from_cache` without calling any provider. The stored record gets the same mark and keeps its timestamp. |
| `StockDataService.PrimaryDispatch` | src/services/stock_data_service.py:74-87 | On a cache miss the first call goes to Alpha Vantage exactly when the resolved primary is Alpha Vantage. Every other primary, FMP included, goes to Yahoo Finance. |
| `StockDataService.PrimarySuccessCachedUnchanged` | src/services/stock_data_service.py:77-87 | A primary success is cached at the current time and returned unmarked, after one provider call. |
| `StockDataService.PrimaryFailureEscapesAsWritten` | src/services/stock_data_service.py:88-92 | As written, any primary failure of either operation escapes as the `AttributeError` for the missing configuration method. Nothing is cached and no fallback is called. |
| `StockDataService.FallbackUnreachable` | src/services/stock_data_service.py:93-113 | Under the real configuration no request ever makes a second provider call. |
| `StockDataService.IntendedFallback` | src/services/stock_data_service.py:93-113 | A distinct fallback with a matching branch makes a second call. Success returns that record marked `fallback_used` with the primary's error text, keeping every other field, and caches it. Failure re-raises the primary's error and caches nothing. |
| `StockDataService.NoDistinctFallback` | src/services/stock_data_service.py:93 | A missing fallback, or one equal to the primary, re-raises the primary's error after one call. |
| `StockDataService.OverviewFmpFallbackReraises` | src/services/stock_data_service.py:151-170 | No overview fallback branch matches FMP, so the primary's error is re-raised after one call. |
| `StockDataService.RequestFrame` | src/services/stock_data_service.py:66-113 | Every request keeps the cache invariant and the configuration. It changes no cache entry other than its own. |
| `StockDataService.SecondRequestWithinTtl` | src/services/stock_data_service.py:37-72 | A repeat request within the TTL returns the first record with the `from_cache` mark and calls no provider. Once the TTL has elapsed it calls a provider again. |
| `StockDataService.QuoteEntryDoesNotServeOverview` | src/services/stock_data_service.py:125-131 | A cached quote never answers an overview request for the same symbol. |
| `StockUtils.DirectQuote` | src/utils/stock_utils.py:53-93 | The direct quote is `None` exactly when fetching fails, the history or info is empty, or the previous close is not a number. Otherwise it carries the upper-cased symbol, the last close as the price, and "yahoo_finance". |
| `StockUtils.DirectQuoteChange` | src/utils/stock_utils.py:72-76 | A missing previous close defaults to the price, so the change is 0. A zero previous close also gives 0. Otherwise the change is relative to the previous close. |
| `StockUtils.ObtainService` | src/services/stock_data_service.py:177-182 | The global service is reused once built. Otherwise it is built from the loaded configuration, and a configuration failure propagates. |
| `StockUtils.FetchStockPrice` | src/utils/stock_utils.py:31-50 | Without the unified service the result is the direct quote. With it, a configuration that cannot be loaded gives the direct quote and leaves the service unbuilt. Otherwise the service is kept, a successful service quote is returned as is, and a failing one gives the direct quote. |
| `StockUtils.FetchStockPriceFallsBack` | src/utils/stock_utils.py:41-50 | A service success is returned as is. Any exception, in building the service or in the quote, gives the direct quote or `None` and never escapes. So any quote returned is either the service's successful answer or the direct quote. |
| `StockUtils.PrimaryFailureUsesDirectQuote` | src/utils/stock_utils.py:31-50 | With the service as written, a failing primary provider or a configuration that cannot load always ends at the direct Yahoo quote. |
| `StockUtils.PePillar` | src/utils/stock_utils.py:123-124 | Pillar 1 is never "?" and passes exactly when the PE is below 22.5. |
| `StockUtils.SharesPillar` | src/utils/stock_utils.py:141-142 | Pillar 3 never fails. It is "?" exactly at zero shares. |
| `StockUtils.EightPillarAnalysis` | src/utils/stock_utils.py:109-231 | The analysis exists exactly when fetching succeeds, no statement is empty, and PE, shares and market cap are numbers. Its eight pillars are, in order, PE, ROIC, shares, cash-flow, net-income and revenue growth, liabilities, and price to free cash flow, each computed from its own inputs. It counts passes out of a fixed eight and scores 12.5 per pass. The band is Good at six or more passes, Fair at four or five, and Poor below four. The symbol is upper-cased. |
| `StockUtils.LiveBands` | src/utils/stock_utils.py:220-231 | "Good" needs six or more passes, "Fair" four or five, and "Poor" fewer. |
| `StockUtils.InfoDefaults` | src/utils/stock_utils.py:123-142 | A missing trailing PE counts as 0 and passes. The shares pillar is "?" exactly when the share count is 0. |
| `StockUtils.GrowthPasses` | src/utils/stock_utils.py:148-187 | A growth pillar passes exactly when the row exists, there are two or more columns, the oldest value is non-zero and the latest exceeds it. |
| `StockUtils.RoicPasses` | src/utils/stock_utils.py:127-137 | ROIC passes exactly when assets and liabilities are both non-zero, invested capital is positive, and net income exceeds a tenth of it. |
| `StockUtils.SentinelPillars` | src/utils/stock_utils.py:189-207 | Pillars 7 and 8 take the sentinel 999 and fail without a positive free cash flow. Otherwise pillar 7 passes exactly when debt is under five times the average cash flow, and pillar 8 when the market cap is under 22.5 times the latest. |
| `Frames.FirstOrZero` | src/utils/stock_utils.py:128 | A missing row reads as 0. A present row gives its first value, and an empty one raises. |
| `Frames.HeadRow` | src/function_app_backup.py:664 | `head(n)` is a prefix of the row of at most `n` values, with exactly `n` when the row is that long. |
| `Frames.Mean` | src/utils/stock_utils.py:192 | The mean exists exactly for a non-empty row and times the count gives the sum. |
| `Frames.MeanPositiveIffSumPositive` | src/function_app_backup.py:866-868 | The mean of a non-empty row is positive exactly when its sum is. |
| `Marks.Evaluated` | src/function_app_backup.py:938 | The evaluated count lies between the passes and the number of pillars, and equals the number of pillars exactly when none is "?". |
| `Marks.CountsPartition` | src/function_app_backup.py:938-939 | Passes, fails and "?" marks partition the pillars, and the evaluated count is passes plus fails. |
| `LegacyPillars.Score` | src/function_app_backup.py:939 | The score lies between 0 and 100, is passes over evaluated times 100, and is 0 when nothing was evaluated. |
| `LegacyPillars.LegacyAnalysis` | src/function_app_backup.py:637-953 | The analysis exists exactly when fetching succeeds, no statement is empty and the market cap is a number. Its eight marks are the eight pillar rules, in order. Passes and the evaluated count come from those marks. The score is passes over evaluated times 100, or 0 when nothing is evaluated. The band is Excellent from seven eighths of the evaluated pillars, Good from five eighths, Fair from three eighths, and Poor otherwise, including when nothing is evaluated. The company name defaults to the upper-cased symbol. |
| `LegacyPillars.BandThresholds` | src/function_app_backup.py:941-953 | Whatever the number evaluated: "Excellent" from seven eighths passing, "Good" from five, "Fair" from three, "Poor" below. |
| `LegacyPillars.AllEvaluatedBands` | src/function_app_backup.py:942-953 | With all eight evaluated, the bands are 7–8, 5–6, 3–4 and 0–2 passes, as the comments say. |
| `LegacyPillars.NothingEvaluated` | src/function_app_backup.py:938-953 | With no pillar evaluated the score is 0 and the band is "Poor". |
| `LegacyPillars.FiveYearValuation` | src/function_app_backup.py:661-692 | Pillars 1 and 8 are "?" unless the five-year total is positive. Then they pass exactly when the market cap is under 22.5 times it. |
| `LegacyPillars.TrendPillars` | src/function_app_backup.py:736-858 | Pillars 3 to 6 need two values. Shares pass when they fell over the whole history. The others pass when the latest value exceeds the oldest within five years. |
| `LegacyPillars.DebtCoverageRule` | src/function_app_backup.py:860-898 | Pillar 7 is "?" without a positive average free cash flow, and otherwise passes exactly when debt is under five times it. Pillar 8 being "?" implies pillar 7 is "?". |
| `LegacyPillars.RoicRule` | src/function_app_backup.py:697-734 | Pillar 2 is "?" unless equity plus debt is positive. It then passes exactly when five-year free cash flow exceeds a tenth of that capital. |
| `FinancialCalculators.ValidateCompound` | src/handlers/financial_calculators.py:37-73 | Validation succeeds exactly when principal and time are positive, the rate is non-negative, and the frequency (default 12) is 1, 4, 12 or 365. Each message fires exactly when its check is the first to fail, and the inputs are carried through. |
| `FinancialCalculators.NonNumericPrincipalIsUnexpected` | src/handlers/financial_calculators.py:43-49 | A principal that is neither null nor a number makes the comparison raise `TypeError`, reported as an unexpected error. |
| `FinancialCalculators.CompoundBreakdown` | src/handlers/financial_calculators.py:82 | The breakdown has one entry per whole year of `time`. |
| `FinancialCalculators.CompoundInterestCalculator` | src/handlers/financial_calculators.py:33-89 | Over exact reals, the handler succeeds exactly when "arguments" exists and validates, with a breakdown of `int(time)` years. Otherwise the lookup's exception or the validation message is the answer. Float overflow is not modelled (see Left out). |
| `FinancialCalculators.CompoundStep` | src/handlers/financial_calculators.py:83 | One more year multiplies the amount by the per-period factor raised to the frequency. |
| `FinancialCalculators.YearsEntry` | src/handlers/financial_calculators.py:82-89 | Entry `k` is year `k+1`, its amount is compounded `frequency*(k+1)` times, and its interest is that amount minus the principal. |
| `FinancialCalculators.CompoundFirstYear` | src/handlers/financial_calculators.py:83 | The first year's amount is the principal compounded `frequency` times. |
| `FinancialCalculators.CompoundBreakdownSteps` | src/handlers/financial_calculators.py:80-89 | The breakdown is numbered from 1, each interest is the amount minus the principal, and each year's amount is the previous one times the yearly factor. |
| `FinancialCalculators.CompoundedAtLeastPrincipal` | src/handlers/financial_calculators.py:83-84 | With a non-negative rate, compounding never falls below the principal. |
| `FinancialCalculators.CompoundedNeverFalls` | src/handlers/financial_calculators.py:83 | With a non-negative rate, a further year never lowers the amount. |
| `FinancialCalculators.CompoundBreakdownGrows` | src/handlers/financial_calculators.py:80-89 | For validated inputs no year's interest is negative and no year's amount is below the previous one. |
| `FinancialCalculators.ValidateRetirement` | src/handlers/financial_calculators.py:142-187 | For every argument object, each message is the answer exactly when its check is the first to fail. The checks are current age (missing or outside 18..100), retirement age (missing, not above the current age, or above 100), savings (negative, default 0), contribution (missing or negative), then return (missing or negative). It succeeds exactly when every check passes and both ages are integers. A success carries integer ages 18 ≤ current < retirement ≤ 100 and the non-negative amounts read from the arguments. |
| `FinancialCalculators.RetirementValidationOrder` | src/handlers/financial_calculators.py:149-187 | For any argument object where no comparison raises (each field absent, null or a number), the result is exactly the ordered chain. Current age, retirement age, savings, contribution and return are checked in that order. Ages that pass but are floats fail in `range`, and otherwise the validated inputs are returned. |
| `FinancialCalculators.SavingsDefault` | src/handlers/financial_calculators.py:144-171 | Absent savings count as 0. An explicit null makes the comparison raise. |
| `FinancialCalculators.FloatAgesRaise` | src/handlers/financial_calculators.py:189-199 | Float ages that pass every check still fail with `TypeError` in `range`. |
| `FinancialCalculators.AccumulateClosedForm` | src/handlers/financial_calculators.py:193-210 | The monthly loop satisfies FV·r = PV(1+r)^n·r + PMT(1+r)((1+r)^n − 1). The contribution is made before the month's return, so the annuity term is an annuity due. |
| `FinancialCalculators.AccumulateWithoutReturn` | src/handlers/financial_calculators.py:203-210 | With a zero return the balance is the start plus the contributions. |
| `FinancialCalculators.AccumulateGrows` | src/handlers/financial_calculators.py:203-210 | With nothing negative, the balance grows by at least the contributions. |
| `FinancialCalculators.AccumulateYear` | src/handlers/financial_calculators.py:200-210 | One year of the inner loop gives twelve months of accumulation and twelve contributions. |
| `FinancialCalculators.ProjectRetirement` | src/handlers/financial_calculators.py:189-222 | The loop produces one row per year, each starting where the previous ended, and counts every contribution. The balance is the last row's end. A zero return earns no interest. Non-negative inputs never lose value. |
| `FinancialCalculators.ProjectValidated` | src/handlers/financial_calculators.py:189-222 | For validated inputs there is one row per year, the last at the retirement age. Each row is a year of twelve contributions and monthly returns, starting where the previous row ended. The total counts every contribution. Interest is the closing balance minus the total, and it is zero at a zero return. The closing balance covers all contributions. |
| `FinancialCalculators.RetirementCalculator` | src/handlers/financial_calculators.py:138-222 | A missing "arguments" or a validation failure is the answer. Over exact reals, the handler succeeds exactly when the arguments validate (integer arguments beyond the float range are not modelled; see Left out), and its projection then answers the request as stated for `ProjectValidated`. |
| `FinancialCalculators.ProjectionCovers` | src/handlers/financial_calculators.py:195-222 | Over a continuous breakdown of years that do not shrink, the closing balance covers the savings plus every contribution. |
| `Version.VersionPatternCharacterisation` | scripts/version.py:50-55 | The pattern accepts exactly three non-empty digit runs joined by dots, optionally followed by one newline. |
| `Version.ValidateVersion` | scripts/version.py:50-55 | Validation succeeds exactly on the pattern. Otherwise it raises the "Invalid version format" `ValueError` naming the input. |
| `Version.LeadingZerosAndNewlineAccepted` | scripts/version.py:52-53 | "01.002.3" and "1.2.3\n" pass. "1.2", "1.2.3.4" and "v1.2.3" do not. |
| `Version.ParseVersion` | scripts/version.py:70 | Unpacking succeeds exactly when the split has three parts that `int()` accepts. |
| `Version.ParseFormat` | scripts/version.py:70-84 | Formatting a triple and parsing it back gives the same triple. |
| `Version.FormatValidates` | scripts/version.py:84-91 | A formatted non-negative triple always passes validation. |
| `Version.BaseVersion` | scripts/version.py:17-68 | The starting version is never empty, and it is the stripped file content whenever that is non-blank. |
| `Version.BumpVersion` | scripts/version.py:58-91 | Whatever comes back passes validation and came from a known bump type. |
| `Version.BumpWellFormed` | scripts/version.py:72-85 | From a well-formed version: major gives (M+1,0,0), minor (M,m+1,0), patch (M,m,p+1). The result is strictly greater and parses back to the bumped components. |
| `Version.MissingFileStartsAtOne` | scripts/version.py:65-68 | A missing or blank VERSION file counts as 1.0.0. |
| `Version.DocumentedBumps` | scripts/version.py:72-84 | From 1.2.0, patch gives 1.2.1, minor gives 1.3.0 and major gives 2.0.0. |
| `Version.InvalidBumpTypeRejected` | scripts/version.py:81-82 | An unknown bump type always fails, after a successful parse, with the "Invalid bump type" message. |

## Left out

- File I/O:
  - Reading and writing VERSION, and rewriting `src/function_app.py`
    (`update_function_app_version`).
  - `show_version`, `sync_version` and the command-line `main` of
    `scripts/version.py`.
  - Only the version that would be written is modelled.
- The network, logging, `print` and the clock:
  - Provider responses are parameters.
  - The cache clock is a whole-second parameter.
  - Timestamps in result records are parameters or left out.
- yfinance and pandas:
  - What `yf.Ticker` yields is a parameter.
  - Statements are maps from row names to value lists, with a column count.
- Float semantics:
  - Amounts are exact reals, so rounding to cents and formatting
    (`:,.0f`, `:+.2f`, `round`) are not modelled.
  - NaN and infinity from division by zero in numpy values are not
    modelled, in either analysis.
  - Statement cells are assumed present: a statement row is a list of
    reals and cannot hold a NaN cell. With NaN cells, pandas `sum()` and
    `mean()` skip them and every comparison with NaN is false, which can
    change pillar outcomes in both analyses.
- The `float()` grammar: Alpha Vantage's `float(...)` is a parameter
  (`toFloat`) returning a number or the exception Python would raise.
- The JSON decode step of each handler and of each HTTP client: the body
  arrives decoded.
  - The calculators' "Invalid request format" path is therefore not
    modelled.
- The compound calculator's final amount with a fractional exponent, and
  its effective annual rate: both need real powers.
  - The yearly breakdown, which uses whole exponents, is modelled.
- The retirement calculator's 4% withdrawal figures and its result
  dictionary: these are arithmetic on the modelled balance.
- The global singletons (`_config`, `_service`): they are explicit inputs
  and outputs, and the process-wide state itself is not modelled.
- Dict aliasing between the caller and the cache: the in-place
  `from_cache` mark is modelled as an update of the stored entry.
- Concurrency: none.
- Text handling:
  - `upper()` and `strip()` are modelled on ASCII only.
  - `int()` does not accept underscores or non-ASCII digits here.
- `AlphaVantage.QuoteSentinelPrecedence`: a float, list or dict value under
  "Error Message" or "Information" appears in the message as the stand-in
  `<float>`, `<list>` or `<dict>`. Python shows `str(value)` there, for
  example "1.5". Float printing and Python's `repr` of containers are not
  modelled. Strings, integers, booleans and `None` are exact
  (`Json.RenderExact`).
- `AlphaVantage.OverviewClassification`: the same stand-ins apply to a
  float, list or dict value under "Error Message".
- `Fmp.ErrorFieldFails`: the same stand-ins apply to a float, list or dict
  value under "Error Message" or "error". The same message text flows into
  `Fmp.QuoteOutcome`'s failures.
- `StockUtils.DirectQuote`: "change" holds the change percentage as a
  number, because float formatting is not modelled. The ISO timestamp is
  omitted.
- `StockUtils.EightPillarAnalysis`: the per-pillar display strings and
  interpretations are not part of the report, and neither is
  `locals()`-based "N/A" text.
- `LegacyPillars.LegacyAnalysis`: the per-pillar display dictionaries
  and the recommendation text are not part of the report, only the
  marks and the score.
- `FinancialCalculators.CompoundInterestCalculator`: float overflow is
  not modelled. With exact reals every validated request succeeds. In
  Python, `(1 + rate_decimal / frequency) ** (frequency * time)` raises
  `OverflowError` when the result leaves the float range, for example
  with rate 100, time 1100 and frequency 1. The handler then answers
  "Unexpected error: ..." instead.
- `FinancialCalculators.RetirementCalculator`: float conversion is not
  modelled. With exact reals every validated request succeeds. In Python,
  an integer `current_savings` or `monthly_contribution` beyond the float
  range (for example `10**309`) passes validation, and then
  `balance *= (1 + monthly_rate)` (line 210) raises `OverflowError` ("int
  too large to convert to float"). The handler then answers "Unexpected
  error: ..." (lines 263-270) instead of a projection.
- `FinancialCalculators.RetirementCalculator`: the total contribution is
  stated as savings plus twelve contributions a year. The code adds them
  one month at a time, which for exact reals is the same.
- `AlphaVantage.QuoteDict`: the `timestamp` field is the clock text
  passed in.
- The service does not walk the configured fallback chain. It resolves a
  single primary source. It calls Alpha Vantage only when that primary is
  Alpha Vantage, and Yahoo Finance for every other primary, FMP included.
  On failure it asks the configuration for one fallback source (see
  Findings).
- Annuity timing: a comment in the retirement handler quotes the
  ordinary-annuity formula. The loop adds each contribution before the
  month's return, which is an annuity due, and the model follows the loop.

## Findings

| source | as written | input that shows it | evidently intended | confidence | as-written member | corrected member |
|---|---|---|---|---|---|---|
| src/services/stock_data_service.py:92 | After a primary failure the service calls `self.config.get_fallback_source()`. The configuration class defines only `get_fallback_sources` (src/config/data_sources.py:91-93), so the call raises `AttributeError`. | Any cache miss whose primary provider raises, for example an Alpha Vantage quote whose body carries "Note". | A single fallback source is obtained. When it differs from the primary, the matching client is tried, and its success is returned marked `fallback_used`. | high, not executed | `StockDataService.PrimaryFailureEscapesAsWritten` | `StockDataService.IntendedFallback` |

=== FILE: alpha_vantage.dfy ===
/**
 * The Alpha Vantage client: exchange-suffix rewriting of the symbol, the
 * ordered classification of a decoded body into error sentinels versus
 * data, and the normalised quote and overview records.
 *
 * Python's `float(...)` on vendor values is a parameter `toFloat`: its
 * string grammar is not part of this model, only where it is applied and
 * that its failure escapes.
 */
module AlphaVantage {
  import opened Wrappers
  import opened PyErrors
  import opened PyStrings
  import opened Json

  /** `float(value)`; a failure is the exception Python raises. */
  type FloatOf = Json -> Result<real, Exception>

  /** The symbol sent with GLOBAL_QUOTE: a contains-test picks one rewrite. */
  function QuoteSymbol(symbol: string): string {
    var u := Upper(symbol);
    if Contains(u, ".NS") then Replace(u, ".NS", ".BSE")
    else if Contains(u, ".BO") then Replace(u, ".BO", ".BSE")
    else u
  }

  /** The symbol sent with OVERVIEW: both rewrites, one after the other. */
  function OverviewSymbol(symbol: string): string {
    Replace(Replace(Upper(symbol), ".NS", ".BSE"), ".BO", ".BSE")
  }

  const QuoteRateLimitMessage: string :=
    "Alpha Vantage rate limit exceeded (25 calls/day). Falling back to Yahoo Finance."
  const OverviewRateLimitMessage: string :=
    "Alpha Vantage rate limit exceeded. Falling back to Yahoo Finance."

  function ConnectionFailure(reason: string): Exception {
    ConnectionError("Failed to connect to Alpha Vantage: " + reason)
  }

  /** `int(x)` on a float: truncation toward zero. */
  function Trunc(x: real): int {
    if x >= 0.0 then x.Floor else -((-x).Floor)
  }

  /** `get_quote`. `stamp` is the clock's ISO-8601 text for the `timestamp` field. */
  function GetQuote(symbol: string, response: Response, toFloat: FloatOf, stamp: string): Result<Record, Exception> {
    match response
    case TransportFailure(reason) => Failure(ConnectionFailure(reason))
    case Body(data) => QuoteFromBody(symbol, data, toFloat, stamp)
  }

  function QuoteFromBody(symbol: string, data: Json, toFloat: FloatOf, stamp: string): Result<Record, Exception> {
    if !Iterable(data) then Failure(NotIterable(data))
    else if Member("Error Message", data) then
      var m :- Index(data, "Error Message");
      Failure(ValueError("Alpha Vantage API error: " + Render(m)))
    else if Member("Note", data) then Failure(ValueError(QuoteRateLimitMessage))
    else if Member("Information", data) then
      var m :- Index(data, "Information");
      Failure(ValueError("Alpha Vantage: " + Render(m)))
    else if !Member("Global Quote", data) then Failure(ValueError("No data found for symbol: " + symbol))
    else
      var quote :- Index(data, "Global Quote");
      if !Truthy(quote) then Failure(ValueError("No data found for symbol: " + symbol))
      else QuoteRecord(symbol, quote, toFloat, stamp)
  }

  /** The parsing and the result dict of `get_quote`, in evaluation order. */
  function QuoteRecord(symbol: string, quote: Json, toFloat: FloatOf, stamp: string): Result<Record, Exception> {
    var p :- Get(quote, "05. price", JInt(0));
    var price :- toFloat(p);
    var pc :- Get(quote, "08. previous close", JInt(0));
    var previousClose :- toFloat(pc);
    var ch :- Get(quote, "09. change", JInt(0));
    var change :- toFloat(ch);
    var cp :- Get(quote, "10. change percent", JStr("0%"));
    if !cp.JStr? then Failure(AttributeError("'" + TypeName(cp) + "' object has no attribute 'rstrip'"))
    else
      var v :- Get(quote, "06. volume", JInt(0));
      var volume :- toFloat(v);
      var o :- Get(quote, "02. open", JInt(0));
      var open :- toFloat(o);
      var h :- Get(quote, "03. high", JInt(0));
      var high :- toFloat(h);
      var l :- Get(quote, "04. low", JInt(0));
      var low :- toFloat(l);
      var day :- Get(quote, "07. latest trading day", JStr(""));
      Success(QuoteDict(symbol, price, change, RStripChar(cp.s, '%'), Trunc(volume),
                        previousClose, open, high, low, day, stamp))
  }

  /** The result dict of `get_quote`. */
  function QuoteDict(symbol: string, price: real, change: real, changePercent: string, volume: int,
                     previousClose: real, open: real, high: real, low: real, day: Json,
                     stamp: string): (r: Record)
    ensures "symbol" in r && r["symbol"] == JStr(symbol)
    ensures "data_source" in r && r["data_source"] == JStr("alpha_vantage")
    ensures "status" in r && r["status"] == JStr("success")
    ensures "change_percent" in r && r["change_percent"] == JStr(changePercent)
    ensures "from_cache" !in r && "fallback_used" !in r
  {
    map[
      "symbol" := JStr(symbol),
      "price" := JFloat(price),
      "change" := JFloat(change),
      "change_percent" := JStr(changePercent),
      "volume" := JInt(volume),
      "previous_close" := JFloat(previousClose),
      "open" := JFloat(open),
      "high" := JFloat(high),
      "low" := JFloat(low),
      "latest_trading_day" := day,
      "data_source" := JStr("alpha_vantage"),
      "timestamp" := JStr(stamp + "Z"),
      "status" := JStr("success")]
  }

  /** `get_company_overview`. */
  function GetCompanyOverview(symbol: string, response: Response): Result<Record, Exception> {
    match response
    case TransportFailure(reason) => Failure(ConnectionFailure(reason))
    case Body(data) => OverviewFromBody(symbol, data)
  }

  function OverviewFromBody(symbol: string, data: Json): Result<Record, Exception> {
    if !Iterable(data) then Failure(NotIterable(data))
    else if Member("Error Message", data) then
      var m :- Index(data, "Error Message");
      Failure(ValueError("Alpha Vantage API error: " + Render(m)))
    else if Member("Note", data) || Member("Information", data) then
      Failure(ValueError(OverviewRateLimitMessage))
    else if !Truthy(data) || !Member("Symbol", data) then
      Failure(ValueError("No company data found for symbol: " + symbol))
    else if !data.JObj? then Failure(AttributeError("'" + TypeName(data) + "' object has no attribute 'get'"))
    else Success(OverviewRecord(symbol, data.fields))
  }

  function NA(fields: map<string, Json>, key: string): Json {
    if key in fields then fields[key] else JStr("N/A")
  }

  function OverviewRecord(symbol: string, f: map<string, Json>): Record {
    map[
      "symbol" := JStr(symbol),
      "name" := NA(f, "Name"),
      "description" := NA(f, "Description"),
      "sector" := NA(f, "Sector"),
      "industry" := NA(f, "Industry"),
      "market_cap" := NA(f, "MarketCapitalization"),
      "pe_ratio" := NA(f, "PERatio"),
      "peg_ratio" := NA(f, "PEGRatio"),
      "book_value" := NA(f, "BookValue"),
      "dividend_yield" := NA(f, "DividendYield"),
      "eps" := NA(f, "EPS"),
      "revenue_ttm" := NA(f, "RevenueTTM"),
      "profit_margin" := NA(f, "ProfitMargin"),
      "operating_margin" := NA(f, "OperatingMarginTTM"),
      "return_on_assets" := NA(f, "ReturnOnAssetsTTM"),
      "return_on_equity" := NA(f, "ReturnOnEquityTTM"),
      "fifty_two_week_high" := NA(f, "52WeekHigh"),
      "fifty_two_week_low" := NA(f, "52WeekLow"),
      "data_source" := JStr("alpha_vantage")]
  }

  // ---------------------------------------------------------------------
  // Properties
  // ---------------------------------------------------------------------

  /** The test is "contains", not "ends with": ".NSE" is rewritten too. */
  lemma QuoteSymbolContainsNotSuffix()
    ensures QuoteSymbol("x.nse") == "X.BSEE"
  {
    assert Upper("x.nse") == "X.NSE";
    ContainsAt("X.NSE", ".NS", 1);
    assert Replace("X.NSE", ".NS", ".BSE") == "X" + Replace(".NSE", ".NS", ".BSE");
    assert Replace(".NSE", ".NS", ".BSE") == ".BSE" + Replace("E", ".NS", ".BSE");
  }

  /** Quote and overview translations can disagree on the same input. */
  lemma QuoteSymbolDiffers()
    ensures QuoteSymbol("X.NS.BO") == "X.BSE.BO"
  {
    assert Upper("X.NS.BO") == "X.NS.BO";
    ContainsAt("X.NS.BO", ".NS", 1);
    RewriteNsExample();
  }

  lemma OverviewSymbolDiffers()
    ensures OverviewSymbol("X.NS.BO") == "X.BSE.BSE"
  {
    assert Upper("X.NS.BO") == "X.NS.BO";
    RewriteNsExample();
    RewriteBoExample();
  }

  lemma RewriteNsExample()
    ensures Replace("X.NS.BO", ".NS", ".BSE") == "X.BSE.BO"
  {
    ReplaceMiss("X.NS.BO", ".NS", ".BSE", 1);
    ReplaceHit(".NS.BO", ".NS", ".BSE");
    ReplaceMiss(".BO", ".NS", ".BSE", 1);
    assert Replace("BO", ".NS", ".BSE") == "BO";
  }

  lemma RewriteBoExample()
    ensures Replace("X.BSE.BO", ".BO", ".BSE") == "X.BSE.BSE"
  {
    ReplaceMiss("X.BSE.BO", ".BO", ".BSE", 1);
    ReplaceMiss(".BSE.BO", ".BO", ".BSE", 2);
    ReplaceMiss("BSE.BO", ".BO", ".BSE", 0);
    ReplaceMiss("SE.BO", ".BO", ".BSE", 0);
    ReplaceMiss("E.BO", ".BO", ".BSE", 0);
    ReplaceHit(".BO", ".BO", ".BSE");
  }


  /**
   * Without an exchange suffix both translations are plain upper-casing,
   * and every translation is free of lower-case letters.
   */
  lemma SymbolTranslation(symbol: string)
    ensures !Contains(Upper(symbol), ".NS") && !Contains(Upper(symbol), ".BO") ==>
              QuoteSymbol(symbol) == Upper(symbol) && OverviewSymbol(symbol) == Upper(symbol)
    ensures HasNoLower(QuoteSymbol(symbol)) && HasNoLower(OverviewSymbol(symbol))
  {
    var u := Upper(symbol);
    UpperHasNoLower(symbol);
    if !Contains(u, ".NS") && !Contains(u, ".BO") {
      ReplaceAbsent(u, ".NS", ".BSE");
      ReplaceAbsent(u, ".BO", ".BSE");
    }
    ReplaceHasNoLower(u, ".NS", ".BSE");
    ReplaceHasNoLower(u, ".BO", ".BSE");
    ReplaceHasNoLower(Replace(u, ".NS", ".BSE"), ".BO", ".BSE");
  }

  /**
   * The quote and overview translations agree on every symbol except one
   * whose upper-cased form contains ".NS" and still contains ".BO" once
   * ".NS" is rewritten: only then does the overview's second `replace`
   * have work the quote's `elif` skips.
   */
  lemma TranslationsAgree(symbol: string)
    ensures var u := Upper(symbol);
      QuoteSymbol(symbol) == OverviewSymbol(symbol) <==>
        !(Contains(u, ".NS") && Contains(Replace(u, ".NS", ".BSE"), ".BO"))
  {
    var u := Upper(symbol);
    var t := Replace(u, ".NS", ".BSE");
    if !Contains(u, ".NS") {
      ReplaceAbsent(u, ".NS", ".BSE");
      if !Contains(u, ".BO") {
        ReplaceAbsent(u, ".BO", ".BSE");
      }
    } else if !Contains(t, ".BO") {
      ReplaceAbsent(t, ".BO", ".BSE");
    } else {
      ReplaceLength(t, ".BO", ".BSE");
    }
  }

  predicate NoSentinel(f: map<string, Json>) {
    "Error Message" !in f && "Note" !in f && "Information" !in f
  }

  /**
   * Classification of a JSON object body for a quote, in precedence order:
   * "Error Message", then "Note", then "Information", then a missing or
   * empty "Global Quote".
   */
  lemma QuoteSentinelPrecedence(symbol: string, f: map<string, Json>, toFloat: FloatOf, stamp: string)
    ensures var r := QuoteFromBody(symbol, JObj(f), toFloat, stamp);
      && ("Error Message" in f ==>
            r == Failure(ValueError("Alpha Vantage API error: " + Render(f["Error Message"]))))
      && ("Error Message" !in f && "Note" in f ==> r == Failure(ValueError(QuoteRateLimitMessage)))
      && ("Error Message" !in f && "Note" !in f && "Information" in f ==>
            r == Failure(ValueError("Alpha Vantage: " + Render(f["Information"]))))
      && (NoSentinel(f) && ("Global Quote" !in f || !Truthy(f["Global Quote"])) ==>
            r == Failure(ValueError("No data found for symbol: " + symbol)))
  {
  }

  /**
   * A successful quote came from a sentinel-free body with a non-empty
   * "Global Quote" object, carries the caller's symbol rather than the
   * translated one, names the vendor, and has no cache or fallback marks.
   */
  lemma QuoteSuccessShape(symbol: string, data: Json, toFloat: FloatOf, stamp: string)
    requires QuoteFromBody(symbol, data, toFloat, stamp).Success?
    ensures data.JObj? && NoSentinel(data.fields) && "Global Quote" in data.fields
    ensures data.fields["Global Quote"].JObj? && data.fields["Global Quote"].fields != map[]
    ensures var r := QuoteFromBody(symbol, data, toFloat, stamp).value;
      && r["symbol"] == JStr(symbol)
      && r["data_source"] == JStr("alpha_vantage")
      && r["status"] == JStr("success")
      && "from_cache" !in r && "fallback_used" !in r
  {
    var quote := Index(data, "Global Quote").value;
    assert QuoteFromBody(symbol, data, toFloat, stamp) == QuoteRecord(symbol, quote, toFloat, stamp);
    QuoteRecordShape(symbol, quote, toFloat, stamp);
  }

  lemma QuoteRecordShape(symbol: string, quote: Json, toFloat: FloatOf, stamp: string)
    requires QuoteRecord(symbol, quote, toFloat, stamp).Success?
    ensures quote.JObj?
    ensures var r := QuoteRecord(symbol, quote, toFloat, stamp).value;
      && r["symbol"] == JStr(symbol)
      && r["data_source"] == JStr("alpha_vantage")
      && r["status"] == JStr("success")
      && "from_cache" !in r && "fallback_used" !in r
  {
  }

  /**
   * `change_percent` is the raw "10. change percent" text with all trailing
   * '%' removed, and "0" when the field is absent.
   */
  lemma ChangePercentStripped(symbol: string, quote: Json, toFloat: FloatOf, stamp: string)
    requires QuoteRecord(symbol, quote, toFloat, stamp).Success?
    ensures var r := QuoteRecord(symbol, quote, toFloat, stamp).value;
      && r["change_percent"].JStr?
      && var t := r["change_percent"].s;
      && (t == [] || t[|t| - 1] != '%')
      && ("10. change percent" !in quote.fields ==> t == "0")
      && ("10. change percent" in quote.fields ==>
            var raw := quote.fields["10. change percent"].s;
            StartsWith(raw, t) && forall i :: |t| <= i < |raw| ==> raw[i] == '%')
  {
    var cp := if "10. change percent" in quote.fields then quote.fields["10. change percent"] else JStr("0%");
    RStripCharSpec(cp.s, '%');
    if "10. change percent" !in quote.fields {
      assert RStripChar("0%", '%') == "0";
    }
  }

  /**
   * Overview classification of a JSON object body: "Error Message" first,
   * then "Note" or "Information" (one rate-limit error), then a missing
   * "Symbol"; a success keeps the caller's symbol.
   */
  lemma OverviewClassification(symbol: string, f: map<string, Json>)
    ensures var r := OverviewFromBody(symbol, JObj(f));
      && ("Error Message" in f ==>
            r == Failure(ValueError("Alpha Vantage API error: " + Render(f["Error Message"]))))
      && ("Error Message" !in f && ("Note" in f || "Information" in f) ==>
            r == Failure(ValueError(OverviewRateLimitMessage)))
      && (NoSentinel(f) && "Symbol" !in f ==>
            r == Failure(ValueError("No company data found for symbol: " + symbol)))
      && (NoSentinel(f) && "Symbol" in f ==>
            r.Success? && r.value["symbol"] == JStr(symbol)
            && r.value["data_source"] == JStr("alpha_vantage")
            && r.value["name"] == (if "Name" in f then f["Name"] else JStr("N/A")))
  {
  }

  /**
   * Transport failures, and only they, surface as `ConnectionError`; every
   * sentinel condition of an object body surfaces as `ValueError`.
   */
  lemma ErrorKinds(symbol: string, response: Response, toFloat: FloatOf, stamp: string)
    requires forall j :: toFloat(j).Failure? ==> !toFloat(j).error.ConnectionError?
    ensures response.TransportFailure? <==>
              (GetQuote(symbol, response, toFloat, stamp).Failure? &&
               GetQuote(symbol, response, toFloat, stamp).error.ConnectionError?)
    ensures response.TransportFailure? <==>
              (GetCompanyOverview(symbol, response).Failure? &&
               GetCompanyOverview(symbol, response).error.ConnectionError?)
    ensures response.Body? && response.data.JObj? && !NoSentinel(response.data.fields) ==>
              GetQuote(symbol, response, toFloat, stamp).Failure? &&
              GetQuote(symbol, response, toFloat, stamp).error.ValueError? &&
              GetCompanyOverview(symbol, response).Failure? &&
              GetCompanyOverview(symbol, response).error.ValueError?
  {
    if response.Body? {
      var data := response.data;
      var r := QuoteFromBody(symbol, data, toFloat, stamp);
      if r.Failure? && data.JObj? && NoSentinel(data.fields) && "Global Quote" in data.fields {
        var q := data.fields["Global Quote"];
        if Truthy(q) {
          QuoteRecordErrors(symbol, q, toFloat, stamp);
        }
      }
      QuoteBodyErrors(symbol, data, toFloat, stamp);
    }
  }

  lemma QuoteRecordErrors(symbol: string, quote: Json, toFloat: FloatOf, stamp: string)
    requires forall j :: toFloat(j).Failure? ==> !toFloat(j).error.ConnectionError?
    ensures QuoteRecord(symbol, quote, toFloat, stamp).Failure? ==>
              !QuoteRecord(symbol, quote, toFloat, stamp).error.ConnectionError?
  {
  }

  lemma QuoteBodyErrors(symbol: string, data: Json, toFloat: FloatOf, stamp: string)
    requires forall j :: toFloat(j).Failure? ==> !toFloat(j).error.ConnectionError?
    ensures QuoteFromBody(symbol, data, toFloat, stamp).Failure? ==>
              !QuoteFromBody(symbol, data, toFloat, stamp).error.ConnectionError?
  {
    if Iterable(data) && Index(data, "Global Quote").Success? {
      QuoteRecordErrors(symbol, Index(data, "Global Quote").value, toFloat, stamp);
    }
  }
}

=== FILE: data_sources.dfy ===
/**
 * Data-source configuration: the closed set of providers, the environment
 * parsing done once at construction, the "enabled" predicates, and the
 * policy that swaps an unusable primary for the first usable fallback.
 */
module DataSources {
  import opened Wrappers
  import opened PyErrors
  import opened PyStrings

  datatype DataSource = FMP | AlphaVantage | YahooFinance

  /** The enum member's value, as written in the environment. */
  function SourceValue(s: DataSource): string {
    match s
    case FMP => "fmp"
    case AlphaVantage => "alpha_vantage"
    case YahooFinance => "yahoo_finance"
  }

  /** `DataSource(value)`: lookup by exact value, `ValueError` otherwise. */
  function ParseSource(v: string): (r: Result<DataSource, Exception>)
    ensures r.Success? ==> SourceValue(r.value) == v
    ensures r.Failure? ==> r.error == ValueError("'" + v + "' is not a valid DataSource")
    ensures r.Failure? <==> forall s: DataSource :: SourceValue(s) != v
  {
    if v == "fmp" then Success(FMP)
    else if v == "alpha_vantage" then Success(AlphaVantage)
    else if v == "yahoo_finance" then Success(YahooFinance)
    else Failure(ValueError("'" + v + "' is not a valid DataSource"))
  }

  /** The process environment. */
  type Env = map<string, string>

  /** `os.environ.get(name, default)`. */
  function EnvGet(env: Env, name: string, default: string): string {
    if name in env then env[name] else default
  }

  function EnvLookup(env: Env, name: string): Option<string> {
    if name in env then Some(env[name]) else None
  }

  datatype Config = Config(
    primary: DataSource,
    fallbacks: seq<DataSource>,
    fmpKey: Option<string>,
    avKey: Option<string>,
    avRateLimit: int,
    cacheDuration: int)

  const DefaultFallbacks: seq<DataSource> := [AlphaVantage, YahooFinance]
  const DefaultCacheDuration: int := 86400
  const DefaultRateLimit: int := 25

  /** Parse the tokens of a comma-separated fallback list in order; blank tokens are dropped. */
  function ParseTokens(tokens: seq<string>): (r: Result<seq<DataSource>, Exception>)
    decreases |tokens|
  {
    if tokens == [] then Success([])
    else
      var t := Strip(tokens[0]);
      if t == [] then ParseTokens(tokens[1..])
      else
        var s :- ParseSource(t);
        var rest :- ParseTokens(tokens[1..]);
        Success([s] + rest)
  }

  /** `_parse_fallback_sources`: an unset or empty variable gives the default chain. */
  function ParseFallbackSources(env: Env): Result<seq<DataSource>, Exception> {
    var v := EnvGet(env, "FALLBACK_DATA_SOURCES", "");
    if v == "" then Success(DefaultFallbacks) else ParseTokens(Split(v, ','))
  }

  function ParseIntSetting(env: Env, name: string, default: string): Result<int, Exception> {
    var v := EnvGet(env, name, default);
    match ParseInt(v)
    case Some(i) => Success(i)
    case None => Failure(ValueError("invalid literal for int() with base 10: '" + v + "'"))
  }

  /** `DataSourceConfig.__init__`: fields are read in source order, the first failure escapes. */
  function LoadConfig(env: Env): Result<Config, Exception> {
    var primary :- ParseSource(EnvGet(env, "DATA_SOURCE", "fmp"));
    var fallbacks :- ParseFallbackSources(env);
    var rate :- ParseIntSetting(env, "ALPHA_VANTAGE_RATE_LIMIT", "25");
    var ttl :- ParseIntSetting(env, "CACHE_DURATION_SECONDS", "86400");
    Success(Config(primary, fallbacks, EnvLookup(env, "FMP_API_KEY"),
                   EnvLookup(env, "ALPHA_VANTAGE_API_KEY"), rate, ttl))
  }

  predicate KeyPresent(key: Option<string>) {
    key.Some? && key.value != ""
  }

  /** `is_fmp_enabled`. */
  predicate FmpEnabled(c: Config) {
    KeyPresent(c.fmpKey)
  }

  /** `is_alpha_vantage_enabled`. */
  predicate AlphaVantageEnabled(c: Config) {
    KeyPresent(c.avKey)
  }

  /** A source whose credential requirement is met; Yahoo Finance needs none. */
  predicate Usable(c: Config, s: DataSource) {
    match s
    case FMP => FmpEnabled(c)
    case AlphaVantage => AlphaVantageEnabled(c)
    case YahooFinance => true
  }

  /** The loop of `_get_next_available_source` over a list of candidates. */
  function FirstAvailable(c: Config, xs: seq<DataSource>): DataSource
    decreases |xs|
  {
    if xs == [] then YahooFinance
    else if xs[0] == FMP && FmpEnabled(c) then xs[0]
    else if xs[0] == AlphaVantage && AlphaVantageEnabled(c) then xs[0]
    else if xs[0] == YahooFinance then xs[0]
    else FirstAvailable(c, xs[1..])
  }

  /** `_get_next_available_source`. */
  function NextAvailableSource(c: Config): DataSource {
    FirstAvailable(c, c.fallbacks)
  }

  /** `get_primary_source`. */
  function PrimarySource(c: Config): DataSource {
    if c.primary == FMP && !FmpEnabled(c) then NextAvailableSource(c)
    else if c.primary == AlphaVantage && !AlphaVantageEnabled(c) then NextAvailableSource(c)
    else c.primary
  }

  /** `get_fallback_sources`: the parsed list as stored. */
  function FallbackSources(c: Config): seq<DataSource> {
    c.fallbacks
  }

  // ---------------------------------------------------------------------
  // Properties
  // ---------------------------------------------------------------------

  /** Value lookup and the enum values are inverse to each other. */
  lemma SourceValueRoundTrip(s: DataSource, v: string)
    ensures ParseSource(SourceValue(s)) == Success(s)
    ensures ParseSource(v).Success? ==> SourceValue(ParseSource(v).value) == v
  {
  }

  /** The index of the entry the scan stops at: the first usable one. */
  predicate IsFirstUsable(c: Config, xs: seq<DataSource>, i: int) {
    0 <= i < |xs| && Usable(c, xs[i]) && forall j :: 0 <= j < i ==> !Usable(c, xs[j])
  }

  /**
   * The scan returns the first usable entry in list order, or Yahoo Finance
   * when no entry is usable.
   */
  lemma {:induction false} FirstAvailableIsFirstUsable(c: Config, xs: seq<DataSource>)
    ensures Usable(c, FirstAvailable(c, xs))
    ensures (exists i :: IsFirstUsable(c, xs, i)) ==>
              forall i :: IsFirstUsable(c, xs, i) ==> FirstAvailable(c, xs) == xs[i]
    ensures (forall j :: 0 <= j < |xs| ==> !Usable(c, xs[j])) ==> FirstAvailable(c, xs) == YahooFinance
    decreases |xs|
  {
    if xs != [] && !Usable(c, xs[0]) {
      FirstAvailableIsFirstUsable(c, xs[1..]);
      forall i | IsFirstUsable(c, xs, i)
        ensures FirstAvailable(c, xs) == xs[i]
      {
        assert i > 0;
        assert IsFirstUsable(c, xs[1..], i - 1);
      }
      if forall j :: 0 <= j < |xs| ==> !Usable(c, xs[j]) {
        assert forall j :: 0 <= j < |xs[1..]| ==> !Usable(c, xs[1..][j]);
      }
    }
  }

  /** Entries after the first Yahoo Finance entry are never chosen. */
  lemma {:induction false} FirstAvailableStopsAtYahoo(c: Config, xs: seq<DataSource>, k: nat)
    requires k < |xs| && xs[k] == YahooFinance
    ensures exists i :: 0 <= i <= k && FirstAvailable(c, xs) == xs[i]
    decreases k
  {
    if !Usable(c, xs[0]) {
      FirstAvailableStopsAtYahoo(c, xs[1..], k - 1);
      var i :| 0 <= i <= k - 1 && FirstAvailable(c, xs[1..]) == xs[1..][i];
      assert FirstAvailable(c, xs) == xs[i + 1];
    } else {
      assert FirstAvailable(c, xs) == xs[0];
    }
  }

  /**
   * `get_primary_source` always yields a usable source; a usable configured
   * primary (Yahoo Finance always is) comes back unchanged; otherwise the
   * result is the fallback scan's answer and differs from the configured one.
   */
  lemma PrimarySourcePolicy(c: Config)
    ensures Usable(c, PrimarySource(c))
    ensures Usable(c, c.primary) ==> PrimarySource(c) == c.primary
    ensures !Usable(c, c.primary) ==>
              PrimarySource(c) == NextAvailableSource(c) && PrimarySource(c) != c.primary
  {
    FirstAvailableIsFirstUsable(c, c.fallbacks);
  }

  /** A provider is enabled exactly when its key is present and not empty. */
  lemma EnabledIffKey(env: Env)
    requires LoadConfig(env).Success?
    ensures FmpEnabled(LoadConfig(env).value) <==>
              "FMP_API_KEY" in env && env["FMP_API_KEY"] != ""
    ensures AlphaVantageEnabled(LoadConfig(env).value) <==>
              "ALPHA_VANTAGE_API_KEY" in env && env["ALPHA_VANTAGE_API_KEY"] != ""
  {
  }

  /** With nothing set: primary FMP, chain [Alpha Vantage, Yahoo], 25 calls, one-day cache. */
  lemma DefaultConfig()
    ensures LoadConfig(map[]) ==
              Success(Config(FMP, [AlphaVantage, YahooFinance], None, None, 25, 86400))
  {
    DefaultSettingDigits();
    ParseIntToString(25);
    ParseIntToString(86400);
  }

  /** The default settings' strings are the decimal forms of 25 and 86400. */
  lemma DefaultSettingDigits()
    ensures IntToString(25) == "25" && IntToString(86400) == "86400"
  {
    assert NatToString(2) == "2";
    assert NatToString(25) == NatToString(2) + "5";
    assert NatToString(8) == "8";
    assert NatToString(86) == NatToString(8) + "6";
    assert NatToString(864) == NatToString(86) + "4";
    assert NatToString(8640) == NatToString(864) + "0";
    assert NatToString(86400) == NatToString(8640) + "0";
  }

  /** An unknown primary identifier fails construction with that value's error. */
  lemma UnknownPrimaryFails(env: Env)
    requires ParseSource(EnvGet(env, "DATA_SOURCE", "fmp")).Failure?
    ensures LoadConfig(env) == Failure(ValueError("'" + EnvGet(env, "DATA_SOURCE", "fmp") + "' is not a valid DataSource"))
  {
  }

  /** An unknown non-blank fallback token fails the whole parse. */
  lemma {:induction false} UnknownTokenFails(tokens: seq<string>, k: nat)
    requires k < |tokens| && Strip(tokens[k]) != []
    requires ParseSource(Strip(tokens[k])).Failure?
    ensures ParseTokens(tokens).Failure?
    decreases k
  {
    if k > 0 {
      UnknownTokenFails(tokens[1..], k - 1);
    }
  }

  /** Tokens that are all blank parse to the empty chain. */
  lemma {:induction false} BlankTokensParseEmpty(tokens: seq<string>)
    requires forall i :: 0 <= i < |tokens| ==> Strip(tokens[i]) == []
    ensures ParseTokens(tokens) == Success([])
    decreases |tokens|
  {
    if tokens != [] {
      BlankTokensParseEmpty(tokens[1..]);
    }
  }

  function Values(xs: seq<DataSource>): (r: seq<string>)
    ensures |r| == |xs|
    ensures forall i :: 0 <= i < |xs| ==> r[i] == SourceValue(xs[i])
  {
    if xs == [] then [] else [SourceValue(xs[0])] + Values(xs[1..])
  }

  lemma NoSpaceInValue(s: DataSource)
    ensures Strip(SourceValue(s)) == SourceValue(s)
  {
    NoSpaceStrip(SourceValue(s));
  }

  lemma {:induction false} ParseValueTokens(xs: seq<DataSource>)
    ensures ParseTokens(Values(xs)) == Success(xs)
    decreases |xs|
  {
    if xs != [] {
      var tokens := Values(xs);
      NoSpaceInValue(xs[0]);
      assert tokens[0] == SourceValue(xs[0]) && Strip(tokens[0]) == SourceValue(xs[0]);
      assert SourceValue(xs[0]) != [];
      SourceValueRoundTrip(xs[0], SourceValue(xs[0]));
      assert tokens[1..] == Values(xs[1..]);
      ParseValueTokens(xs[1..]);
      assert ParseTokens(tokens) == Success([xs[0]] + xs[1..]);
      assert xs == [xs[0]] + xs[1..];
    }
  }

  /**
   * Writing a non-empty chain as comma-separated values and parsing it back
   * gives the same chain, order, duplicates and all; the empty value gives
   * the default chain.
   */
  lemma FallbackRoundTrip(env: Env, xs: seq<DataSource>)
    requires "FALLBACK_DATA_SOURCES" in env
    requires env["FALLBACK_DATA_SOURCES"] == Join(Values(xs), ',')
    ensures ParseFallbackSources(env) == Success(if xs == [] then DefaultFallbacks else xs)
  {
    if xs != [] {
      forall i | 0 <= i < |Values(xs)|
        ensures Free(Values(xs)[i], ',')
      {
      }
      SplitJoin(Values(xs), ',');
      assert Join(Values(xs), ',') != "" by {
        assert |SourceValue(xs[0])| > 0;
        JoinNonEmpty(Values(xs), ',');
      }
      ParseValueTokens(xs);
    }
  }

  lemma JoinNonEmpty(parts: seq<string>, sep: char)
    requires |parts| >= 1 && |parts[0]| > 0
    ensures |Join(parts, sep)| > 0
  {
  }
}

=== FILE: financial_calculators.dfy ===
/**
 * The compound-interest and retirement calculators: their ordered input
 * validation over the decoded `arguments` object, the yearly breakdown of
 * compound growth at whole-year exponents, and the month-by-month
 * retirement accumulation, all over exact reals.
 */
module FinancialCalculators {
  import opened Wrappers
  import opened PyErrors
  import opened Json
  import opened Frames

  /** A validation message, or an exception reported as "Unexpected error: ...". */
  datatype CalcError = Invalid(message: string) | Unexpected(exception: Exception)

  function ErrorText(e: CalcError): string {
    match e
    case Invalid(m) => m
    case Unexpected(x) => "Unexpected error: " + Message(x)
  }

  const PrincipalMessage := "Principal amount must be a positive number"
  const RateMessage := "Interest rate must be a non-negative number"
  const TimeMessage := "Time period must be a positive number"
  const FrequencyMessage := "Frequency must be 1 (annual), 4 (quarterly), 12 (monthly), or 365 (daily)"
  const CurrentAgeMessage := "Current age must be between 18 and 100"
  const RetirementAgeMessage := "Retirement age must be greater than current age and less than or equal to 100"
  const SavingsMessage := "Current savings cannot be negative"
  const ContributionMessage := "Monthly contribution must be a non-negative number"
  const ReturnMessage := "Annual return must be a non-negative number"

  /** `content["arguments"]`. */
  function Arguments(content: Json): Result<Json, Exception> {
    Index(content, "arguments")
  }

  /** `args.get(key, default)` on the arguments object. */
  function Arg(args: Json, key: string, default: Json): Json
    requires args.JObj?
  {
    InfoGet(args.fields, key, default)
  }

  /** An operand of `x op <int literal>`: numbers compare, anything else raises `TypeError`. */
  function Operand(j: Json, op: string, other: string): (r: Result<real, Exception>)
    ensures r.Success? <==> Number(j).Some?
    ensures r.Success? ==> r.value == Number(j).value
  {
    match Number(j)
    case Some(x) => Success(x)
    case None =>
      Failure(TypeError("'" + op + "' not supported between instances of '" + TypeName(j) + "' and '" + other + "'"))
  }

  predicate Positive(j: Json) {
    Number(j).Some? && Number(j).value > 0.0
  }

  predicate NonNegative(j: Json) {
    Number(j).Some? && Number(j).value >= 0.0
  }

  /** `frequency in [1, 4, 12, 365]`, which compares by value (so `12.0` and `True` count). */
  predicate AllowedFrequency(j: Json) {
    Number(j).Some? && Number(j).value in {1.0, 4.0, 12.0, 365.0}
  }

  // ---------------------------------------------------------------------
  // Compound interest
  // ---------------------------------------------------------------------

  datatype CompoundInputs = CompoundInputs(principal: real, rate: real, time: real, frequency: nat)

  function FrequencyOf(x: real): (f: nat)
    requires x in {1.0, 4.0, 12.0, 365.0}
    ensures f as real == x && f in {1, 4, 12, 365}
  {
    if x == 1.0 then 1 else if x == 4.0 then 4 else if x == 12.0 then 12 else 365
  }

  /**
   * The validation of `handle_compound_interest_calculator`: principal,
   * then rate, then time, then frequency (12 when absent); the first
   * failing check selects the message.
   */
  function ValidateCompound(args: Json): (r: Result<CompoundInputs, CalcError>)
    ensures r.Success? <==>
      args.JObj? && Positive(Arg(args, "principal", JNull)) && NonNegative(Arg(args, "rate", JNull))
      && Positive(Arg(args, "time", JNull)) && AllowedFrequency(Arg(args, "frequency", JInt(12)))
    ensures r == Failure(Invalid(PrincipalMessage)) <==>
      args.JObj? && var p := Arg(args, "principal", JNull);
      p == JNull || (Number(p).Some? && Number(p).value <= 0.0)
    ensures r == Failure(Invalid(RateMessage)) <==>
      args.JObj? && Positive(Arg(args, "principal", JNull)) && var x := Arg(args, "rate", JNull);
      x == JNull || (Number(x).Some? && Number(x).value < 0.0)
    ensures r == Failure(Invalid(TimeMessage)) <==>
      args.JObj? && Positive(Arg(args, "principal", JNull)) && NonNegative(Arg(args, "rate", JNull))
      && var t := Arg(args, "time", JNull);
      t == JNull || (Number(t).Some? && Number(t).value <= 0.0)
    ensures r == Failure(Invalid(FrequencyMessage)) <==>
      args.JObj? && Positive(Arg(args, "principal", JNull)) && NonNegative(Arg(args, "rate", JNull))
      && Positive(Arg(args, "time", JNull)) && !AllowedFrequency(Arg(args, "frequency", JInt(12)))
    ensures r.Success? ==>
      && r.value.principal == Number(Arg(args, "principal", JNull)).value
      && r.value.rate == Number(Arg(args, "rate", JNull)).value
      && r.value.time == Number(Arg(args, "time", JNull)).value
      && r.value.frequency as real == Number(Arg(args, "frequency", JInt(12))).value
      && ("frequency" !in args.fields ==> r.value.frequency == 12)
  {
    if !args.JObj? then Failure(Unexpected(AttributeError("'" + TypeName(args) + "' object has no attribute 'get'")))
    else
      var principal := Arg(args, "principal", JNull);
      var rate := Arg(args, "rate", JNull);
      var time := Arg(args, "time", JNull);
      var frequency := Arg(args, "frequency", JInt(12));
      if principal == JNull then Failure(Invalid(PrincipalMessage))
      else match Operand(principal, "<=", "int")
      case Failure(e) => Failure(Unexpected(e))
      case Success(p) =>
        if p <= 0.0 then Failure(Invalid(PrincipalMessage))
        else if rate == JNull then Failure(Invalid(RateMessage))
        else match Operand(rate, "<", "int")
        case Failure(e) => Failure(Unexpected(e))
        case Success(x) =>
          if x < 0.0 then Failure(Invalid(RateMessage))
          else if time == JNull then Failure(Invalid(TimeMessage))
          else match Operand(time, "<=", "int")
          case Failure(e) => Failure(Unexpected(e))
          case Success(t) =>
            if t <= 0.0 then Failure(Invalid(TimeMessage))
            else if !AllowedFrequency(frequency) then Failure(Invalid(FrequencyMessage))
            else Success(CompoundInputs(p, x, t, FrequencyOf(Number(frequency).value)))
  }

  /** An argument that is neither null nor a number makes the comparison raise. */
  lemma NonNumericPrincipalIsUnexpected(args: Json)
    requires args.JObj?
    requires Arg(args, "principal", JNull) != JNull && Number(Arg(args, "principal", JNull)).None?
    ensures ValidateCompound(args).Failure? && ValidateCompound(args).error.Unexpected?
    ensures ValidateCompound(args).error.exception.TypeError?
  {
  }

  function Pow(b: real, n: nat): real {
    if n == 0 then 1.0 else b * Pow(b, n - 1)
  }

  lemma {:induction false} PowAdd(b: real, m: nat, n: nat)
    ensures Pow(b, m + n) == Pow(b, m) * Pow(b, n)
  {
    if n > 0 {
      PowAdd(b, m, n - 1);
      assert Pow(b, m + n) == b * Pow(b, m + n - 1);
    }
  }

  lemma PowSucc(b: real, n: nat)
    ensures Pow(b, n + 1) == b * Pow(b, n)
  {
  }

  lemma {:induction false} PowAtLeastOne(b: real, n: nat)
    requires b >= 1.0
    ensures Pow(b, n) >= 1.0
  {
    if n > 0 {
      PowAtLeastOne(b, n - 1);
      assert b * Pow(b, n - 1) >= 1.0 * Pow(b, n - 1);
    }
  }

  /** One entry of the compound yearly breakdown. */
  datatype YearAmount = YearAmount(year: nat, amount: real, interest: real)

  function Base(i: CompoundInputs): real
    requires i.frequency > 0
  {
    1.0 + i.rate / 100.0 / (i.frequency as real)
  }

  /** The principal compounded `frequency` times a year for `years` years. */
  function Compounded(i: CompoundInputs, years: nat): real
    requires i.frequency > 0
  {
    i.principal * Pow(Base(i), i.frequency * years)
  }

  /** Years 1 to `n`, year `y` compounded `frequency * y` times. */
  function Years(i: CompoundInputs, n: nat): (r: seq<YearAmount>)
    requires i.frequency > 0
    ensures |r| == n
  {
    seq(n, k requires 0 <= k < n =>
      var amount := Compounded(i, k + 1);
      YearAmount(k + 1, amount, amount - i.principal))
  }

  /** The breakdown loop runs over years 1 to `int(time)`, which is `time`'s floor for a positive `time`. */
  function CompoundBreakdown(i: CompoundInputs): (r: seq<YearAmount>)
    requires i.time > 0.0 && i.frequency > 0
    ensures |r| == i.time.Floor
  {
    Years(i, i.time.Floor)
  }

  /** `handle_compound_interest_calculator` up to the yearly breakdown. */
  function CompoundInterestCalculator(content: Json): (r: Result<seq<YearAmount>, CalcError>)
    ensures Arguments(content).Failure? ==> r == Failure(Unexpected(Arguments(content).error))
    ensures r.Success? <==> Arguments(content).Success? && ValidateCompound(Arguments(content).value).Success?
    ensures r.Success? ==>
      var i := ValidateCompound(Arguments(content).value).value;
      |r.value| == i.time.Floor >= 0 && i.frequency in {1, 4, 12, 365}
  {
    match Arguments(content)
    case Failure(e) => Failure(Unexpected(e))
    case Success(args) =>
      match ValidateCompound(args)
      case Failure(e) => Failure(e)
      case Success(i) => Success(CompoundBreakdown(i))
  }

  /** Multiplying a non-negative amount by a factor of at least one does not shrink it. */
  lemma ScaleUp(a: real, x: real)
    requires a >= 0.0 && x >= 1.0
    ensures a * x >= a
  {
    assert a * x - a == a * (x - 1.0);
  }

  /** `f * (n + 1)` compounding periods are `f * n` periods and `f` more. */
  lemma PowPeriods(b: real, f: nat, n: nat)
    ensures Pow(b, f * (n + 1)) == Pow(b, f * n) * Pow(b, f)
  {
    var e := f * n;
    assert f * (n + 1) == e + f;
    PowAdd(b, e, f);
  }

  /** One more year is `frequency` more compounding periods. */
  lemma CompoundStep(i: CompoundInputs, n: nat)
    requires i.frequency > 0
    ensures Compounded(i, n + 1) == Compounded(i, n) * Pow(Base(i), i.frequency)
  {
    var b := Base(i);
    var p := Pow(b, i.frequency * n);
    var q := Pow(b, i.frequency);
    PowPeriods(b, i.frequency, n);
    assert i.principal * (p * q) == (i.principal * p) * q;
  }

  /** Entry `k` of the breakdown is year `k + 1`, its amount compounded for that many years. */
  lemma YearsEntry(i: CompoundInputs, n: nat, k: nat)
    requires i.frequency > 0 && k < n
    ensures var e := Years(i, n)[k];
      e.year == k + 1 && e.amount == Compounded(i, k + 1) && e.interest == e.amount - i.principal
  {
  }

  lemma CompoundedOneYear(i: CompoundInputs)
    requires i.frequency > 0
    ensures Compounded(i, 1) == i.principal * Pow(Base(i), i.frequency)
  {
    assert i.frequency * 1 == i.frequency;
  }

  /** Each year's amount is the previous year's compounded `frequency` more times. */
  lemma YearsStep(i: CompoundInputs, n: nat, k: nat)
    requires i.frequency > 0 && 0 < k < n
    ensures Years(i, n)[k].amount == Years(i, n)[k - 1].amount * Pow(Base(i), i.frequency)
  {
    YearsEntry(i, n, k);
    YearsEntry(i, n, k - 1);
    CompoundStep(i, k);
  }

  /** The first year is the principal compounded `frequency` times. */
  lemma CompoundFirstYear(i: CompoundInputs)
    requires i.time >= 1.0 && i.frequency > 0
    ensures CompoundBreakdown(i)[0].amount == i.principal * Pow(Base(i), i.frequency)
  {
    YearsEntry(i, i.time.Floor, 0);
    CompoundedOneYear(i);
  }

  /** Entries are numbered from 1 and each carries its amount minus the principal as interest. */
  predicate NumberedFromOne(r: seq<YearAmount>, i: CompoundInputs) {
    forall k :: 0 <= k < |r| ==> r[k].year == k + 1 && r[k].interest == r[k].amount - i.principal
  }

  /** Entry `k`'s amount is entry `k - 1`'s times `factor`. */
  predicate ScaledFromPrevious(r: seq<YearAmount>, k: nat, factor: real)
    requires 0 < k < |r|
  {
    r[k].amount == r[k - 1].amount * factor
  }

  /** Each entry's amount is the previous one's compounded `frequency` more times. */
  predicate YearOnYear(r: seq<YearAmount>, i: CompoundInputs)
    requires i.frequency > 0
  {
    forall k :: 0 < k < |r| ==> ScaledFromPrevious(r, k, Pow(Base(i), i.frequency))
  }

  /**
   * The breakdown is numbered 1.. and each year's amount is the previous
   * year's compounded `frequency` more times.
   */
  lemma CompoundBreakdownSteps(i: CompoundInputs)
    requires i.time > 0.0 && i.frequency > 0
    ensures NumberedFromOne(CompoundBreakdown(i), i) && YearOnYear(CompoundBreakdown(i), i)
  {
    YearsNumbered(i, i.time.Floor);
    YearsCompound(i, i.time.Floor);
  }

  lemma YearsNumbered(i: CompoundInputs, n: nat)
    requires i.frequency > 0
    ensures NumberedFromOne(Years(i, n), i)
  {
    forall k | 0 <= k < n
      ensures Years(i, n)[k].year == k + 1 && Years(i, n)[k].interest == Years(i, n)[k].amount - i.principal
    {
      YearsEntry(i, n, k);
    }
  }

  lemma YearsCompound(i: CompoundInputs, n: nat)
    requires i.frequency > 0
    ensures YearOnYear(Years(i, n), i)
  {
    forall k | 0 < k < n
      ensures ScaledFromPrevious(Years(i, n), k, Pow(Base(i), i.frequency))
    {
      YearsStep(i, n, k);
    }
  }

  /** With a non-negative rate the principal never shrinks by compounding. */
  lemma CompoundedAtLeastPrincipal(i: CompoundInputs, n: nat)
    requires i.frequency > 0 && i.rate >= 0.0 && i.principal >= 0.0
    ensures Compounded(i, n) >= i.principal
  {
    var b := Base(i);
    assert b >= 1.0;
    PowAtLeastOne(b, i.frequency * n);
    ScaleUp(i.principal, Pow(b, i.frequency * n));
  }

  /** With a non-negative rate a further year never lowers the amount. */
  lemma CompoundedNeverFalls(i: CompoundInputs, n: nat)
    requires i.frequency > 0 && i.rate >= 0.0 && i.principal >= 0.0
    ensures Compounded(i, n + 1) >= Compounded(i, n)
  {
    var b := Base(i);
    assert b >= 1.0;
    CompoundedAtLeastPrincipal(i, n);
    PowAtLeastOne(b, i.frequency);
    CompoundStep(i, n);
    ScaleUp(Compounded(i, n), Pow(b, i.frequency));
  }

  /**
   * With a non-negative rate and a positive principal, no year's amount is
   * below the principal or below the previous year's.
   */
  lemma CompoundBreakdownGrows(i: CompoundInputs)
    requires i.time > 0.0 && i.frequency > 0
    requires i.rate >= 0.0 && i.principal > 0.0
    ensures var r := CompoundBreakdown(i);
      forall k :: 0 <= k < |r| ==> r[k].interest >= 0.0 && (k > 0 ==> r[k].amount >= r[k - 1].amount)
  {
    var n := i.time.Floor;
    var r := Years(i, n);
    forall k | 0 <= k < n
      ensures r[k].interest >= 0.0 && (k > 0 ==> r[k].amount >= r[k - 1].amount)
    {
      YearsEntry(i, n, k);
      CompoundedAtLeastPrincipal(i, k + 1);
      if k > 0 {
        YearsEntry(i, n, k - 1);
        CompoundedNeverFalls(i, k);
      }
    }
  }

  // ---------------------------------------------------------------------
  // Retirement
  // ---------------------------------------------------------------------

  datatype RetirementInputs = RetirementInputs(
    currentAge: int, retirementAge: int, savings: real, contribution: real, annualReturn: real)

  /** `current_age is None or current_age < 18 or current_age > 100` holds. */
  predicate CurrentAgeFails(a: Json) {
    a == JNull || (Number(a).Some? && (Number(a).value < 18.0 || Number(a).value > 100.0))
  }

  /** A current age that passed its check. */
  predicate AgeInRange(a: Json) {
    Number(a).Some? && 18.0 <= Number(a).value <= 100.0
  }

  /** `retirement_age is None or retirement_age <= current_age or retirement_age > 100` holds. */
  predicate RetirementAgeFails(a: Json, ra: Json)
    requires Number(a).Some?
  {
    ra == JNull || (Number(ra).Some? && (Number(ra).value <= Number(a).value || Number(ra).value > 100.0))
  }

  /** A retirement age that passed its check. */
  predicate RetirementAgeValid(a: Json, ra: Json)
    requires Number(a).Some?
  {
    Number(ra).Some? && Number(a).value < Number(ra).value <= 100.0
  }

  /** `x is None or x < 0` holds. */
  predicate AmountFails(x: Json) {
    x == JNull || (Number(x).Some? && Number(x).value < 0.0)
  }

  /**
   * The validation of `handle_retirement_calculator`, in order: current
   * age in 18..100, retirement age above it and at most 100, savings
   * (0 when absent) not negative, contribution and return not negative.
   * Ages that pass but are floats make `range` raise afterwards.
   */
  function ValidateRetirement(args: Json): (r: Result<RetirementInputs, CalcError>)
    ensures r == Failure(Invalid(CurrentAgeMessage)) <==>
      args.JObj? && CurrentAgeFails(Arg(args, "current_age", JNull))
    ensures r == Failure(Invalid(RetirementAgeMessage)) <==>
      args.JObj? && var a := Arg(args, "current_age", JNull);
      AgeInRange(a) && RetirementAgeFails(a, Arg(args, "retirement_age", JNull))
    ensures r == Failure(Invalid(SavingsMessage)) <==>
      args.JObj? && var a := Arg(args, "current_age", JNull);
      AgeInRange(a) && RetirementAgeValid(a, Arg(args, "retirement_age", JNull))
      && var s := Arg(args, "current_savings", JInt(0));
      Number(s).Some? && Number(s).value < 0.0
    ensures r == Failure(Invalid(ContributionMessage)) <==>
      args.JObj? && var a := Arg(args, "current_age", JNull);
      AgeInRange(a) && RetirementAgeValid(a, Arg(args, "retirement_age", JNull))
      && NonNegative(Arg(args, "current_savings", JInt(0)))
      && AmountFails(Arg(args, "monthly_contribution", JNull))
    ensures r == Failure(Invalid(ReturnMessage)) <==>
      args.JObj? && var a := Arg(args, "current_age", JNull);
      AgeInRange(a) && RetirementAgeValid(a, Arg(args, "retirement_age", JNull))
      && NonNegative(Arg(args, "current_savings", JInt(0)))
      && NonNegative(Arg(args, "monthly_contribution", JNull))
      && AmountFails(Arg(args, "annual_return", JNull))
    ensures r.Success? <==>
      args.JObj? && var a := Arg(args, "current_age", JNull);
      var ra := Arg(args, "retirement_age", JNull);
      AgeInRange(a) && RetirementAgeValid(a, ra)
      && NonNegative(Arg(args, "current_savings", JInt(0)))
      && NonNegative(Arg(args, "monthly_contribution", JNull))
      && NonNegative(Arg(args, "annual_return", JNull))
      && a.JInt? && ra.JInt?
    ensures r.Success? ==>
      && args.JObj?
      && Arg(args, "current_age", JNull) == JInt(r.value.currentAge)
      && Arg(args, "retirement_age", JNull) == JInt(r.value.retirementAge)
      && 18 <= r.value.currentAge < r.value.retirementAge <= 100
      && Number(Arg(args, "current_savings", JInt(0))) == Some(r.value.savings) && r.value.savings >= 0.0
      && Number(Arg(args, "monthly_contribution", JNull)) == Some(r.value.contribution) && r.value.contribution >= 0.0
      && Number(Arg(args, "annual_return", JNull)) == Some(r.value.annualReturn) && r.value.annualReturn >= 0.0
  {
    if !args.JObj? then Failure(Unexpected(AttributeError("'" + TypeName(args) + "' object has no attribute 'get'")))
    else
      var currentAge := Arg(args, "current_age", JNull);
      var retirementAge := Arg(args, "retirement_age", JNull);
      var savings := Arg(args, "current_savings", JInt(0));
      var contribution := Arg(args, "monthly_contribution", JNull);
      var annualReturn := Arg(args, "annual_return", JNull);
      if currentAge == JNull then Failure(Invalid(CurrentAgeMessage))
      else match Operand(currentAge, "<", "int")
      case Failure(e) => Failure(Unexpected(e))
      case Success(ca) =>
        if ca < 18.0 || ca > 100.0 then Failure(Invalid(CurrentAgeMessage))
        else if retirementAge == JNull then Failure(Invalid(RetirementAgeMessage))
        else match Operand(retirementAge, "<=", TypeName(currentAge))
        case Failure(e) => Failure(Unexpected(e))
        case Success(ra) =>
          if ra <= ca || ra > 100.0 then Failure(Invalid(RetirementAgeMessage))
          else match Operand(savings, "<", "int")
          case Failure(e) => Failure(Unexpected(e))
          case Success(s) =>
            if s < 0.0 then Failure(Invalid(SavingsMessage))
            else if contribution == JNull then Failure(Invalid(ContributionMessage))
            else match Operand(contribution, "<", "int")
            case Failure(e) => Failure(Unexpected(e))
            case Success(c) =>
              if c < 0.0 then Failure(Invalid(ContributionMessage))
              else if annualReturn == JNull then Failure(Invalid(ReturnMessage))
              else match Operand(annualReturn, "<", "int")
              case Failure(e) => Failure(Unexpected(e))
              case Success(x) =>
                if x < 0.0 then Failure(Invalid(ReturnMessage))
                else if currentAge.JInt? && retirementAge.JInt? then
                  Success(RetirementInputs(currentAge.i, retirementAge.i, s, c, x))
                else Failure(Unexpected(TypeError("'float' object cannot be interpreted as an integer")))
  }

  /** A value that `None` checks and comparisons with numbers accept: null or a number. */
  predicate Comparable(j: Json) {
    j == JNull || Number(j).Some?
  }

  /**
   * When no comparison raises (each field absent, null or a number, and the
   * savings absent or a number), the checks run in order: current age,
   * retirement age, savings, contribution, return; the first that fails
   * picks the message, and ages that pass but are floats fail in `range`.
   */
  lemma RetirementValidationOrder(args: Json)
    requires args.JObj?
    requires Comparable(Arg(args, "current_age", JNull)) && Comparable(Arg(args, "retirement_age", JNull))
    requires Number(Arg(args, "current_savings", JInt(0))).Some?
    requires Comparable(Arg(args, "monthly_contribution", JNull)) && Comparable(Arg(args, "annual_return", JNull))
    ensures var a := Arg(args, "current_age", JNull);
      var ra := Arg(args, "retirement_age", JNull);
      var s := Number(Arg(args, "current_savings", JInt(0))).value;
      var c := Arg(args, "monthly_contribution", JNull);
      var x := Arg(args, "annual_return", JNull);
      ValidateRetirement(args) ==
        if CurrentAgeFails(a) then Failure(Invalid(CurrentAgeMessage))
        else if RetirementAgeFails(a, ra) then Failure(Invalid(RetirementAgeMessage))
        else if s < 0.0 then Failure(Invalid(SavingsMessage))
        else if AmountFails(c) then Failure(Invalid(ContributionMessage))
        else if AmountFails(x) then Failure(Invalid(ReturnMessage))
        else if a.JInt? && ra.JInt? then
          Success(RetirementInputs(a.i, ra.i, s, Number(c).value, Number(x).value))
        else Failure(Unexpected(TypeError("'float' object cannot be interpreted as an integer")))
  {
  }

  /** Absent savings count as 0, but an explicit null makes `None < 0` raise. */
  lemma SavingsDefault(ca: int, ra: int, c: real, x: real)
    requires 18 <= ca < ra <= 100 && c >= 0.0 && x >= 0.0
    ensures var args := JObj(map["current_age" := JInt(ca), "retirement_age" := JInt(ra),
                                 "monthly_contribution" := JFloat(c), "annual_return" := JFloat(x)]);
      ValidateRetirement(args) == Success(RetirementInputs(ca, ra, 0.0, c, x))
    ensures var args := JObj(map["current_age" := JInt(ca), "retirement_age" := JInt(ra),
                                 "current_savings" := JNull,
                                 "monthly_contribution" := JFloat(c), "annual_return" := JFloat(x)]);
      ValidateRetirement(args).Failure? && ValidateRetirement(args).error.Unexpected?
  {
  }

  /** Float ages that pass every check still fail, in `range`. */
  lemma FloatAgesRaise(ca: real, ra: real)
    requires 18.0 <= ca < ra <= 100.0
    ensures var args := JObj(map["current_age" := JFloat(ca), "retirement_age" := JFloat(ra),
                                 "monthly_contribution" := JInt(0), "annual_return" := JInt(0)]);
      ValidateRetirement(args) ==
        Failure(Unexpected(TypeError("'float' object cannot be interpreted as an integer")))
  {
  }

  /** The balance after `months` months: each adds the contribution, then applies the monthly return. */
  function Accumulate(start: real, contribution: real, monthlyRate: real, months: nat): real {
    if months == 0 then start
    else (Accumulate(start, contribution, monthlyRate, months - 1) + contribution) * (1.0 + monthlyRate)
  }

  /**
   * Closed form of the loop: contributions are made at the start of each
   * month, so the annuity term carries one extra factor of `1 + r`.
   */
  lemma {:induction false} AccumulateClosedForm(b: real, c: real, r: real, n: nat)
    ensures Accumulate(b, c, r, n) * r == b * Pow(1.0 + r, n) * r + c * (1.0 + r) * (Pow(1.0 + r, n) - 1.0)
  {
    if n > 0 {
      var a := Accumulate(b, c, r, n - 1);
      var p := Pow(1.0 + r, n - 1);
      AccumulateClosedForm(b, c, r, n - 1);
      assert Accumulate(b, c, r, n) == (a + c) * (1.0 + r);
      PowSucc(1.0 + r, n - 1);
      ClosedFormStep(a, b, c, r, p);
    }
  }

  /** The inductive step of the closed form, as algebra on named quantities. */
  lemma ClosedFormStep(a: real, b: real, c: real, r: real, p: real)
    requires a * r == b * p * r + c * (1.0 + r) * (p - 1.0)
    ensures (a + c) * (1.0 + r) * r == b * ((1.0 + r) * p) * r + c * (1.0 + r) * ((1.0 + r) * p - 1.0)
  {
    var q := 1.0 + r;
    assert (a + c) * q * r == (a * r) * q + c * q * r;
    assert (a * r) * q == b * (q * p) * r + c * q * (q * p) - c * q * q;
    assert c * q * q - c * q * r == c * q;
  }

  /** With no return the balance is the start plus the contributions. */
  lemma {:induction false} AccumulateWithoutReturn(b: real, c: real, n: nat)
    ensures Accumulate(b, c, 0.0, n) == b + n as real * c
  {
    if n > 0 {
      AccumulateWithoutReturn(b, c, n - 1);
    }
  }

  /** With nothing negative the balance grows by at least the contributions. */
  lemma {:induction false} AccumulateGrows(b: real, c: real, r: real, n: nat)
    requires b >= 0.0 && c >= 0.0 && r >= 0.0
    ensures Accumulate(b, c, r, n) >= b + n as real * c
  {
    if n > 0 {
      AccumulateGrows(b, c, r, n - 1);
      var a := Accumulate(b, c, r, n - 1);
      assert (a + c) * (1.0 + r) >= a + c;
    }
  }

  datatype YearRow = YearRow(
    year: nat, age: int, startBalance: real, contributions: real, endBalance: real, interest: real)

  datatype Projection = Projection(
    years: int, balance: real, totalContributions: real, totalInterest: real, breakdown: seq<YearRow>)

  function MonthlyRate(annualReturn: real): real {
    annualReturn / 100.0 / 12.0
  }

  /** One year of the inner loop: twelve contributions, each followed by a month's return. */
  method AccumulateYear(start: real, c: real, rate: real) returns (balance: real, contributed: real)
    ensures balance == Accumulate(start, c, rate, 12)
    ensures contributed == 12.0 * c
  {
    balance := start;
    contributed := 0.0;
    var month := 0;
    while month < 12
      invariant 0 <= month <= 12
      invariant contributed == month as real * c
      invariant balance == Accumulate(start, c, rate, month)
    {
      balance := balance + c;
      contributed := contributed + c;
      balance := balance * (1.0 + rate);
      month := month + 1;
    }
  }

  /** Row `k` of the breakdown: year `k + 1`, the age then, a year of contributions and returns. */
  predicate YearRowOf(row: YearRow, k: nat, inp: RetirementInputs) {
    && row.year == k + 1
    && row.age == inp.currentAge + k + 1
    && row.contributions == 12.0 * inp.contribution
    && row.endBalance == Accumulate(row.startBalance, inp.contribution, MonthlyRate(inp.annualReturn), 12)
    && row.interest == row.endBalance - row.startBalance - row.contributions
  }

  predicate YearRows(rows: seq<YearRow>, inp: RetirementInputs) {
    forall k :: 0 <= k < |rows| ==> YearRowOf(rows[k], k, inp)
  }

  /** The first year starts from the savings and every later year where the previous one ended. */
  predicate Continuous(rows: seq<YearRow>, savings: real) {
    && (rows != [] ==> rows[0].startBalance == savings)
    && (forall k :: 0 < k < |rows| ==> rows[k].startBalance == rows[k - 1].endBalance)
  }

  /** No year ends below its start plus its contributions. */
  predicate NeverDecreasing(rows: seq<YearRow>) {
    forall k :: 0 <= k < |rows| ==> rows[k].endBalance >= rows[k].startBalance + rows[k].contributions
  }

  function Closing(rows: seq<YearRow>, savings: real): real {
    if rows == [] then savings else rows[|rows| - 1].endBalance
  }

  lemma AppendYear(rows: seq<YearRow>, row: YearRow, inp: RetirementInputs)
    requires YearRows(rows, inp) && Continuous(rows, inp.savings)
    requires YearRowOf(row, |rows|, inp) && row.startBalance == Closing(rows, inp.savings)
    ensures YearRows(rows + [row], inp) && Continuous(rows + [row], inp.savings)
    ensures Closing(rows + [row], inp.savings) == row.endBalance
    ensures NeverDecreasing(rows) && row.endBalance >= row.startBalance + row.contributions ==>
      NeverDecreasing(rows + [row])
  {
  }

  predicate NonNegativeInputs(inp: RetirementInputs) {
    inp.savings >= 0.0 && inp.contribution >= 0.0 && inp.annualReturn >= 0.0
  }

  /** What the outer loop keeps before year `year`: the rows so far, the balance and the total paid in. */
  predicate Progress(inp: RetirementInputs, year: int, rows: seq<YearRow>, balance: real, total: real) {
    && 1 <= year && |rows| == year - 1
    && total == inp.savings + 12.0 * (year - 1) as real * inp.contribution
    && balance == Closing(rows, inp.savings)
    && YearRows(rows, inp) && Continuous(rows, inp.savings)
    && (inp.annualReturn == 0.0 ==> balance == total)
    && (NonNegativeInputs(inp) ==> balance >= 0.0 && NeverDecreasing(rows))
  }

  /** One more year of the outer loop keeps its invariant. */
  lemma NextYear(inp: RetirementInputs, year: int, rows: seq<YearRow>, start: real, total: real)
    requires Progress(inp, year, rows, start, total)
    ensures var c := inp.contribution;
      var end := Accumulate(start, c, MonthlyRate(inp.annualReturn), 12);
      var row := YearRow(year, inp.currentAge + year, start, 12.0 * c, end, end - start - 12.0 * c);
      Progress(inp, year + 1, rows + [row], end, total + 12.0 * c)
  {
    var c := inp.contribution;
    var end := Accumulate(start, c, MonthlyRate(inp.annualReturn), 12);
    var row := YearRow(year, inp.currentAge + year, start, 12.0 * c, end, end - start - 12.0 * c);
    if inp.annualReturn == 0.0 {
      AccumulateWithoutReturn(start, c, 12);
    }
    if NonNegativeInputs(inp) {
      AccumulateGrows(start, c, MonthlyRate(inp.annualReturn), 12);
    }
    AppendYear(rows, row, inp);
    assert 12.0 * year as real * c == 12.0 * (year - 1) as real * c + 12.0 * c;
  }

  /** The accumulation loop of `handle_retirement_calculator`. */
  method ProjectRetirement(inp: RetirementInputs) returns (p: Projection)
    ensures p.years == inp.retirementAge - inp.currentAge
    ensures var n := if p.years > 0 then p.years else 0;
      && |p.breakdown| == n
      && p.totalContributions == inp.savings + 12.0 * n as real * inp.contribution
    ensures YearRows(p.breakdown, inp)
    ensures Continuous(p.breakdown, inp.savings)
    ensures p.balance == Closing(p.breakdown, inp.savings)
    ensures p.totalInterest == p.balance - p.totalContributions
    ensures inp.annualReturn == 0.0 ==> p.balance == p.totalContributions && p.totalInterest == 0.0
    ensures NonNegativeInputs(inp) ==> NeverDecreasing(p.breakdown)
  {
    var c := inp.contribution;
    var rate := MonthlyRate(inp.annualReturn);
    var years := inp.retirementAge - inp.currentAge;
    var n := if years > 0 then years else 0;
    var balance := inp.savings;
    var total := inp.savings;
    var rows: seq<YearRow> := [];
    var year := 1;
    while year <= n
      invariant year <= n + 1
      invariant Progress(inp, year, rows, balance, total)
    {
      var start := balance;
      var contributed;
      balance, contributed := AccumulateYear(start, c, rate);
      NextYear(inp, year, rows, start, total);
      total := total + contributed;
      rows := rows + [YearRow(year, inp.currentAge + year, start, contributed, balance, balance - start - contributed)];
      year := year + 1;
    }
    p := Projection(years, balance, total, balance - total, rows);
  }

  /**
   * What the handler's answer promises: one row per year to retirement, the
   * last at the retirement age, each row a year of contributions and
   * returns starting where the previous one ended, every contribution
   * counted, and a closing balance that covers them.
   */
  predicate Answers(inp: RetirementInputs, p: Projection) {
    && p.years == inp.retirementAge - inp.currentAge
    && |p.breakdown| == p.years > 0
    && YearRows(p.breakdown, inp)
    && Continuous(p.breakdown, inp.savings)
    && p.breakdown[|p.breakdown| - 1].age == inp.retirementAge
    && p.balance == Closing(p.breakdown, inp.savings)
    && p.totalContributions == inp.savings + 12.0 * p.years as real * inp.contribution
    && p.totalInterest == p.balance - p.totalContributions
    && (inp.annualReturn == 0.0 ==> p.totalInterest == 0.0)
    && p.balance >= p.totalContributions
  }

  /** `handle_retirement_calculator`: validation, then the projection. */
  method RetirementCalculator(content: Json) returns (r: Result<Projection, CalcError>)
    ensures var args := Arguments(content);
      && (args.Failure? ==> r == Failure(Unexpected(args.error)))
      && (args.Success? && ValidateRetirement(args.value).Failure? ==> r == Failure(ValidateRetirement(args.value).error))
    ensures r.Success? <==> Arguments(content).Success? && ValidateRetirement(Arguments(content).value).Success?
    ensures r.Success? ==> Answers(ValidateRetirement(Arguments(content).value).value, r.value)
  {
    var args := Arguments(content);
    if args.Failure? {
      return Failure(Unexpected(args.error));
    }
    var inputs := ValidateRetirement(args.value);
    if inputs.Failure? {
      return Failure(inputs.error);
    }
    var p := ProjectValidated(inputs.value);
    r := Success(p);
  }

  /** The projection of inputs that passed validation answers the request. */
  method ProjectValidated(inp: RetirementInputs) returns (p: Projection)
    requires inp.currentAge < inp.retirementAge
    requires inp.savings >= 0.0 && inp.contribution >= 0.0 && inp.annualReturn >= 0.0
    ensures Answers(inp, p)
  {
    p := ProjectRetirement(inp);
    var years := p.years;
    assert YearRowOf(p.breakdown[years - 1], years - 1, inp);
    ProjectionCovers(inp, p);
  }

  /** Over a continuous breakdown of non-decreasing years, the closing balance covers everything paid in. */
  lemma ProjectionCovers(inp: RetirementInputs, p: Projection)
    requires inp.contribution >= 0.0
    requires YearRows(p.breakdown, inp) && Continuous(p.breakdown, inp.savings) && NeverDecreasing(p.breakdown)
    requires p.balance == Closing(p.breakdown, inp.savings)
    requires p.totalContributions == inp.savings + 12.0 * |p.breakdown| as real * inp.contribution
    ensures p.balance >= p.totalContributions
  {
    var k := 0;
    while k < |p.breakdown|
      invariant 0 <= k <= |p.breakdown|
      invariant Closing(p.breakdown[..k], inp.savings) >= inp.savings + 12.0 * k as real * inp.contribution
    {
      var row := p.breakdown[k];
      assert Closing(p.breakdown[..k + 1], inp.savings) == row.endBalance;
      if k > 0 {
        assert Closing(p.breakdown[..k], inp.savings) == p.breakdown[k - 1].endBalance;
      }
      assert row.startBalance == Closing(p.breakdown[..k], inp.savings);
      assert YearRowOf(row, k, inp);
      assert row.endBalance >= row.startBalance + 12.0 * inp.contribution;
      assert 12.0 * (k + 1) as real * inp.contribution == 12.0 * k as real * inp.contribution + 12.0 * inp.contribution;
      k := k + 1;
    }
    assert p.breakdown[..|p.breakdown|] == p.breakdown;
  }
}

=== FILE: fmp.dfy ===
/**
 * The Financial Modeling Prep client: suffix-based symbol conversion, the
 * empty-array and error-field sentinels, the re-wrapping of every internal
 * failure as `ValueError`, and the standardised quote and profile records.
 */
module Fmp {
  import opened Wrappers
  import opened PyErrors
  import opened PyStrings
  import opened Json

  /** `_convert_symbol_to_fmp`: a suffix test picks the rewrite. */
  function ConvertSymbol(symbol: string): string {
    var u := Upper(symbol);
    if EndsWith(u, ".NS") then Replace(u, ".NS", ".NSE")
    else if EndsWith(u, ".BO") then Replace(u, ".BO", ".BSE")
    else u
  }

  /** `len(data)` is defined for lists, dicts and strings only. */
  predicate Sized(data: Json) {
    data.JArr? || data.JObj? || data.JStr?
  }

  /** `data[0]` on a truthy sized value. */
  function FirstItem(data: Json): Result<Json, Exception>
    requires Sized(data) && Truthy(data)
  {
    match data
    case JArr(items) => Success(items[0])
    case JObj(_) => Failure(KeyError("0"))
    case JStr(s) => Success(JStr([s[0]]))
  }

  function NoLen(data: Json): Exception {
    TypeError("object of type '" + TypeName(data) + "' has no len()")
  }

  function NoGet(data: Json): Exception {
    AttributeError("'" + TypeName(data) + "' object has no attribute 'get'")
  }

  /** The body of the `try` in `get_quote`, before the handlers re-wrap. */
  function QuoteFromBody(symbol: string, data: Json): Result<Record, Exception> {
    if !Truthy(data) then Failure(ValueError("No data returned from FMP for symbol: " + symbol))
    else if !Sized(data) then Failure(NoLen(data))
    else
      var item :- FirstItem(data);
      if !Iterable(item) then Failure(NotIterable(item))
      else if Member("Error Message", item) || Member("error", item) then
        if !item.JObj? then Failure(NoGet(item))
        else
          var msg := Or(Field(item.fields, "Error Message"), Field(item.fields, "error"));
          Failure(ValueError("FMP API error: " + Render(msg)))
      else if !item.JObj? then Failure(NoGet(item))
      else Success(StandardQuote(item.fields, symbol))
  }

  /**
   * `except (KeyError, IndexError, ValueError)`: such failures are re-raised
   * as `ValueError` with `prefix`; any other exception escapes unchanged.
   */
  function Rewrap(r: Result<Record, Exception>, prefix: string): Result<Record, Exception> {
    match r
    case Success(v) => Success(v)
    case Failure(e) =>
      if IsLookupOrValue(e) then Failure(ValueError(prefix + Message(e))) else Failure(e)
  }

  const QuoteParsePrefix: string := "Failed to parse FMP data: "
  const ProfileParsePrefix: string := "Failed to parse FMP profile data: "

  /** `get_quote`. */
  function GetQuote(symbol: string, response: Response): Result<Record, Exception> {
    match response
    case TransportFailure(reason) => Failure(ValueError("FMP request failed: " + reason))
    case Body(data) => Rewrap(QuoteFromBody(symbol, data), QuoteParsePrefix)
  }

  function ProfileFromBody(symbol: string, data: Json): Result<Record, Exception> {
    if !Truthy(data) then Failure(ValueError("No profile data returned from FMP for symbol: " + symbol))
    else if !Sized(data) then Failure(NoLen(data))
    else
      var item :- FirstItem(data);
      if !item.JObj? then Failure(NoGet(item))
      else Success(StandardProfile(item.fields, symbol))
  }

  /** `get_company_profile`. */
  function GetCompanyProfile(symbol: string, response: Response): Result<Record, Exception> {
    match response
    case TransportFailure(reason) => Failure(ValueError("FMP profile request failed: " + reason))
    case Body(data) => Rewrap(ProfileFromBody(symbol, data), ProfileParsePrefix)
  }

  /** `_standardize_quote`. */
  function StandardQuote(d: map<string, Json>, originalSymbol: string): (r: Record)
    ensures "symbol" in r && r["symbol"] == JStr(originalSymbol)
    ensures "data_source" in r && r["data_source"] == JStr("fmp")
    ensures "from_cache" !in r && "fallback_used" !in r
  {
    map[
      "symbol" := JStr(originalSymbol),
      "price" := Field(d, "price"),
      "change" := Field(d, "change"),
      "changesPercentage" := Field(d, "changesPercentage"),
      "dayLow" := Field(d, "dayLow"),
      "dayHigh" := Field(d, "dayHigh"),
      "yearLow" := Field(d, "yearLow"),
      "yearHigh" := Field(d, "yearHigh"),
      "marketCap" := Field(d, "marketCap"),
      "volume" := Field(d, "volume"),
      "avgVolume" := Field(d, "avgVolume"),
      "open" := Field(d, "open"),
      "previousClose" := Field(d, "previousClose"),
      "eps" := Field(d, "eps"),
      "pe" := Field(d, "pe"),
      "timestamp" := Field(d, "timestamp"),
      "name" := Field(d, "name"),
      "exchange" := Field(d, "exchange"),
      "data_source" := JStr("fmp"),
      "provider" := JStr("Financial Modeling Prep")]
  }

  /** `_standardize_profile`: vendor names `mktCap` and `fullTimeEmployees` are renamed. */
  function StandardProfile(d: map<string, Json>, originalSymbol: string): (r: Record)
    ensures "symbol" in r && r["symbol"] == JStr(originalSymbol)
    ensures "data_source" in r && r["data_source"] == JStr("fmp")
    ensures "marketCap" in r && r["marketCap"] == Field(d, "mktCap")
    ensures "employees" in r && r["employees"] == Field(d, "fullTimeEmployees")
  {
    map[
      "symbol" := JStr(originalSymbol),
      "companyName" := Field(d, "companyName"),
      "sector" := Field(d, "sector"),
      "industry" := Field(d, "industry"),
      "description" := Field(d, "description"),
      "ceo" := Field(d, "ceo"),
      "website" := Field(d, "website"),
      "exchange" := Field(d, "exchange"),
      "country" := Field(d, "country"),
      "marketCap" := Field(d, "mktCap"),
      "employees" := Field(d, "fullTimeEmployees"),
      "data_source" := JStr("fmp"),
      "provider" := JStr("Financial Modeling Prep")]
  }

  // ---------------------------------------------------------------------
  // Properties
  // ---------------------------------------------------------------------

  lemma DotPatternsDoNotOverlap()
    ensures NoSelfOverlap(".NS") && NoSelfOverlap(".BO")
  {
    assert ".NS"[1..] == "NS" && ".NS"[..2] == ".N";
    assert ".NS"[2..] == "S" && ".NS"[..1] == ".";
    assert ".BO"[1..] == "BO" && ".BO"[..2] == ".B";
    assert ".BO"[2..] == "O" && ".BO"[..1] == ".";
  }

  /**
   * Converted symbols are upper-case and never end in ".NS" or ".BO", so
   * converting twice is the same as converting once.
   */
  lemma ConvertSymbolIdempotent(symbol: string)
    ensures HasNoLower(ConvertSymbol(symbol))
    ensures !EndsWith(ConvertSymbol(symbol), ".NS") && !EndsWith(ConvertSymbol(symbol), ".BO")
    ensures ConvertSymbol(ConvertSymbol(symbol)) == ConvertSymbol(symbol)
  {
    var u := Upper(symbol);
    var r := ConvertSymbol(symbol);
    UpperHasNoLower(symbol);
    DotPatternsDoNotOverlap();
    if EndsWith(u, ".NS") {
      ReplaceHasNoLower(u, ".NS", ".NSE");
      ReplaceKeepsSuffix(u, ".NS", ".NSE");
      assert r[|r| - 1] == 'E';
    } else if EndsWith(u, ".BO") {
      ReplaceHasNoLower(u, ".BO", ".BSE");
      ReplaceKeepsSuffix(u, ".BO", ".BSE");
      assert r[|r| - 1] == 'E';
    }
    UpperFixedPoint(r);
  }

  /** Suffix, not substring: ".NS" inside the symbol is left alone. */
  lemma ConvertSymbolSuffixOnly()
    ensures ConvertSymbol("x.ns") == "X.NSE"
    ensures ConvertSymbol("X.NSE") == "X.NSE"
  {
    assert Upper("x.ns") == "X.NS";
    assert EndsWith("X.NS", ".NS");
    assert Replace("X.NS", ".NS", ".NSE") == "X" + Replace(".NS", ".NS", ".NSE");
    assert Replace(".NS", ".NS", ".NSE") == ".NSE" + Replace("", ".NS", ".NSE");
    assert Upper("X.NSE") == "X.NSE";
    assert !EndsWith("X.NSE", ".NS") && !EndsWith("X.NSE", ".BO");
  }

  /** An empty or absent result array is a "no data" error for quote and profile. */
  lemma EmptyResponseFails(symbol: string, data: Json)
    requires data == JArr([]) || data == JNull
    ensures GetQuote(symbol, Body(data)) ==
              Failure(ValueError(QuoteParsePrefix + ("No data returned from FMP for symbol: " + symbol)))
    ensures GetCompanyProfile(symbol, Body(data)) ==
              Failure(ValueError(ProfileParsePrefix + ("No profile data returned from FMP for symbol: " + symbol)))
  {
  }

  /** A first element carrying "Error Message" or "error" is a vendor error. */
  lemma ErrorFieldFails(symbol: string, first: map<string, Json>, rest: seq<Json>)
    requires "Error Message" in first || "error" in first
    ensures GetQuote(symbol, Body(JArr([JObj(first)] + rest))) ==
              Failure(ValueError(QuoteParsePrefix + ("FMP API error: " +
                Render(Or(Field(first, "Error Message"), Field(first, "error"))))))
  {
  }

  /** Well-formed bodies: a JSON array of objects, or one JSON object. */
  predicate WellFormed(data: Json) {
    (data.JArr? && forall i :: 0 <= i < |data.items| ==> data.items[i].JObj?) || data.JObj? || data.JNull?
  }

  /**
   * On a well-formed body every failure leaves the client as `ValueError`
   * carrying the parse prefix, and every success keeps the caller's symbol.
   */
  lemma QuoteOutcome(symbol: string, data: Json)
    requires WellFormed(data)
    ensures var r := GetQuote(symbol, Body(data));
      && (r.Failure? ==> r.error.ValueError? && StartsWith(r.error.msg, QuoteParsePrefix))
      && (r.Success? <==>
            data.JArr? && data.items != [] &&
            "Error Message" !in data.items[0].fields && "error" !in data.items[0].fields)
      && (r.Success? ==> r.value == StandardQuote(data.items[0].fields, symbol))
  {
    var r := GetQuote(symbol, Body(data));
    if r.Failure? {
      assert StartsWith(QuoteParsePrefix + Message(QuoteFromBody(symbol, data).error), QuoteParsePrefix);
    }
  }

  lemma ProfileOutcome(symbol: string, data: Json)
    requires WellFormed(data)
    ensures var r := GetCompanyProfile(symbol, Body(data));
      && (r.Failure? ==> r.error.ValueError? && StartsWith(r.error.msg, ProfileParsePrefix))
      && (r.Success? <==> data.JArr? && data.items != [])
      && (r.Success? ==> r.value == StandardProfile(data.items[0].fields, symbol))
  {
    var r := GetCompanyProfile(symbol, Body(data));
    if r.Failure? {
      assert StartsWith(ProfileParsePrefix + Message(ProfileFromBody(symbol, data).error), ProfileParsePrefix);
    }
  }

  /** Transport failures are re-raised as `ValueError` too, never as a connection error. */
  lemma TransportFailureIsValueError(symbol: string, reason: string)
    ensures GetQuote(symbol, TransportFailure(reason)) == Failure(ValueError("FMP request failed: " + reason))
    ensures GetCompanyProfile(symbol, TransportFailure(reason)) ==
              Failure(ValueError("FMP profile request failed: " + reason))
  {
  }
}

=== FILE: frames.dfy ===
/**
 * The parts of a yfinance ticker the analyses read: `info` as a dict and the
 * financial statements as pandas frames of named rows with one value per
 * reporting period, most recent first.
 */
module Frames {
  import opened Wrappers
  import opened Json

  datatype Statement = Statement(rows: map<string, seq<real>>, columns: nat)

  /** `DataFrame.empty`: no rows or no periods. */
  predicate Empty(st: Statement) {
    st.rows == map[] || st.columns == 0
  }

  /** `row.iloc[0]`; `None` where pandas raises `IndexError`. */
  function First(row: seq<real>): (r: Option<real>)
    ensures r.Some? <==> |row| >= 1
  {
    if row == [] then None else Some(row[0])
  }

  /** `st.loc[name].iloc[0] if name in st.index else 0`; `None` where that raises. */
  function FirstOrZero(st: Statement, name: string): (r: Option<real>)
    ensures name !in st.rows ==> r == Some(0.0)
    ensures name in st.rows ==> r == First(st.rows[name])
  {
    if name in st.rows then First(st.rows[name]) else Some(0.0)
  }

  /** `st.loc[name].head(n) if name in st.index else None`. */
  function HeadRow(st: Statement, name: string, n: nat): (r: Option<seq<real>>)
    ensures r.Some? <==> name in st.rows
    ensures r.Some? ==> |r.value| <= n && r.value <= st.rows[name]
    ensures r.Some? && |st.rows[name]| >= n ==> |r.value| == n
  {
    if name !in st.rows then None
    else
      var row := st.rows[name];
      Some(if |row| <= n then row else row[..n])
  }

  function Sum(xs: seq<real>): real {
    if xs == [] then 0.0 else xs[0] + Sum(xs[1..])
  }

  /** `Series.mean()`; `None` for an empty series, where pandas gives NaN and every comparison is false. */
  function Mean(xs: seq<real>): (r: Option<real>)
    ensures r.Some? <==> xs != []
    ensures r.Some? ==> r.value * (|xs| as real) == Sum(xs)
  {
    if xs == [] then None else Some(Sum(xs) / (|xs| as real))
  }

  /** A non-empty series has a positive mean exactly when it has a positive sum. */
  lemma MeanPositiveIffSumPositive(xs: seq<real>)
    requires xs != []
    ensures Mean(xs).value > 0.0 <==> Sum(xs) > 0.0
  {
    var n := |xs| as real;
    assert Mean(xs).value * n == Sum(xs);
  }

  /** A positive sum has a positive term. */
  lemma {:induction false} PositiveSumHasPositiveTerm(xs: seq<real>)
    requires Sum(xs) > 0.0
    ensures exists i :: 0 <= i < |xs| && xs[i] > 0.0
  {
    if xs[0] <= 0.0 {
      PositiveSumHasPositiveTerm(xs[1..]);
      var i :| 0 <= i < |xs[1..]| && xs[1..][i] > 0.0;
      assert xs[i + 1] > 0.0;
    }
  }

  /**
   * A number as Python arithmetic sees it (`bool` is an `int`); `None` for
   * values on which arithmetic or numeric formatting raises.
   */
  function Number(j: Json): (r: Option<real>)
    ensures r.Some? <==> (j.JInt? || j.JFloat? || j.JBool?)
  {
    match j
    case JInt(i) => Some(i as real)
    case JFloat(x) => Some(x)
    case JBool(b) => Some(if b then 1.0 else 0.0)
    case _ => None
  }

  /** `info.get(key, default)`. */
  function InfoGet(info: Record, key: string, default: Json): (r: Json)
    ensures key in info ==> r == info[key]
    ensures key !in info ==> r == default
  {
    if key in info then info[key] else default
  }
}

=== FILE: json.dfy ===
/**
 * A decoded HTTP response body and the Python operations the provider
 * clients apply to it: truthiness, `key in data`, `data[key]`,
 * `data.get(key, default)` and `str(value)`.
 */
module Json {
  import opened Wrappers
  import opened PyErrors
  import opened PyStrings

  datatype Json =
    | JNull
    | JBool(b: bool)
    | JInt(i: int)
    | JFloat(x: real)
    | JStr(s: string)
    | JArr(items: seq<Json>)
    | JObj(fields: map<string, Json>)

  /** A Python dict with string keys, as the services build and return them. */
  type Record = map<string, Json>

  /** What the HTTP layer hands the client: a decoded body or a transport failure. */
  datatype Response = Body(data: Json) | TransportFailure(reason: string)

  /** Python truthiness of a decoded JSON value. */
  predicate Truthy(j: Json) {
    match j
    case JNull => false
    case JBool(b) => b
    case JInt(i) => i != 0
    case JFloat(x) => x != 0.0
    case JStr(s) => s != []
    case JArr(items) => items != []
    case JObj(fields) => fields != map[]
  }

  function TypeName(j: Json): string {
    match j
    case JNull => "NoneType"
    case JBool(_) => "bool"
    case JInt(_) => "int"
    case JFloat(_) => "float"
    case JStr(_) => "str"
    case JArr(_) => "list"
    case JObj(_) => "dict"
  }

  /** Values that support Python's `in`. */
  predicate Iterable(data: Json) {
    data.JObj? || data.JArr? || data.JStr?
  }

  /** `key in data` on an iterable value: dict key, list element, or substring. */
  predicate Member(key: string, data: Json)
    requires Iterable(data)
  {
    match data
    case JObj(fields) => key in fields
    case JArr(items) => JStr(key) in items
    case JStr(s) => Contains(s, key)
  }

  /** The `TypeError` that `key in data` raises on a value that is not iterable. */
  function NotIterable(data: Json): Exception {
    TypeError("argument of type '" + TypeName(data) + "' is not iterable")
  }

  /** `data[key]` with a string key. */
  function Index(data: Json, key: string): (r: Result<Json, Exception>)
    ensures data.JObj? && key in data.fields ==> r == Success(data.fields[key])
    ensures r.Success? ==> data.JObj? && key in data.fields
  {
    match data
    case JObj(fields) =>
      if key in fields then Success(fields[key]) else Failure(KeyError("'" + key + "'"))
    case JArr(_) => Failure(TypeError("list indices must be integers or slices, not str"))
    case JStr(_) => Failure(TypeError("string indices must be integers, not 'str'"))
    case _ => Failure(TypeError("'" + TypeName(data) + "' object is not subscriptable"))
  }

  /** `data.get(key, default)`: only dicts have a `get` method. */
  function Get(data: Json, key: string, default: Json): (r: Result<Json, Exception>)
    ensures r.Success? <==> data.JObj?
    ensures data.JObj? ==> r.value == (if key in data.fields then data.fields[key] else default)
  {
    match data
    case JObj(fields) => Success(if key in fields then fields[key] else default)
    case _ => Failure(AttributeError("'" + TypeName(data) + "' object has no attribute 'get'"))
  }

  /** `d.get(key)` on a dict, with Python's `None` default. */
  function Field(fields: map<string, Json>, key: string): Json {
    if key in fields then fields[key] else JNull
  }

  /**
   * `str(value)` for a value interpolated into an error message. Strings,
   * `None`, booleans and integers are rendered as Python does; floats,
   * lists and dicts are rendered by a fixed stand-in.
   */
  function Render(j: Json): string {
    match j
    case JNull => "None"
    case JBool(b) => if b then "True" else "False"
    case JInt(i) => IntToString(i)
    case JStr(s) => s
    case JFloat(_) => "<float>"
    case JArr(_) => "<list>"
    case JObj(_) => "<dict>"
  }

  /**
   * For `None`, booleans, integers and strings the rendering is Python's
   * `str(value)`: an integer's text reads back through `int()` as the same
   * integer, so two integers render alike only when they are equal, while
   * the stand-ins and the `None`/`True`/`False` literals never read back
   * as an integer.
   */
  lemma RenderExact(j: Json)
    ensures j.JNull? ==> Render(j) == "None"
    ensures j.JBool? ==> Render(j) == (if j.b then "True" else "False")
    ensures j.JInt? ==> Render(j) == IntToString(j.i)
    ensures j.JInt? ==> ParseInt(Render(j)) == Some(j.i)
    ensures j.JStr? ==> Render(j) == j.s
    ensures !j.JInt? && !j.JStr? ==> ParseInt(Render(j)) == None
  {
    match j
    case JInt(i) => ParseIntToString(i);
    case JStr(_) =>
    case _ =>
      var t := Render(j);
      NoSpaceStrip(t);
      assert !IsDigit(t[0]) && t[0] != '-' && t[0] != '+';
  }

  /** Distinct integers never render to the same text. */
  lemma RenderIntInjective(a: int, b: int)
    ensures Render(JInt(a)) == Render(JInt(b)) <==> a == b
  {
    RenderExact(JInt(a));
    RenderExact(JInt(b));
  }

  /** Python's `a or b`: the first operand if it is truthy, else the second. */
  function Or(a: Json, b: Json): Json {
    if Truthy(a) then a else b
  }
}

=== FILE: legacy_pillars.dfy ===
/**
 * The legacy eight-pillar analysis: five-year windows (`head(5)`), pillars
 * that report "?" when their inputs are insufficient, a score over the
 * evaluated pillars only, and four bands.
 */
module LegacyPillars {
  import opened Wrappers
  import opened PyErrors
  import opened PyStrings
  import opened Json
  import opened Frames
  import opened Marks

  /** `ticker.financials`, `ticker.balance_sheet` and `ticker.cashflow`. */
  datatype Statements = Statements(income: Statement, balance: Statement, cash: Statement)

  const Window: nat := 5

  /** Pillar 1: market cap over five years of net income; "?" without a positive total. */
  function FiveYearPe(income: Statement, marketCap: real): Mark {
    var earnings := HeadRow(income, "Net Income", Window);
    if earnings.Some? && |earnings.value| >= 1 then
      var total := Sum(earnings.value);
      if total > 0.0 then Check(marketCap / total < 22.5) else Unknown
    else Unknown
  }

  /**
   * Pillar 2: five years of free cash flow over equity plus debt; "?" when
   * that capital is not positive, when the cash flow row is missing, or
   * when a balance row without values raises.
   */
  function FiveYearRoic(balance: Statement, cash: Statement): Mark {
    var flows := HeadRow(cash, "Free Cash Flow", Window);
    var equity := FirstOrZero(balance, "Stockholders Equity");
    var debt := FirstOrZero(balance, "Total Debt");
    if equity.None? || debt.None? then Unknown
    else if flows.Some? && |flows.value| >= 1 then
      var investedCapital := equity.value + debt.value;
      if investedCapital > 0.0 then Check(Sum(flows.value) / investedCapital * 100.0 > 10.0) else Unknown
    else Unknown
  }

  /** Pillar 3: over the whole share-count history, a decrease passes. */
  function SharesDecreasing(balance: Statement): Mark {
    if "Ordinary Shares Number" in balance.rows && |balance.rows["Ordinary Shares Number"]| >= 2 then
      var shares := balance.rows["Ordinary Shares Number"];
      Check(shares[0] < shares[|shares| - 1])
    else Unknown
  }

  /** Pillars 4 to 6: within five years, the latest value above the oldest passes. */
  function Growing(st: Statement, name: string): Mark {
    var values := HeadRow(st, name, Window);
    if values.Some? && |values.value| >= 2 then
      Check(values.value[0] > values.value[|values.value| - 1])
    else Unknown
  }

  /** Pillar 7: long-term debt under five years of average free cash flow; "?" without a positive average. */
  function DebtCoverage(balance: Statement, cash: Statement): Mark {
    var debt := FirstOrZero(balance, "Long Term Debt");
    var flows := HeadRow(cash, "Free Cash Flow", Window);
    if debt.None? then Unknown
    else if flows.Some? && |flows.value| >= 1 then
      var average := Mean(flows.value).value;
      if average > 0.0 then Check(debt.value / average < 5.0) else Unknown
    else Unknown
  }

  /** Pillar 8: market cap over five years of free cash flow; "?" without a positive total. */
  function FiveYearPriceToFcf(cash: Statement, marketCap: real): Mark {
    var flows := HeadRow(cash, "Free Cash Flow", Window);
    if flows.Some? && |flows.value| >= 1 then
      var total := Sum(flows.value);
      if total > 0.0 then Check(marketCap / total < 22.5) else Unknown
    else Unknown
  }

  datatype LegacyBand = Excellent | Good | Fair | Poor

  function LegacyAssessment(b: LegacyBand): string {
    match b
    case Excellent => "Excellent - Strong buy candidate"
    case Good => "Good - Worth further research"
    case Fair => "Fair - Proceed with caution"
    case Poor => "Poor - High risk investment"
  }

  /** The score over the evaluated pillars; 0 when none was evaluated. */
  function Score(passed: nat, evaluated: nat): (s: real)
    requires passed <= evaluated
    ensures 0.0 <= s <= 100.0
    ensures evaluated == 0 ==> s == 0.0
    ensures evaluated > 0 ==> s * (evaluated as real) == passed as real * 100.0
  {
    if evaluated > 0 then passed as real / evaluated as real * 100.0 else 0.0
  }

  function BandOf(score: real): LegacyBand {
    if score >= 87.5 then Excellent
    else if score >= 62.5 then Good
    else if score >= 37.5 then Fair
    else Poor
  }

  datatype LegacyReport = LegacyReport(
    symbol: string,
    companyName: Json,
    marks: seq<Mark>,
    passed: nat,
    evaluated: nat,
    score: real,
    band: LegacyBand)

  /**
   * `perform_eight_pillar_analysis` (legacy). `None` when fetching fails, a
   * statement is empty, or the market cap is not a number (formatting it
   * raises).
   */
  function LegacyAnalysis(symbol: string, info: Record, statements: Result<Statements, Exception>)
    : (r: Option<LegacyReport>)
    ensures r.Some? <==>
      && statements.Success?
      && !Empty(statements.value.income) && !Empty(statements.value.balance) && !Empty(statements.value.cash)
      && Number(InfoGet(info, "marketCap", JInt(0))).Some?
    ensures r.Some? ==>
      && |r.value.marks| == 8
      && r.value.passed == Count(r.value.marks, Pass)
      && r.value.evaluated == Evaluated(r.value.marks)
      && r.value.passed <= r.value.evaluated <= 8
      && r.value.companyName == InfoGet(info, "longName", JStr(Upper(symbol)))
    ensures r.Some? ==>
      var st := statements.value;
      var marketCap := Number(InfoGet(info, "marketCap", JInt(0))).value;
      r.value.marks == [
        FiveYearPe(st.income, marketCap),
        FiveYearRoic(st.balance, st.cash),
        SharesDecreasing(st.balance),
        Growing(st.cash, "Free Cash Flow"),
        Growing(st.income, "Net Income"),
        Growing(st.income, "Total Revenue"),
        DebtCoverage(st.balance, st.cash),
        FiveYearPriceToFcf(st.cash, marketCap)]
    ensures r.Some? ==>
      var passed := r.value.passed;
      var evaluated := r.value.evaluated;
      && r.value.score == Score(passed, evaluated)
      && r.value.band == BandOf(r.value.score)
      && (evaluated == 0 ==> r.value.score == 0.0 && r.value.band == Poor)
      && (evaluated > 0 ==>
            && (r.value.band == Excellent <==> 8 * passed >= 7 * evaluated)
            && (r.value.band == Good <==> 5 * evaluated <= 8 * passed < 7 * evaluated)
            && (r.value.band == Fair <==> 3 * evaluated <= 8 * passed < 5 * evaluated)
            && (r.value.band == Poor <==> 8 * passed < 3 * evaluated))
  {
    match statements
    case Failure(_) => None
    case Success(st) =>
      if Empty(st.income) || Empty(st.balance) || Empty(st.cash) then None
      else
        var marketCap := Number(InfoGet(info, "marketCap", JInt(0)));
        if marketCap.None? then None
        else
          var marks := [
            FiveYearPe(st.income, marketCap.value),
            FiveYearRoic(st.balance, st.cash),
            SharesDecreasing(st.balance),
            Growing(st.cash, "Free Cash Flow"),
            Growing(st.income, "Net Income"),
            Growing(st.income, "Total Revenue"),
            DebtCoverage(st.balance, st.cash),
            FiveYearPriceToFcf(st.cash, marketCap.value)];
          var passed := Count(marks, Pass);
          var evaluated := Evaluated(marks);
          var score := Score(passed, evaluated);
          var report := LegacyReport(Upper(symbol), InfoGet(info, "longName", JStr(Upper(symbol))),
                                     marks, passed, evaluated, score, BandOf(score));
          if evaluated > 0 then BandThresholds(passed, evaluated); Some(report)
          else Some(report)
  }

  // ---------------------------------------------------------------------
  // Properties
  // ---------------------------------------------------------------------

  /**
   * The bands as fractions of the evaluated pillars: "Excellent" from
   * seven eighths, "Good" from five eighths, "Fair" from three eighths.
   */
  lemma BandThresholds(passed: nat, evaluated: nat)
    requires passed <= evaluated && evaluated > 0
    ensures var b := BandOf(Score(passed, evaluated));
      && (b == Excellent <==> 8 * passed >= 7 * evaluated)
      && (b == Good <==> 5 * evaluated <= 8 * passed < 7 * evaluated)
      && (b == Fair <==> 3 * evaluated <= 8 * passed < 5 * evaluated)
      && (b == Poor <==> 8 * passed < 3 * evaluated)
  {
    Eighths(passed, evaluated, 7.0);
    Eighths(passed, evaluated, 5.0);
    Eighths(passed, evaluated, 3.0);
  }

  /** A score of at least `k` eighths means `8 passed >= k evaluated`. */
  lemma Eighths(passed: nat, evaluated: nat, k: real)
    requires passed <= evaluated && evaluated > 0
    ensures Score(passed, evaluated) >= k * 12.5 <==> 8.0 * (passed as real) >= k * (evaluated as real)
  {
    var s := Score(passed, evaluated);
    var n := evaluated as real;
    assert s * n == passed as real * 100.0;
    ScaleByPositive(s, k * 12.5, n);
    assert k * 12.5 * n == 12.5 * (k * n);
  }

  lemma ScaleByPositive(s: real, t: real, n: real)
    requires n > 0.0
    ensures s >= t <==> s * n >= t * n
  {
    assert s * n - t * n == (s - t) * n;
  }

  /** With all eight pillars evaluated the bands are 7–8, 5–6, 3–4 and 0–2 passes. */
  lemma AllEvaluatedBands(passed: nat)
    requires passed <= 8
    ensures var b := BandOf(Score(passed, 8));
      && (b == Excellent <==> passed >= 7)
      && (b == Good <==> 5 <= passed <= 6)
      && (b == Fair <==> 3 <= passed <= 4)
      && (b == Poor <==> passed <= 2)
  {
    BandThresholds(passed, 8);
  }

  /** With no pillar evaluated the score is 0 and the band "Poor". */
  lemma NothingEvaluated(symbol: string, info: Record, st: Statements)
    requires LegacyAnalysis(symbol, info, Success(st)).Some?
    requires LegacyAnalysis(symbol, info, Success(st)).value.evaluated == 0
    ensures var r := LegacyAnalysis(symbol, info, Success(st)).value;
      r.passed == 0 && r.score == 0.0 && r.band == Poor
  {
  }

  /** Pillars 1 and 8 are "?" when the five-year total is not positive, and otherwise compare against 22.5. */
  lemma FiveYearValuation(income: Statement, cash: Statement, marketCap: real)
    ensures var earnings := HeadRow(income, "Net Income", Window);
      if earnings.Some? && earnings.value != [] && Sum(earnings.value) > 0.0
      then FiveYearPe(income, marketCap) == Pass <==> marketCap < 22.5 * Sum(earnings.value)
      else FiveYearPe(income, marketCap) == Unknown
    ensures var flows := HeadRow(cash, "Free Cash Flow", Window);
      if flows.Some? && flows.value != [] && Sum(flows.value) > 0.0
      then FiveYearPriceToFcf(cash, marketCap) == Pass <==> marketCap < 22.5 * Sum(flows.value)
      else FiveYearPriceToFcf(cash, marketCap) == Unknown
  {
    var earnings := HeadRow(income, "Net Income", Window);
    if earnings.Some? && earnings.value != [] && Sum(earnings.value) > 0.0 {
      QuotientBelow(marketCap, Sum(earnings.value), 22.5);
    }
    var flows := HeadRow(cash, "Free Cash Flow", Window);
    if flows.Some? && flows.value != [] && Sum(flows.value) > 0.0 {
      QuotientBelow(marketCap, Sum(flows.value), 22.5);
    }
  }

  lemma QuotientBelow(a: real, b: real, t: real)
    requires b > 0.0
    ensures a / b < t <==> a < t * b
  {
    assert a / b * b == a;
  }

  /** Pillars 3 to 6 need two observations; shares pass when they fell, the others when they rose. */
  lemma TrendPillars(balance: Statement, st: Statement, name: string)
    ensures if "Ordinary Shares Number" in balance.rows && |balance.rows["Ordinary Shares Number"]| >= 2
      then var shares := balance.rows["Ordinary Shares Number"];
        SharesDecreasing(balance) == Check(shares[0] < shares[|shares| - 1])
      else SharesDecreasing(balance) == Unknown
    ensures var values := HeadRow(st, name, Window);
      if name in st.rows && |st.rows[name]| >= 2
      then Growing(st, name) == Check(values.value[0] > values.value[|values.value| - 1])
         && values.value[0] == st.rows[name][0]
         && values.value[|values.value| - 1] == st.rows[name][if |st.rows[name]| <= 5 then |st.rows[name]| - 1 else 4]
      else Growing(st, name) == Unknown
  {
  }

  /**
   * Pillar 7 is "?" without a positive average free cash flow and otherwise
   * passes exactly when long-term debt is under five times that average;
   * because the average is positive exactly when the total is, pillar 8
   * being "?" means pillar 7 is "?" as well.
   */
  lemma DebtCoverageRule(balance: Statement, cash: Statement, marketCap: real)
    ensures var debt := FirstOrZero(balance, "Long Term Debt");
      var flows := HeadRow(cash, "Free Cash Flow", Window);
      if debt.Some? && flows.Some? && flows.value != [] && Mean(flows.value).value > 0.0
      then DebtCoverage(balance, cash) == Pass <==> debt.value < 5.0 * Mean(flows.value).value
      else DebtCoverage(balance, cash) == Unknown
    ensures FiveYearPriceToFcf(cash, marketCap) == Unknown ==> DebtCoverage(balance, cash) == Unknown
  {
    var debt := FirstOrZero(balance, "Long Term Debt");
    var flows := HeadRow(cash, "Free Cash Flow", Window);
    if flows.Some? && flows.value != [] {
      MeanPositiveIffSumPositive(flows.value);
      if debt.Some? && Mean(flows.value).value > 0.0 {
        QuotientBelow(debt.value, Mean(flows.value).value, 5.0);
      }
    }
  }

  /** Pillar 2 is "?" unless equity plus debt is positive; it then passes when five-year cash flow exceeds a tenth of it. */
  lemma RoicRule(balance: Statement, cash: Statement)
    requires FirstOrZero(balance, "Stockholders Equity").Some?
    requires FirstOrZero(balance, "Total Debt").Some?
    ensures var capital := FirstOrZero(balance, "Stockholders Equity").value + FirstOrZero(balance, "Total Debt").value;
      var flows := HeadRow(cash, "Free Cash Flow", Window);
      if flows.Some? && flows.value != [] && capital > 0.0
      then FiveYearRoic(balance, cash) == Pass <==> Sum(flows.value) * 10.0 > capital
      else FiveYearRoic(balance, cash) == Unknown
  {
    var capital := FirstOrZero(balance, "Stockholders Equity").value + FirstOrZero(balance, "Total Debt").value;
    var flows := HeadRow(cash, "Free Cash Flow", Window);
    if flows.Some? && flows.value != [] && capital > 0.0 {
      var total := Sum(flows.value);
      assert total / capital * capital == total;
    }
  }
}

=== FILE: marks.dfy ===
/**
 * Pillar marks of the eight-pillar analyses and how they are counted.
 */
module Marks {
  /** "✓", "✗" and "?" in the reports. */
  datatype Mark = Pass | Fail | Unknown

  function Symbol(m: Mark): string {
    match m
    case Pass => "✓"
    case Fail => "✗"
    case Unknown => "?"
  }

  /** The mark of an evaluated pillar. */
  function Check(passes: bool): (m: Mark)
    ensures m != Unknown && (m == Pass <==> passes)
  {
    if passes then Pass else Fail
  }

  lemma SymbolInjective(a: Mark, b: Mark)
    ensures Symbol(a) == Symbol(b) <==> a == b
  {
  }

  /** How many of the marks equal `m`. */
  function Count(ms: seq<Mark>, m: Mark): (n: nat)
    ensures n <= |ms|
    ensures n == 0 <==> forall i :: 0 <= i < |ms| ==> ms[i] != m
  {
    if ms == [] then 0
    else (if ms[0] == m then 1 else 0) + Count(ms[1..], m)
  }

  /** The pillars whose check is "✓" or "✗", i.e. that were evaluated. */
  function Evaluated(ms: seq<Mark>): (n: nat)
    ensures Count(ms, Pass) <= n <= |ms|
    ensures n == |ms| <==> Count(ms, Unknown) == 0
  {
    if ms == [] then 0
    else (if ms[0] != Unknown then 1 else 0) + Evaluated(ms[1..])
  }

  /** Every mark is one of the three, so the counts partition the pillars. */
  lemma {:induction false} CountsPartition(ms: seq<Mark>)
    ensures Count(ms, Pass) + Count(ms, Fail) + Count(ms, Unknown) == |ms|
    ensures Evaluated(ms) == Count(ms, Pass) + Count(ms, Fail)
  {
    if ms != [] {
      CountsPartition(ms[1..]);
    }
  }
}

=== FILE: py_errors.dfy ===
/**
 * The Python exception kinds that the modelled code raises or lets escape,
 * each carrying the text that `str(e)` would give.
 */
module PyErrors {

  datatype Exception =
    | ValueError(msg: string)
    | ConnectionError(msg: string)
    | KeyError(msg: string)        // msg is the repr of the missing key
    | TypeError(msg: string)
    | AttributeError(msg: string)

  /** `str(e)` for an exception value. */
  function Message(e: Exception): string {
    match e
    case ValueError(m) => m
    case ConnectionError(m) => m
    case KeyError(m) => m
    case TypeError(m) => m
    case AttributeError(m) => m
  }

  /** Exceptions that `except (KeyError, IndexError, ValueError)` catches. */
  predicate IsLookupOrValue(e: Exception) {
    e.ValueError? || e.KeyError?
  }
}

=== FILE: py_strings.dfy ===
/**
 * The Python `str` operations the modelled code relies on, restricted to
 * ASCII: `upper`, `in`, `startswith`/`endswith`, `replace`, `split`,
 * `strip`/`rstrip`, `str(int)` and `int(str)`.
 */
module PyStrings {
  import opened Wrappers

  predicate IsLower(c: char) {
    'a' <= c <= 'z'
  }

  predicate IsDigit(c: char) {
    '0' <= c <= '9'
  }

  /** Characters `str.isspace` accepts in the ASCII range. */
  predicate IsSpace(c: char) {
    c == ' ' || (9 <= c as int <= 13) || (28 <= c as int <= 31)
  }

  function UpperChar(c: char): char {
    if IsLower(c) then (c as int - 32) as char else c
  }

  /** `s.upper()` on ASCII letters. */
  function Upper(s: string): (r: string)
    ensures |r| == |s|
    ensures forall i :: 0 <= i < |s| ==> r[i] == UpperChar(s[i])
  {
    if s == [] then [] else [UpperChar(s[0])] + Upper(s[1..])
  }

  predicate HasNoLower(s: string) {
    forall i :: 0 <= i < |s| ==> !IsLower(s[i])
  }

  lemma UpperHasNoLower(s: string)
    ensures HasNoLower(Upper(s))
  {
  }

  /** Upper-casing is the identity exactly on strings without lower-case letters. */
  lemma UpperFixedPoint(s: string)
    ensures Upper(s) == s <==> HasNoLower(s)
  {
    if HasNoLower(s) {
      assert forall i :: 0 <= i < |s| ==> Upper(s)[i] == s[i];
    } else {
      var i :| 0 <= i < |s| && IsLower(s[i]);
      assert Upper(s)[i] != s[i];
    }
  }

  predicate StartsWith(s: string, p: string) {
    |p| <= |s| && s[..|p|] == p
  }

  predicate EndsWith(s: string, p: string) {
    |p| <= |s| && s[|s| - |p|..] == p
  }

  /** Python's substring test `p in s`. */
  predicate Contains(s: string, p: string)
    decreases |s|
  {
    StartsWith(s, p) || (|s| > 0 && Contains(s[1..], p))
  }

  lemma ContainsAt(s: string, p: string, i: nat)
    requires i + |p| <= |s| && s[i..i + |p|] == p
    ensures Contains(s, p)
    decreases i
  {
    if i > 0 {
      assert s[1..][i - 1..i - 1 + |p|] == s[i..i + |p|];
      ContainsAt(s[1..], p, i - 1);
    }
  }

  lemma EndsWithContains(s: string, p: string)
    requires EndsWith(s, p)
    ensures Contains(s, p)
  {
    ContainsAt(s, p, |s| - |p|);
  }

  /**
   * `s.replace(pat, rep)`: every non-overlapping occurrence of `pat`,
   * scanned left to right, is replaced by `rep`.
   */
  function Replace(s: string, pat: string, rep: string): string
    requires |pat| > 0
    decreases |s|
  {
    if |s| < |pat| then s
    else if s[..|pat|] == pat then rep + Replace(s[|pat|..], pat, rep)
    else [s[0]] + Replace(s[1..], pat, rep)
  }

  /** `replace` at a position where the pattern starts. */
  lemma ReplaceHit(s: string, pat: string, rep: string)
    requires |pat| > 0 && |pat| <= |s| && s[..|pat|] == pat
    ensures Replace(s, pat, rep) == rep + Replace(s[|pat|..], pat, rep)
  {
  }

  /** `replace` at a position where the pattern does not start: character `j` differs. */
  lemma ReplaceMiss(s: string, pat: string, rep: string, j: nat)
    requires |pat| > 0 && |pat| <= |s| && j < |pat| && s[j] != pat[j]
    ensures Replace(s, pat, rep) == [s[0]] + Replace(s[1..], pat, rep)
  {
    assert s[..|pat|][j] != pat[j];
  }

  /** Without an occurrence, `replace` changes nothing. */
  lemma {:induction false} ReplaceAbsent(s: string, pat: string, rep: string)
    requires |pat| > 0
    requires !Contains(s, pat)
    ensures Replace(s, pat, rep) == s
    decreases |s|
  {
    if |s| >= |pat| {
      assert !StartsWith(s, pat);
      ReplaceAbsent(s[1..], pat, rep);
    }
  }

  /**
   * A replacement at least as long as the pattern never shortens the
   * string, and one strictly longer lengthens every string that contains
   * the pattern.
   */
  lemma {:induction false} ReplaceLength(s: string, pat: string, rep: string)
    requires 0 < |pat| <= |rep|
    ensures |Replace(s, pat, rep)| >= |s|
    ensures |pat| < |rep| && Contains(s, pat) ==> |Replace(s, pat, rep)| > |s|
    decreases |s|
  {
    if |s| < |pat| {
      ContainsFits(s, pat);
    } else if s[..|pat|] == pat {
      ReplaceLength(s[|pat|..], pat, rep);
    } else {
      assert !StartsWith(s, pat);
      ReplaceLength(s[1..], pat, rep);
    }
  }

  /** Only a string at least as long as the pattern can contain it. */
  lemma {:induction false} ContainsFits(s: string, p: string)
    ensures Contains(s, p) ==> |p| <= |s|
    decreases |s|
  {
    if |s| > 0 {
      ContainsFits(s[1..], p);
    }
  }

  /** No proper suffix of `p` is also a prefix of `p`. */
  predicate NoSelfOverlap(p: string) {
    forall k :: 0 < k < |p| ==> p[k..] != p[..|p| - k]
  }

  /** A string that starts and ends with `pat` and is shorter than two copies shows an overlap. */
  lemma SelfOverlapWitness(s: string, pat: string, k: nat)
    requires StartsWith(s, pat) && EndsWith(s, pat)
    requires k == |s| - |pat| && 0 < k < |pat|
    ensures pat[k..] == pat[..|pat| - k]
  {
    assert pat[k..] == s[k..|pat|];
    assert pat[..|pat| - k] == s[|s| - |pat|..][..|pat| - k];
  }

  /** Putting text in front keeps a suffix. */
  lemma EndsWithPrefixed(a: string, x: string, p: string)
    requires EndsWith(x, p)
    ensures EndsWith(a + x, p)
  {
    assert (a + x)[|a + x| - |p|..] == x[|x| - |p|..];
  }

  /** Dropping a prefix that does not reach into the suffix keeps it. */
  lemma EndsWithDropped(s: string, n: nat, p: string)
    requires EndsWith(s, p) && n + |p| <= |s|
    ensures EndsWith(s[n..], p)
  {
    assert s[n..][|s[n..]| - |p|..] == s[|s| - |p|..];
  }

  /**
   * For a pattern that cannot overlap itself, a string ending in the
   * pattern still ends in the replacement after `replace`.
   */
  lemma {:induction false} ReplaceKeepsSuffix(s: string, pat: string, rep: string)
    requires |pat| > 0 && NoSelfOverlap(pat)
    requires EndsWith(s, pat)
    ensures EndsWith(Replace(s, pat, rep), rep)
    decreases |s|
  {
    if |s| == |pat| {
      assert s[..|pat|] == s;
      assert s[|pat|..] == [];
      assert Replace(s, pat, rep) == rep + Replace([], pat, rep);
      assert Replace(s, pat, rep) == rep;
    } else if s[..|pat|] == pat {
      var k := |s| - |pat|;
      if k < |pat| {
        SelfOverlapWitness(s, pat, k);
        assert false;
      }
      var t := s[|pat|..];
      EndsWithDropped(s, |pat|, pat);
      ReplaceKeepsSuffix(t, pat, rep);
      EndsWithPrefixed(rep, Replace(t, pat, rep), rep);
    } else {
      var t := s[1..];
      EndsWithDropped(s, 1, pat);
      ReplaceKeepsSuffix(t, pat, rep);
      EndsWithPrefixed([s[0]], Replace(t, pat, rep), rep);
    }
  }

  /** `replace` with upper-case text keeps a string free of lower-case letters. */
  lemma {:induction false} ReplaceHasNoLower(s: string, pat: string, rep: string)
    requires |pat| > 0 && HasNoLower(s) && HasNoLower(rep)
    ensures HasNoLower(Replace(s, pat, rep))
    decreases |s|
  {
    if |s| >= |pat| {
      if s[..|pat|] == pat {
        ReplaceHasNoLower(s[|pat|..], pat, rep);
      } else {
        ReplaceHasNoLower(s[1..], pat, rep);
      }
    }
  }

  /**
   * `s.split(sep)`: the pieces between separators, always at least one;
   * empty pieces are kept.
   */
  function Split(s: string, sep: char): (r: seq<string>)
    ensures |r| >= 1
    decreases |s|
  {
    if s == [] then [""]
    else
      var rest := Split(s[1..], sep);
      if s[0] == sep then [""] + rest else [[s[0]] + rest[0]] + rest[1..]
  }

  /** `sep.join(parts)`. */
  function Join(parts: seq<string>, sep: char): string
    decreases |parts|
  {
    if parts == [] then ""
    else if |parts| == 1 then parts[0]
    else parts[0] + [sep] + Join(parts[1..], sep)
  }

  predicate Free(s: string, sep: char) {
    forall i :: 0 <= i < |s| ==> s[i] != sep
  }

  /** Prefixing a separator-free piece to the first part of a split. */
  lemma {:induction false} SplitPrefix(a: string, b: string, sep: char)
    requires Free(a, sep)
    ensures Split(a + b, sep) == [a + Split(b, sep)[0]] + Split(b, sep)[1..]
    decreases |a|
  {
    if a != [] {
      assert (a + b)[0] == a[0];
      assert (a + b)[1..] == a[1..] + b;
      SplitPrefix(a[1..], b, sep);
      assert [a[0]] + (a[1..] + Split(b, sep)[0]) == a + Split(b, sep)[0];
    } else {
      assert a + b == b;
      var r := Split(b, sep);
      assert r == [r[0]] + r[1..];
      assert a + r[0] == r[0];
    }
  }

  /** Splitting a join of separator-free pieces gives the pieces back. */
  lemma {:induction false} SplitJoin(parts: seq<string>, sep: char)
    requires |parts| >= 1
    requires forall i :: 0 <= i < |parts| ==> Free(parts[i], sep)
    ensures Split(Join(parts, sep), sep) == parts
    decreases |parts|
  {
    if |parts| == 1 {
      SplitPrefix(parts[0], "", sep);
      assert Split("", sep) == [""];
      assert parts[0] + "" == parts[0];
      assert parts == [parts[0]];
    } else {
      var tail := Join(parts[1..], sep);
      SplitJoin(parts[1..], sep);
      assert Join(parts, sep) == parts[0] + ([sep] + tail);
      var b := [sep] + tail;
      assert b[0] == sep && b[1..] == tail;
      assert Split(b, sep) == [""] + parts[1..];
      SplitPrefix(parts[0], b, sep);
      assert parts[0] + "" == parts[0];
      assert parts == [parts[0]] + parts[1..];
    }
  }

  function LStrip(s: string): (r: string)
    ensures |r| <= |s|
    decreases |s|
  {
    if s != [] && IsSpace(s[0]) then LStrip(s[1..]) else s
  }

  function RStrip(s: string): (r: string)
    ensures |r| <= |s|
    decreases |s|
  {
    if s != [] && IsSpace(s[|s| - 1]) then RStrip(s[..|s| - 1]) else s
  }

  /** `s.strip()`. */
  function Strip(s: string): string {
    RStrip(LStrip(s))
  }

  /** `s.rstrip(c)` for a single character `c`. */
  function RStripChar(s: string, c: char): (r: string)
    ensures |r| <= |s|
    decreases |s|
  {
    if s != [] && s[|s| - 1] == c then RStripChar(s[..|s| - 1], c) else s
  }

  lemma {:induction false} RStripCharSpec(s: string, c: char)
    ensures StartsWith(s, RStripChar(s, c))
    ensures RStripChar(s, c) == [] || RStripChar(s, c)[|RStripChar(s, c)| - 1] != c
    ensures forall i :: |RStripChar(s, c)| <= i < |s| ==> s[i] == c
    decreases |s|
  {
    if s != [] && s[|s| - 1] == c {
      RStripCharSpec(s[..|s| - 1], c);
    }
  }

  predicate AllDigits(s: string) {
    forall i :: 0 <= i < |s| ==> IsDigit(s[i])
  }

  /** The value of a string of decimal digits. */
  function DigitsValue(s: string): nat
    requires AllDigits(s)
    decreases |s|
  {
    if s == [] then 0 else DigitsValue(s[..|s| - 1]) * 10 + (s[|s| - 1] as int - '0' as int)
  }

  /** `str(n)` for a natural number. */
  function NatToString(n: nat): (r: string)
    ensures |r| >= 1 && AllDigits(r)
    decreases n
  {
    if n < 10 then [('0' as int + n) as char]
    else NatToString(n / 10) + [('0' as int + n % 10) as char]
  }

  lemma {:induction false} NatToStringValue(n: nat)
    ensures DigitsValue(NatToString(n)) == n
    decreases n
  {
    if n >= 10 {
      var s := NatToString(n);
      assert s[..|s| - 1] == NatToString(n / 10);
      NatToStringValue(n / 10);
    }
  }

  /** `str(i)` for an integer. */
  function IntToString(i: int): string {
    if i < 0 then "-" + NatToString(-i) else NatToString(i)
  }

  /**
   * `int(s)`: surrounding white space, an optional sign, then one or more
   * ASCII digits; anything else is rejected.
   */
  function ParseInt(s: string): Option<int> {
    var t := Strip(s);
    if t == [] then None
    else if t[0] == '-' || t[0] == '+' then
      var d := t[1..];
      if d != [] && AllDigits(d) then
        var v: int := DigitsValue(d);
        Some(if t[0] == '-' then -v else v)
      else None
    else if AllDigits(t) then Some(DigitsValue(t))
    else None
  }

  lemma NoSpaceStrip(s: string)
    requires forall i :: 0 <= i < |s| ==> !IsSpace(s[i])
    ensures Strip(s) == s
  {
  }

  /** `int(str(i)) == i`. */
  lemma ParseIntToString(i: int)
    ensures ParseInt(IntToString(i)) == Some(i)
  {
    var s := IntToString(i);
    if i < 0 {
      var d := NatToString(-i);
      assert s == "-" + d;
      forall k | 0 <= k < |s|
        ensures !IsSpace(s[k])
      {
        if k > 0 {
          assert s[k] == d[k - 1];
        }
      }
      NoSpaceStrip(s);
      assert s[1..] == d;
      NatToStringValue(-i);
    } else {
      var d := NatToString(i);
      assert forall k :: 0 <= k < |d| ==> !IsSpace(d[k]);
      NoSpaceStrip(d);
      NatToStringValue(i);
    }
  }
}

=== FILE: stock_data_service.dfy ===
/**
 * The unified stock-data service as a state machine:
 * (service state, clock, symbol, provider outcomes) -> (result, state').
 *
 * It follows the code rather than an idealised chain walk: the resolved
 * primary is fetched from Alpha Vantage when that is the primary (and its
 * client exists) and from Yahoo Finance otherwise, FMP included; on a
 * primary failure the code asks the configuration for a single fallback
 * through a method the configuration does not define. The fallback branch
 * is modelled with the lookup as a parameter so that its intended
 * behaviour is stated, and the real configuration supplies the lookup
 * that fails.
 */
module StockDataService {
  import opened Wrappers
  import opened PyErrors
  import opened Json
  import opened DataSources

  datatype Operation = QuoteOp | OverviewOp

  function OperationName(op: Operation): string {
    match op
    case QuoteOp => "quote"
    case OverviewOp => "overview"
  }

  /** `_get_cache_key`: the symbol is used verbatim. */
  function CacheKey(op: Operation, symbol: string): string {
    OperationName(op) + ":" + symbol
  }

  /** The two dictionaries `cache` and `cache_timestamps`; time is in whole seconds. */
  datatype Cache = Cache(data: map<string, Record>, stamps: map<string, nat>)

  const EmptyCache: Cache := Cache(map[], map[])

  /** Both dictionaries always have the same keys. */
  predicate CacheInvariant(c: Cache) {
    c.data.Keys == c.stamps.Keys
  }

  /** `_is_cache_valid`. */
  predicate IsCacheValid(c: Cache, key: string, now: nat, ttl: int) {
    key in c.stamps && now - c.stamps[key] < ttl
  }

  /** `_set_cache`. */
  function SetCache(c: Cache, key: string, data: Record, now: nat): Cache {
    Cache(c.data[key := data], c.stamps[key := now])
  }

  /** `_get_cache`. */
  function GetCache(c: Cache, key: string, now: nat, ttl: int): Option<Record> {
    if IsCacheValid(c, key, now, ttl) && key in c.data then Some(c.data[key]) else None
  }

  /** The service's state: read-only configuration, its cache, and whether the Alpha Vantage client exists. */
  datatype Service = Service(config: Config, cache: Cache, hasAlphaVantageClient: bool)

  /** `StockDataService.__init__`: the client exists exactly when the key is enabled. */
  function NewService(config: Config): (s: Service)
    ensures s.hasAlphaVantageClient <==> AlphaVantageEnabled(config)
    ensures s.cache == EmptyCache && s.config == config
  {
    Service(config, EmptyCache, AlphaVantageEnabled(config))
  }

  predicate ServiceInvariant(s: Service) {
    CacheInvariant(s.cache) && (s.hasAlphaVantageClient <==> AlphaVantageEnabled(s.config))
  }

  datatype Client = AlphaVantageClient | YahooClient

  /** What the first and the second provider call of one request return. */
  datatype Responses = Responses(first: Result<Record, Exception>, second: Result<Record, Exception>)

  /** What `self.config.get_fallback_source()` evaluates to. */
  datatype FallbackLookup = NoSuchMethod | Fallback(source: Option<DataSource>)

  /** The configuration class defines only `get_fallback_sources`, so the lookup fails. */
  function ConfigFallbackLookup(c: Config): FallbackLookup {
    NoSuchMethod
  }

  const MissingMethodError: Exception :=
    AttributeError("'DataSourceConfig' object has no attribute 'get_fallback_source'")

  /** The result, the next state, and the provider clients called, in order. */
  datatype Outcome = Outcome(result: Result<Record, Exception>, service: Service, calls: seq<Client>)

  /** The client the primary branch calls. */
  function PrimaryClient(s: Service): Client {
    if PrimarySource(s.config) == AlphaVantage && s.hasAlphaVantageClient then AlphaVantageClient
    else YahooClient
  }

  /** The client the fallback branch calls, if any branch matches. */
  function FallbackClient(op: Operation, s: Service, source: DataSource): Option<Client> {
    match op
    case QuoteOp =>
      Some(if source == AlphaVantage && s.hasAlphaVantageClient then AlphaVantageClient else YahooClient)
    case OverviewOp =>
      if source == YahooFinance then Some(YahooClient)
      else if source == AlphaVantage && s.hasAlphaVantageClient then Some(AlphaVantageClient)
      else None
  }

  function MarkFromCache(r: Record): Record {
    r["from_cache" := JBool(true)]
  }

  function MarkFallback(r: Record, primaryError: Exception): Record {
    r["fallback_used" := JBool(true)]["primary_source_error" := JStr(Message(primaryError))]
  }

  /** `get_stock_quote` / `get_company_overview` with the fallback lookup as a parameter. */
  function FetchWith(op: Operation, s: Service, symbol: string, now: nat,
                     lookup: FallbackLookup, responses: Responses): Outcome
  {
    var key := CacheKey(op, symbol);
    var cached := GetCache(s.cache, key, now, s.config.cacheDuration);
    if cached.Some? && cached.value != map[] then
      var marked := MarkFromCache(cached.value);
      Outcome(Success(marked), s.(cache := s.cache.(data := s.cache.data[key := marked])), [])
    else
      var primary := PrimarySource(s.config);
      var client := PrimaryClient(s);
      match responses.first
      case Success(data) => Outcome(Success(data), s.(cache := SetCache(s.cache, key, data, now)), [client])
      case Failure(e) =>
        match lookup
        case NoSuchMethod => Outcome(Failure(MissingMethodError), s, [client])
        case Fallback(fallback) =>
          if fallback.None? || fallback.value == primary then Outcome(Failure(e), s, [client])
          else
            match FallbackClient(op, s, fallback.value)
            case None => Outcome(Failure(e), s, [client])
            case Some(second) =>
              match responses.second
              case Success(data) =>
                var marked := MarkFallback(data, e);
                Outcome(Success(marked), s.(cache := SetCache(s.cache, key, marked, now)), [client, second])
              case Failure(_) => Outcome(Failure(e), s, [client, second])
  }

  /** `get_stock_quote` as written. */
  function GetStockQuote(s: Service, symbol: string, now: nat, responses: Responses): Outcome {
    FetchWith(QuoteOp, s, symbol, now, ConfigFallbackLookup(s.config), responses)
  }

  /** `get_company_overview` as written. */
  function GetCompanyOverview(s: Service, symbol: string, now: nat, responses: Responses): Outcome {
    FetchWith(OverviewOp, s, symbol, now, ConfigFallbackLookup(s.config), responses)
  }

  predicate Hit(s: Service, op: Operation, symbol: string, now: nat) {
    var cached := GetCache(s.cache, CacheKey(op, symbol), now, s.config.cacheDuration);
    cached.Some? && cached.value != map[]
  }

  // ---------------------------------------------------------------------
  // Cache properties
  // ---------------------------------------------------------------------

  lemma NamePrefix(op: Operation, symbol: string)
    ensures CacheKey(op, symbol)[0] == (if op == QuoteOp then 'q' else 'o')
    ensures CacheKey(op, symbol)[..|OperationName(op)| + 1] == OperationName(op) + ":"
    ensures CacheKey(op, symbol)[|OperationName(op)| + 1..] == symbol
  {
  }

  /**
   * Cache keys are injective: quote and overview entries never collide, and
   * symbols differing in any character, case included, get distinct entries.
   */
  lemma CacheKeyInjective(op1: Operation, s1: string, op2: Operation, s2: string)
    ensures CacheKey(op1, s1) == CacheKey(op2, s2) <==> op1 == op2 && s1 == s2
  {
    NamePrefix(op1, s1);
    NamePrefix(op2, s2);
  }

  lemma CaseVariantsAreDistinct()
    ensures CacheKey(QuoteOp, "aapl") != CacheKey(QuoteOp, "AAPL")
  {
    CacheKeyInjective(QuoteOp, "aapl", QuoteOp, "AAPL");
  }

  /**
   * `_set_cache` writes both the record and the timestamp for that key and
   * nothing else, keeping the two dictionaries' key sets equal.
   */
  lemma SetCacheFrame(c: Cache, key: string, data: Record, now: nat)
    requires CacheInvariant(c)
    ensures var c' := SetCache(c, key, data, now);
      && CacheInvariant(c')
      && c'.data[key] == data && c'.stamps[key] == now
      && c'.data.Keys == c.data.Keys + {key}
      && (forall k :: k in c.data && k != key ==> c'.data[k] == c.data[k] && c'.stamps[k] == c.stamps[k])
  {
  }

  /**
   * A record stored at `t` is fresh exactly while its age is below the TTL:
   * at age `ttl` it is already stale.
   */
  lemma FreshnessWindow(c: Cache, key: string, data: Record, t: nat, later: nat, ttl: int)
    requires t <= later
    ensures GetCache(SetCache(c, key, data, t), key, later, ttl) == Some(data) <==> later - t < ttl
    ensures later == t + ttl ==> GetCache(SetCache(c, key, data, t), key, later, ttl).None?
  {
  }

  // ---------------------------------------------------------------------
  // Request properties
  // ---------------------------------------------------------------------

  /**
   * A fresh, non-empty entry is returned marked `from_cache` without calling
   * any provider; the stored record gets the same mark and keeps its stamp.
   */
  lemma CacheHitServesStoredRecord(op: Operation, s: Service, symbol: string, now: nat,
                                   lookup: FallbackLookup, responses: Responses)
    requires Hit(s, op, symbol, now)
    ensures var key := CacheKey(op, symbol);
      var o := FetchWith(op, s, symbol, now, lookup, responses);
      && o.calls == []
      && o.result == Success(s.cache.data[key]["from_cache" := JBool(true)])
      && o.service.cache.stamps == s.cache.stamps
      && o.service.cache.data == s.cache.data[key := o.result.value]
      && o.service.config == s.config
  {
  }

  /**
   * Without a usable cache entry the primary branch calls Alpha Vantage
   * exactly when the resolved primary is Alpha Vantage, and Yahoo Finance
   * for every other resolved primary, FMP included.
   */
  lemma PrimaryDispatch(op: Operation, s: Service, symbol: string, now: nat,
                        lookup: FallbackLookup, responses: Responses)
    requires ServiceInvariant(s)
    requires !Hit(s, op, symbol, now)
    ensures var o := FetchWith(op, s, symbol, now, lookup, responses);
      && 1 <= |o.calls| <= 2
      && (o.calls[0] == AlphaVantageClient <==> PrimarySource(s.config) == AlphaVantage)
  {
    PrimarySourcePolicy(s.config);
  }

  /**
   * A successful primary fetch is cached at `now` under the request's key
   * and returned exactly as the provider produced it: no `from_cache` or
   * `fallback_used` mark is added.
   */
  lemma PrimarySuccessCachedUnchanged(op: Operation, s: Service, symbol: string, now: nat,
                                      lookup: FallbackLookup, data: Record, second: Result<Record, Exception>)
    requires !Hit(s, op, symbol, now)
    ensures var o := FetchWith(op, s, symbol, now, lookup, Responses(Success(data), second));
      && o.result == Success(data)
      && o.service.cache == SetCache(s.cache, CacheKey(op, symbol), data, now)
      && |o.calls| == 1
  {
  }

  /**
   * As written, every primary failure escapes as the `AttributeError` of the
   * missing configuration method: no fallback is tried and nothing is
   * cached, for quotes and overviews alike.
   */
  lemma PrimaryFailureEscapesAsWritten(s: Service, symbol: string, now: nat, e: Exception,
                                       second: Result<Record, Exception>)
    requires !Hit(s, QuoteOp, symbol, now) && !Hit(s, OverviewOp, symbol, now)
    ensures var o := GetStockQuote(s, symbol, now, Responses(Failure(e), second));
      o.result == Failure(MissingMethodError) && o.service == s && |o.calls| == 1
    ensures var o := GetCompanyOverview(s, symbol, now, Responses(Failure(e), second));
      o.result == Failure(MissingMethodError) && o.service == s && |o.calls| == 1
  {
  }

  /** Under the real configuration the fallback branch is never reached: at most one provider call. */
  lemma FallbackUnreachable(op: Operation, s: Service, symbol: string, now: nat, responses: Responses)
    ensures |FetchWith(op, s, symbol, now, ConfigFallbackLookup(s.config), responses).calls| <= 1
  {
  }

  /**
   * The intended fallback: tried only when a source is obtained and differs
   * from the primary; a success is marked `fallback_used` with the primary's
   * error text and cached; a failure re-raises the primary's error and
   * caches nothing.
   */
  lemma IntendedFallback(op: Operation, s: Service, symbol: string, now: nat,
                         fallback: DataSource, e: Exception, second: Result<Record, Exception>)
    requires !Hit(s, op, symbol, now)
    requires fallback != PrimarySource(s.config)
    requires FallbackClient(op, s, fallback).Some?
    ensures var o := FetchWith(op, s, symbol, now, Fallback(Some(fallback)), Responses(Failure(e), second));
      && |o.calls| == 2
      && o.calls[1] == FallbackClient(op, s, fallback).value
      && (second.Success? ==>
            && o.result.Success?
            && o.result.value["fallback_used"] == JBool(true)
            && o.result.value["primary_source_error"] == JStr(Message(e))
            && (forall k :: k in second.value && k != "fallback_used" && k != "primary_source_error" ==>
                  k in o.result.value && o.result.value[k] == second.value[k])
            && o.service.cache == SetCache(s.cache, CacheKey(op, symbol), o.result.value, now))
      && (second.Failure? ==> o.result == Failure(e) && o.service == s)
  {
  }

  /** An absent fallback, or one equal to the primary, re-raises the primary's error. */
  lemma NoDistinctFallback(op: Operation, s: Service, symbol: string, now: nat,
                           fallback: Option<DataSource>, e: Exception, second: Result<Record, Exception>)
    requires !Hit(s, op, symbol, now)
    requires fallback.None? || fallback.value == PrimarySource(s.config)
    ensures var o := FetchWith(op, s, symbol, now, Fallback(fallback), Responses(Failure(e), second));
      o.result == Failure(e) && o.service == s && |o.calls| == 1
  {
  }

  /** No overview branch matches FMP: the primary's error is re-raised after one call. */
  lemma OverviewFmpFallbackReraises(s: Service, symbol: string, now: nat, e: Exception,
                                    second: Result<Record, Exception>)
    requires !Hit(s, OverviewOp, symbol, now)
    requires PrimarySource(s.config) != FMP
    ensures var o := FetchWith(OverviewOp, s, symbol, now, Fallback(Some(FMP)), Responses(Failure(e), second));
      o.result == Failure(e) && o.service == s && |o.calls| == 1
  {
  }

  /**
   * Every request keeps the service invariant, leaves the configuration
   * alone, and touches at most the request's own cache entry.
   */
  lemma RequestFrame(op: Operation, s: Service, symbol: string, now: nat,
                     lookup: FallbackLookup, responses: Responses)
    requires ServiceInvariant(s)
    ensures var o := FetchWith(op, s, symbol, now, lookup, responses);
      && ServiceInvariant(o.service)
      && o.service.config == s.config
      && o.service.hasAlphaVantageClient == s.hasAlphaVantageClient
      && (forall k :: k in s.cache.data && k != CacheKey(op, symbol) ==>
            k in o.service.cache.data && o.service.cache.data[k] == s.cache.data[k]
            && o.service.cache.stamps[k] == s.cache.stamps[k])
  {
  }

  /**
   * Two requests for the same key within the TTL: the second is served from
   * the cache with the first record plus the `from_cache` mark, and calls
   * no provider; once the TTL has elapsed it goes to a provider again.
   */
  lemma SecondRequestWithinTtl(op: Operation, s: Service, symbol: string, t: nat, later: nat,
                               data: Record, second: Result<Record, Exception>,
                               lookup: FallbackLookup, responses: Responses)
    requires !Hit(s, op, symbol, t)
    requires data != map[] && t <= later
    ensures var s1 := FetchWith(op, s, symbol, t, lookup, Responses(Success(data), second)).service;
      var o := FetchWith(op, s1, symbol, later, lookup, responses);
      && (later - t < s.config.cacheDuration ==>
            o.result == Success(data["from_cache" := JBool(true)]) && o.calls == [])
      && (later - t >= s.config.cacheDuration ==> |o.calls| >= 1)
  {
  }

  /** A quote entry never answers an overview request for the same symbol. */
  lemma QuoteEntryDoesNotServeOverview(s: Service, symbol: string, t: nat, data: Record,
                                       second: Result<Record, Exception>, responses: Responses)
    requires !Hit(s, QuoteOp, symbol, t) && !Hit(s, OverviewOp, symbol, t)
    ensures var s1 := GetStockQuote(s, symbol, t, Responses(Success(data), second)).service;
      |GetCompanyOverview(s1, symbol, t, responses).calls| == 1
  {
    CacheKeyInjective(QuoteOp, symbol, OverviewOp, symbol);
  }
}

=== FILE: stock_utils.dfy ===
/**
 * `fetch_stock_price` (unified service, then direct Yahoo Finance, then
 * nothing), the decision logic of the direct Yahoo quote, and the live
 * eight-pillar analysis with its fixed denominator of eight.
 */
module StockUtils {
  import opened Wrappers
  import opened PyErrors
  import opened PyStrings
  import opened Json
  import opened DataSources
  import opened StockDataService
  import opened Frames
  import opened Marks

  // ---------------------------------------------------------------------
  // Direct Yahoo Finance quote
  // ---------------------------------------------------------------------

  /** What yfinance hands back for a ticker: `ticker.info` and the closes of `history(period="1d")`. */
  datatype YahooSnapshot = YahooSnapshot(info: Record, closes: seq<real>)

  /**
   * `_fetch_stock_price_yfinance`: every exception becomes `None`. The
   * "change" entry holds the change percentage as a number; the timestamp
   * is left out.
   */
  function DirectQuote(symbol: string, fetched: Result<YahooSnapshot, Exception>): (r: Option<Record>)
    ensures r.None? <==>
      || fetched.Failure?
      || fetched.value.closes == []
      || fetched.value.info == map[]
      || Number(InfoGet(fetched.value.info, "previousClose",
                        JFloat(fetched.value.closes[|fetched.value.closes| - 1]))).None?
    ensures r.Some? ==>
      && "symbol" in r.value && r.value["symbol"] == JStr(Upper(symbol))
      && "price" in r.value && r.value["price"] == JFloat(fetched.value.closes[|fetched.value.closes| - 1])
      && "data_source" in r.value && r.value["data_source"] == JStr("yahoo_finance")
      && "status" in r.value && r.value["status"] == JStr("success")
  {
    match fetched
    case Failure(_) => None
    case Success(snap) =>
      if snap.closes == [] || snap.info == map[] then None
      else
        var price := snap.closes[|snap.closes| - 1];
        var previous := Number(InfoGet(snap.info, "previousClose", JFloat(price)));
        if previous.None? then None
        else
          var prev := previous.value;
          var changePercent := if prev != 0.0 then (price - prev) / prev * 100.0 else 0.0;
          Some(map[
            "symbol" := JStr(Upper(symbol)),
            "price" := JFloat(price),
            "currency" := JStr("USD"),
            "change" := JFloat(changePercent),
            "previous_close" := JFloat(prev),
            "company_name" := InfoGet(snap.info, "longName", JStr("N/A")),
            "data_source" := JStr("yahoo_finance"),
            "status" := JStr("success")])
  }

  /**
   * A missing previous close defaults to the current price, so the change
   * is zero; a zero previous close also reports a zero change; otherwise
   * the change is relative to the previous close.
   */
  lemma DirectQuoteChange(symbol: string, snap: YahooSnapshot)
    requires snap.closes != [] && snap.info != map[]
    ensures var r := DirectQuote(symbol, Success(snap));
      var price := snap.closes[|snap.closes| - 1];
      && ("previousClose" !in snap.info ==>
            r.Some? && r.value["previous_close"] == JFloat(price) && r.value["change"] == JFloat(0.0))
      && ("previousClose" in snap.info && Number(snap.info["previousClose"]) == Some(0.0) ==>
            r.Some? && r.value["change"] == JFloat(0.0))
      && ("previousClose" in snap.info && Number(snap.info["previousClose"]).Some? ==>
            var prev := Number(snap.info["previousClose"]).value;
            r.Some? && r.value["change"] ==
              JFloat(if prev != 0.0 then (price - prev) / prev * 100.0 else 0.0))
  {
  }

  // ---------------------------------------------------------------------
  // fetch_stock_price
  // ---------------------------------------------------------------------

  /** The quote returned, and the global service afterwards (absent until built). */
  datatype PriceOutcome = PriceOutcome(price: Option<Record>, service: Option<Service>)

  /**
   * `get_stock_data_service`: the existing instance, or a new one built
   * from the configuration, whose loading can fail.
   */
  function ObtainService(existing: Option<Service>, config: Result<Config, Exception>): (r: Result<Service, Exception>)
    ensures existing.Some? ==> r == Success(existing.value)
    ensures existing.None? && config.Success? ==> r.Success? && r.value == NewService(config.value)
    ensures existing.None? && config.Failure? ==> r == Failure(config.error)
  {
    match existing
    case Some(s) => Success(s)
    case None =>
      match config
      case Success(c) => Success(NewService(c))
      case Failure(e) => Failure(e)
  }

  /**
   * `fetch_stock_price`. `useUnifiedService` is whether the service module
   * imported; `config` is what loading the configuration yields if the
   * service has to be built; `direct` is what yfinance yields for the
   * direct fallback.
   */
  function FetchStockPrice(useUnifiedService: bool, existing: Option<Service>, config: Result<Config, Exception>,
                           symbol: string, now: nat, responses: Responses,
                           direct: Result<YahooSnapshot, Exception>): (r: PriceOutcome)
    ensures !useUnifiedService ==> r == PriceOutcome(DirectQuote(symbol, direct), existing)
    ensures useUnifiedService ==>
      match ObtainService(existing, config)
      case Failure(_) => r == PriceOutcome(DirectQuote(symbol, direct), existing)
      case Success(s) =>
        var o := GetStockQuote(s, symbol, now, responses);
        && r.service == Some(o.service)
        && (o.result.Success? ==> r.price == Some(o.result.value))
        && (o.result.Failure? ==> r.price == DirectQuote(symbol, direct))
  {
    if !useUnifiedService then PriceOutcome(DirectQuote(symbol, direct), existing)
    else
      match ObtainService(existing, config)
      case Failure(_) => PriceOutcome(DirectQuote(symbol, direct), existing)
      case Success(s) =>
        var o := GetStockQuote(s, symbol, now, responses);
        match o.result
        case Success(data) => PriceOutcome(Some(data), Some(o.service))
        case Failure(_) => PriceOutcome(DirectQuote(symbol, direct), Some(o.service))
  }

  /**
   * With the unified service, a service quote is returned as it is; any
   * exception, in building the service or in the quote, yields the direct
   * Yahoo quote or `None` instead of escaping. So any quote returned is
   * either the service's answer or the direct quote.
   */
  lemma FetchStockPriceFallsBack(existing: Option<Service>, config: Result<Config, Exception>,
                                 symbol: string, now: nat, responses: Responses,
                                 direct: Result<YahooSnapshot, Exception>)
    ensures var r := FetchStockPrice(true, existing, config, symbol, now, responses, direct);
      match ObtainService(existing, config)
      case Failure(_) => r.price == DirectQuote(symbol, direct) && r.service == existing
      case Success(s) =>
        var o := GetStockQuote(s, symbol, now, responses);
        && r.service == Some(o.service)
        && (o.result.Success? ==> r.price == Some(o.result.value))
        && (o.result.Failure? ==> r.price == DirectQuote(symbol, direct))
    ensures var r := FetchStockPrice(true, existing, config, symbol, now, responses, direct);
      var built := ObtainService(existing, config);
      r.price.Some? ==>
        || r.price == DirectQuote(symbol, direct)
        || (built.Success? && GetStockQuote(built.value, symbol, now, responses).result == Success(r.price.value))
  {
  }

  /**
   * As the service is written, a failing primary provider always lands on
   * the direct Yahoo quote, and a configuration that cannot be loaded does
   * too, leaving the service unbuilt.
   */
  lemma PrimaryFailureUsesDirectQuote(existing: Option<Service>, config: Result<Config, Exception>,
                                      symbol: string, now: nat, e: Exception,
                                      second: Result<Record, Exception>,
                                      direct: Result<YahooSnapshot, Exception>)
    requires existing.Some? ==> !Hit(existing.value, QuoteOp, symbol, now)
    requires existing.None? && config.Success? ==> !Hit(NewService(config.value), QuoteOp, symbol, now)
    ensures FetchStockPrice(true, existing, config, symbol, now, Responses(Failure(e), second), direct).price
            == DirectQuote(symbol, direct)
  {
  }

  // ---------------------------------------------------------------------
  // Live eight-pillar analysis
  // ---------------------------------------------------------------------

  datatype Statements = Statements(balance: Statement, income: Statement, cash: Statement)

  datatype LiveBand = Good | Fair | Poor

  function LiveAssessment(b: LiveBand): string {
    match b
    case Good => "Good - Worth further research"
    case Fair => "Fair - Proceed with caution"
    case Poor => "Poor - High risk"
  }

  /** The value a pillar reports and its mark. */
  datatype Pillar = Pillar(value: real, mark: Mark)

  const Sentinel: real := 999.0

  /** Pillar 1: the PE ratio passes below 22.5. */
  function PePillar(pe: real): (p: Pillar)
    ensures p.mark != Unknown
    ensures p.mark == Pass <==> pe < 22.5
  {
    Pillar(pe, Check(pe < 22.5))
  }

  /**
   * Pillar 2: ROIC over assets minus liabilities, counted only when both
   * are non-zero; a row without values raises and scores 0 with "✗".
   */
  function RoicPillar(balance: Statement, income: Statement): Pillar {
    var assets := FirstOrZero(balance, "Total Assets");
    var liabilities := FirstOrZero(balance, "Total Liabilities Net Minority Interest");
    var netIncome := FirstOrZero(income, "Net Income");
    if assets.None? || liabilities.None? || netIncome.None? then Pillar(0.0, Fail)
    else
      var investedCapital :=
        if assets.value != 0.0 && liabilities.value != 0.0 then assets.value - liabilities.value else 0.0;
      var roic := if investedCapital > 0.0 then netIncome.value / investedCapital * 100.0 else 0.0;
      Pillar(roic, Check(roic > 10.0))
  }

  /** Pillar 3: without history, shares are "?" when zero and "✓" otherwise. */
  function SharesPillar(shares: real): (p: Pillar)
    ensures p.mark != Fail
    ensures p.mark == Unknown <==> shares == 0.0
  {
    Pillar(shares, if shares == 0.0 then Unknown else Pass)
  }

  /**
   * Pillars 4 to 6: growth from the oldest to the latest period, relative
   * to the oldest's magnitude; zero when the oldest is zero.
   */
  function GrowthPillar(st: Statement, name: string): Pillar {
    if name in st.rows && st.columns >= 2 then
      var row := st.rows[name];
      if row == [] then Pillar(0.0, Fail)
      else
        var latest := row[0];
        var oldest := row[|row| - 1];
        var growth := if oldest != 0.0 then (latest - oldest) / Abs(oldest) * 100.0 else 0.0;
        Pillar(growth, Check(growth > 0.0))
    else Pillar(0.0, Fail)
  }

  function Abs(x: real): real {
    if x < 0.0 then -x else x
  }

  /** Pillar 7: long-term debt over average free cash flow; 999 when that average is not positive. */
  function LiabilityPillar(balance: Statement, cash: Statement): Pillar {
    var debt := FirstOrZero(balance, "Long Term Debt");
    if debt.None? then Pillar(Sentinel, Fail)
    else
      var average := if "Free Cash Flow" in cash.rows then Mean(cash.rows["Free Cash Flow"]) else Some(0.0);
      var ratio := if average.Some? && average.value > 0.0 then debt.value / average.value else Sentinel;
      Pillar(ratio, Check(ratio < 5.0))
  }

  /** Pillar 8: market cap over the latest free cash flow; 999 when that is not positive. */
  function PriceToFcfPillar(marketCap: real, cash: Statement): Pillar {
    var fcf := FirstOrZero(cash, "Free Cash Flow");
    if fcf.None? then Pillar(Sentinel, Fail)
    else
      var ratio := if fcf.value > 0.0 then marketCap / fcf.value else Sentinel;
      Pillar(ratio, Check(ratio < 22.5))
  }

  datatype LiveReport = LiveReport(
    symbol: string,
    companyName: Json,
    pillars: seq<Pillar>,
    passed: nat,
    evaluated: nat,
    score: real,
    band: LiveBand)

  function MarksOf(ps: seq<Pillar>): (ms: seq<Mark>)
    ensures |ms| == |ps| && forall i :: 0 <= i < |ps| ==> ms[i] == ps[i].mark
  {
    seq(|ps|, i requires 0 <= i < |ps| => ps[i].mark)
  }

  function LiveBandOf(score: real): LiveBand {
    if score >= 75.0 then Good else if score >= 50.0 then Fair else Poor
  }

  /**
   * `perform_eight_pillar_analysis` (live). `None` when fetching fails, a
   * statement is empty, or the trailing PE, share count or market cap is
   * not a number (comparing or formatting it raises).
   */
  function EightPillarAnalysis(symbol: string, info: Record, statements: Result<Statements, Exception>)
    : (r: Option<LiveReport>)
    ensures r.Some? <==>
      && statements.Success?
      && !Empty(statements.value.balance) && !Empty(statements.value.income) && !Empty(statements.value.cash)
      && Number(InfoGet(info, "trailingPE", JInt(0))).Some?
      && Number(InfoGet(info, "sharesOutstanding", JInt(0))).Some?
      && Number(InfoGet(info, "marketCap", JInt(0))).Some?
    ensures r.Some? ==>
      && |r.value.pillars| == 8
      && r.value.passed == Count(MarksOf(r.value.pillars), Pass) <= 8
      && r.value.evaluated == 8
      && r.value.score == r.value.passed as real * 12.5
      && r.value.symbol == Upper(symbol)
    ensures r.Some? ==>
      var st := statements.value;
      r.value.pillars == [
        PePillar(Number(InfoGet(info, "trailingPE", JInt(0))).value),
        RoicPillar(st.balance, st.income),
        SharesPillar(Number(InfoGet(info, "sharesOutstanding", JInt(0))).value),
        GrowthPillar(st.cash, "Operating Cash Flow"),
        GrowthPillar(st.income, "Net Income"),
        GrowthPillar(st.income, "Total Revenue"),
        LiabilityPillar(st.balance, st.cash),
        PriceToFcfPillar(Number(InfoGet(info, "marketCap", JInt(0))).value, st.cash)]
    ensures r.Some? ==>
      && r.value.band == LiveBandOf(r.value.score)
      && (r.value.band == Good <==> r.value.passed >= 6)
      && (r.value.band == Fair <==> 4 <= r.value.passed < 6)
      && (r.value.band == Poor <==> r.value.passed < 4)
  {
    match statements
    case Failure(_) => None
    case Success(st) =>
      if Empty(st.balance) || Empty(st.income) || Empty(st.cash) then None
      else
        var pe := Number(InfoGet(info, "trailingPE", JInt(0)));
        var shares := Number(InfoGet(info, "sharesOutstanding", JInt(0)));
        var marketCap := Number(InfoGet(info, "marketCap", JInt(0)));
        if pe.None? || shares.None? || marketCap.None? then None
        else
          var pillars := [
            PePillar(pe.value),
            RoicPillar(st.balance, st.income),
            SharesPillar(shares.value),
            GrowthPillar(st.cash, "Operating Cash Flow"),
            GrowthPillar(st.income, "Net Income"),
            GrowthPillar(st.income, "Total Revenue"),
            LiabilityPillar(st.balance, st.cash),
            PriceToFcfPillar(marketCap.value, st.cash)];
          var passed := Count(MarksOf(pillars), Pass);
          var score := passed as real / 8.0 * 100.0;
          LiveBands(passed);
          Some(LiveReport(Upper(symbol), InfoGet(info, "longName", JStr("N/A")),
                          pillars, passed, 8, score, LiveBandOf(score)))
  }

  // ---------------------------------------------------------------------
  // Properties of the live analysis
  // ---------------------------------------------------------------------

  /** The bands in passes: six or more is "Good", four or five "Fair", fewer "Poor". */
  lemma LiveBands(passed: nat)
    requires passed <= 8
    ensures var b := LiveBandOf(passed as real / 8.0 * 100.0);
      && (b == Good <==> passed >= 6)
      && (b == Fair <==> 4 <= passed < 6)
      && (b == Poor <==> passed < 4)
  {
  }

  /** A missing trailing PE counts as 0 and passes; the shares pillar is "?" exactly at zero shares. */
  lemma InfoDefaults(symbol: string, info: Record, st: Statements)
    requires !Empty(st.balance) && !Empty(st.income) && !Empty(st.cash)
    requires "trailingPE" !in info
    requires Number(InfoGet(info, "sharesOutstanding", JInt(0))).Some?
    requires Number(InfoGet(info, "marketCap", JInt(0))).Some?
    ensures var r := EightPillarAnalysis(symbol, info, Success(st));
      && r.Some?
      && r.value.pillars[0] == Pillar(0.0, Pass)
      && (r.value.pillars[2].mark == Unknown <==> Number(InfoGet(info, "sharesOutstanding", JInt(0))) == Some(0.0))
  {
  }

  /** Growth passes exactly when the oldest value is non-zero and the latest exceeds it. */
  lemma GrowthPasses(st: Statement, name: string)
    ensures GrowthPillar(st, name).mark == Pass <==>
      && name in st.rows && st.columns >= 2 && st.rows[name] != []
      && st.rows[name][|st.rows[name]| - 1] != 0.0
      && st.rows[name][0] > st.rows[name][|st.rows[name]| - 1]
  {
    if name in st.rows && st.columns >= 2 && st.rows[name] != [] {
      var row := st.rows[name];
      var oldest := row[|row| - 1];
      if oldest != 0.0 {
        QuotientPositive(row[0] - oldest, Abs(oldest));
      }
    }
  }

  lemma QuotientPositive(a: real, b: real)
    requires b > 0.0
    ensures a / b * 100.0 > 0.0 <==> a > 0.0
  {
    if a > 0.0 {
      assert a / b > 0.0;
    } else {
      assert a / b * b == a;
    }
  }

  /** ROIC passes exactly when invested capital is positive and net income exceeds a tenth of it. */
  lemma RoicPasses(balance: Statement, income: Statement)
    requires FirstOrZero(balance, "Total Assets").Some?
    requires FirstOrZero(balance, "Total Liabilities Net Minority Interest").Some?
    requires FirstOrZero(income, "Net Income").Some?
    ensures var assets := FirstOrZero(balance, "Total Assets").value;
      var liabilities := FirstOrZero(balance, "Total Liabilities Net Minority Interest").value;
      var netIncome := FirstOrZero(income, "Net Income").value;
      RoicPillar(balance, income).mark == Pass <==>
        assets != 0.0 && liabilities != 0.0 && assets - liabilities > 0.0
        && netIncome * 10.0 > assets - liabilities
  {
    var assets := FirstOrZero(balance, "Total Assets").value;
    var liabilities := FirstOrZero(balance, "Total Liabilities Net Minority Interest").value;
    var netIncome := FirstOrZero(income, "Net Income").value;
    if assets != 0.0 && liabilities != 0.0 && assets - liabilities > 0.0 {
      RatioAbove(netIncome, assets - liabilities, 10.0);
    }
  }

  /** `a / b * 100 > t` exactly when `100 a > t b`, for a positive `b`. */
  lemma RatioAbove(a: real, b: real, t: real)
    requires b > 0.0
    ensures a / b * 100.0 > t <==> a * 100.0 > t * b
  {
    assert a / b * b == a;
  }

  /** `a / b < t` exactly when `a < t b`, for a positive `b`. */
  lemma RatioBelow(a: real, b: real, t: real)
    requires b > 0.0
    ensures a / b < t <==> a < t * b
  {
    assert a / b * b == a;
  }

  /**
   * Pillars 7 and 8 take the sentinel 999, and fail, when the average or
   * latest free cash flow is not positive; otherwise they pass exactly
   * when debt is under five years of average cash flow, and the market cap
   * under 22.5 times the latest.
   */
  lemma SentinelPillars(balance: Statement, cash: Statement, marketCap: real)
    requires FirstOrZero(balance, "Long Term Debt").Some?
    requires FirstOrZero(cash, "Free Cash Flow").Some?
    ensures var debt := FirstOrZero(balance, "Long Term Debt").value;
      var p := LiabilityPillar(balance, cash);
      if "Free Cash Flow" in cash.rows && cash.rows["Free Cash Flow"] != []
         && Mean(cash.rows["Free Cash Flow"]).value > 0.0
      then p.mark == Pass <==> debt < 5.0 * Mean(cash.rows["Free Cash Flow"]).value
      else p == Pillar(Sentinel, Fail)
    ensures var fcf := FirstOrZero(cash, "Free Cash Flow").value;
      var p := PriceToFcfPillar(marketCap, cash);
      if fcf > 0.0 then p.mark == Pass <==> marketCap < 22.5 * fcf
      else p == Pillar(Sentinel, Fail)
  {
    var debt := FirstOrZero(balance, "Long Term Debt").value;
    if "Free Cash Flow" in cash.rows && cash.rows["Free Cash Flow"] != [] {
      var average := Mean(cash.rows["Free Cash Flow"]).value;
      if average > 0.0 {
        RatioBelow(debt, average, 5.0);
      }
    }
    var fcf := FirstOrZero(cash, "Free Cash Flow").value;
    if fcf > 0.0 {
      RatioBelow(marketCap, fcf, 22.5);
    }
  }
}

=== FILE: version.dfy ===
/**
 * `scripts/version.py`: the X.Y.Z format check and the parse, bump and
 * format arithmetic of `bump_version`. Reading and writing files is left
 * out; the VERSION file's content is an input and the version that would
 * be written is the output.
 */
module Version {
  import opened Wrappers
  import opened PyErrors
  import opened PyStrings

  // ---------------------------------------------------------------------
  // validate_version
  // ---------------------------------------------------------------------

  /**
   * The pattern `[0-9]+\.[0-9]+\.[0-9]+` anchored at both ends, read left to
   * right: `part` counts the dots consumed, `seen` whether the current
   * part has a digit.
   */
  function ScanParts(s: string, part: nat, seen: bool): bool
    requires part <= 2
    decreases |s|
  {
    if s == [] then part == 2 && seen
    else if IsDigit(s[0]) then ScanParts(s[1..], part, true)
    else if s[0] == '.' && seen && part < 2 then ScanParts(s[1..], part + 1, false)
    else false
  }

  /**
   * `re.match(r'^[0-9]+\.[0-9]+\.[0-9]+$', s)`: Python's `$` also matches
   * just before a newline that ends the string.
   */
  predicate MatchesVersionPattern(s: string) {
    ScanParts(s, 0, false) || (s != [] && s[|s| - 1] == '\n' && ScanParts(s[..|s| - 1], 0, false))
  }

  predicate DigitRun(p: string) {
    p != [] && AllDigits(p)
  }

  /** Three dot-separated parts, each one or more ASCII digits (leading zeros allowed). */
  predicate ThreeDigitParts(t: string) {
    var parts := Split(t, '.');
    |parts| == 3 && DigitRun(parts[0]) && DigitRun(parts[1]) && DigitRun(parts[2])
  }

  /** What the scanner accepts from a state, in terms of the split of the remaining input. */
  predicate Remaining(parts: seq<string>, part: nat, seen: bool)
    requires part <= 2
  {
    && |parts| == 3 - part
    && (forall i :: 0 <= i < |parts| ==> AllDigits(parts[i]))
    && (seen || parts[0] != [])
    && (forall i :: 1 <= i < |parts| ==> parts[i] != [])
  }

  lemma {:induction false} ScanPartsSplit(s: string, part: nat, seen: bool)
    requires part <= 2
    ensures ScanParts(s, part, seen) <==> Remaining(Split(s, '.'), part, seen)
    decreases |s|
  {
    if s != [] {
      var rest := Split(s[1..], '.');
      var parts := Split(s, '.');
      if IsDigit(s[0]) {
        ScanPartsSplit(s[1..], part, true);
        assert parts == [[s[0]] + rest[0]] + rest[1..];
        DigitsCons(s[0], rest[0]);
        if Remaining(parts, part, seen) {
          forall i | 0 <= i < |rest|
            ensures AllDigits(rest[i]) && (i > 0 ==> rest[i] != [])
          {
            if i == 0 {
              assert AllDigits(parts[0]);
            } else {
              assert rest[i] == parts[i];
            }
          }
        }
        if Remaining(rest, part, true) {
          forall i | 0 <= i < |parts|
            ensures AllDigits(parts[i]) && (i > 0 ==> parts[i] != [])
          {
            if i > 0 {
              assert parts[i] == rest[i];
            }
          }
        }
      } else if s[0] == '.' {
        assert parts == [""] + rest;
        if part < 2 {
          ScanPartsSplit(s[1..], part + 1, false);
          if Remaining(parts, part, seen) {
            forall i | 0 <= i < |rest|
              ensures AllDigits(rest[i]) && rest[i] != []
            {
              assert rest[i] == parts[i + 1];
            }
          }
          if seen && Remaining(rest, part + 1, false) {
            forall i | 1 <= i < |parts|
              ensures AllDigits(parts[i]) && parts[i] != []
            {
              assert parts[i] == rest[i - 1];
            }
            assert AllDigits(parts[0]);
          }
        }
      } else {
        assert parts[0] == [s[0]] + rest[0];
        assert parts[0][0] == s[0];
      }
    }
  }

  lemma DigitsCons(c: char, x: string)
    requires IsDigit(c)
    ensures AllDigits([c] + x) <==> AllDigits(x)
  {
    if AllDigits([c] + x) {
      forall i | 0 <= i < |x|
        ensures IsDigit(x[i])
      {
        assert x[i] == ([c] + x)[i + 1];
      }
    }
  }

  /** The pattern accepts exactly three digit runs joined by dots, optionally followed by one newline. */
  lemma VersionPatternCharacterisation(s: string)
    ensures MatchesVersionPattern(s) <==>
      ThreeDigitParts(s) || (s != [] && s[|s| - 1] == '\n' && ThreeDigitParts(s[..|s| - 1]))
  {
    ScanPartsSplit(s, 0, false);
    if s != [] {
      ScanPartsSplit(s[..|s| - 1], 0, false);
    }
  }

  function InvalidFormat(version: string): Exception {
    ValueError("Invalid version format: " + version + ". Must be X.Y.Z (e.g., 1.2.0)")
  }

  /** `validate_version`. */
  function ValidateVersion(version: string): (r: Result<bool, Exception>)
    ensures r.Success? <==> MatchesVersionPattern(version)
    ensures r.Success? ==> r.value
    ensures r.Failure? ==> r.error == InvalidFormat(version)
  {
    if MatchesVersionPattern(version) then Success(true) else Failure(InvalidFormat(version))
  }

  lemma LeadingZerosAndNewlineAccepted()
    ensures ValidateVersion("01.002.3").Success?
    ensures ValidateVersion("1.2.3\n").Success?
    ensures ValidateVersion("1.2").Failure?
    ensures ValidateVersion("1.2.3.4").Failure?
    ensures ValidateVersion("v1.2.3").Failure?
  {
    assert ScanParts("1.2.3\n"[..5], 0, false) by {
      assert "1.2.3\n"[..5] == "1.2.3";
    }
  }

  // ---------------------------------------------------------------------
  // bump_version
  // ---------------------------------------------------------------------

  datatype Triple = Triple(major: int, minor: int, patch: int)

  datatype BumpType = Major | Minor | Patch

  /** f"{major}.{minor}.{patch}". */
  function Format(t: Triple): string {
    IntToString(t.major) + "." + IntToString(t.minor) + "." + IntToString(t.patch)
  }

  function InvalidLiteral(p: string): Exception {
    ValueError("invalid literal for int() with base 10: '" + p + "'")
  }

  /** `int(p)` as the `map` yields it. */
  function IntPart(p: string): Result<int, Exception> {
    match ParseInt(p)
    case Some(v) => Success(v)
    case None => Failure(InvalidLiteral(p))
  }

  /**
   * `major, minor, patch = map(int, s.split('.'))`: parts are converted as
   * the unpacking pulls them, so a bad part among the first three (or the
   * fourth) raises before the count is checked.
   */
  function ParseVersion(s: string): (r: Result<Triple, Exception>)
    ensures r.Success? <==>
      var parts := Split(s, '.');
      |parts| == 3 && ParseInt(parts[0]).Some? && ParseInt(parts[1]).Some? && ParseInt(parts[2]).Some?
  {
    var parts := Split(s, '.');
    var major :- IntPart(parts[0]);
    if |parts| < 2 then Failure(ValueError("not enough values to unpack (expected 3, got 1)"))
    else
      var minor :- IntPart(parts[1]);
      if |parts| < 3 then Failure(ValueError("not enough values to unpack (expected 3, got 2)"))
      else
        var patch :- IntPart(parts[2]);
        if |parts| == 3 then Success(Triple(major, minor, patch))
        else
          var _ :- IntPart(parts[3]);
          Failure(ValueError("too many values to unpack (expected 3)"))
  }

  function ParseBumpType(b: string): Option<BumpType> {
    if b == "major" then Some(Major)
    else if b == "minor" then Some(Minor)
    else if b == "patch" then Some(Patch)
    else None
  }

  function Bump(t: Triple, b: BumpType): Triple {
    match b
    case Major => Triple(t.major + 1, 0, 0)
    case Minor => Triple(t.major, t.minor + 1, 0)
    case Patch => Triple(t.major, t.minor, t.patch + 1)
  }

  const DefaultVersion := "1.0.0"

  /** `get_current_version`: the stripped content of VERSION, or nothing when the file is absent. */
  function CurrentVersion(file: Option<string>): Option<string> {
    match file
    case None => None
    case Some(content) => Some(Strip(content))
  }

  /** The version bumping starts from: an absent or blank VERSION file counts as 1.0.0. */
  function BaseVersion(file: Option<string>): (r: string)
    ensures r != ""
    ensures file.Some? && Strip(file.value) != "" ==> r == Strip(file.value)
  {
    var current := CurrentVersion(file);
    if current.None? || current.value == "" then DefaultVersion else current.value
  }

  /**
   * `bump_version`: the version that `set_version` would write. The bump
   * type is checked after parsing, and the result is validated before
   * anything is written.
   */
  function BumpVersion(file: Option<string>, bumpType: string): (r: Result<string, Exception>)
    ensures r.Success? ==> MatchesVersionPattern(r.value)
    ensures r.Success? ==> ParseBumpType(bumpType).Some?
  {
    var t :- ParseVersion(BaseVersion(file));
    match ParseBumpType(bumpType)
    case None => Failure(ValueError("Invalid bump type: " + bumpType + ". Use 'major', 'minor', or 'patch'"))
    case Some(b) =>
      var next := Format(Bump(t, b));
      var _ :- ValidateVersion(next);
      Success(next)
  }

  // ---------------------------------------------------------------------
  // Properties
  // ---------------------------------------------------------------------

  predicate NonNegative(t: Triple) {
    t.major >= 0 && t.minor >= 0 && t.patch >= 0
  }

  /** Lexicographic order on (major, minor, patch). */
  predicate Less(a: Triple, b: Triple) {
    a.major < b.major
    || (a.major == b.major && a.minor < b.minor)
    || (a.major == b.major && a.minor == b.minor && a.patch < b.patch)
  }

  lemma FormatAsJoin(t: Triple)
    ensures Format(t) == Join([IntToString(t.major), IntToString(t.minor), IntToString(t.patch)], '.')
  {
    var parts := [IntToString(t.major), IntToString(t.minor), IntToString(t.patch)];
    assert parts[1..][1..] == [IntToString(t.patch)];
    assert Join(parts[1..], '.') == IntToString(t.minor) + "." + IntToString(t.patch);
  }

  lemma DotFree(i: int)
    ensures Free(IntToString(i), '.')
  {
    var s := NatToString(if i < 0 then -i else i);
    assert AllDigits(s);
  }

  lemma SplitFormat(t: Triple)
    ensures Split(Format(t), '.') == [IntToString(t.major), IntToString(t.minor), IntToString(t.patch)]
  {
    FormatAsJoin(t);
    DotFree(t.major);
    DotFree(t.minor);
    DotFree(t.patch);
    SplitJoin([IntToString(t.major), IntToString(t.minor), IntToString(t.patch)], '.');
  }

  /** Parsing a formatted version gives the components back. */
  lemma ParseFormat(t: Triple)
    ensures ParseVersion(Format(t)) == Success(t)
  {
    SplitFormat(t);
    ParseIntToString(t.major);
    ParseIntToString(t.minor);
    ParseIntToString(t.patch);
  }

  /** A formatted version with no negative component passes `validate_version`. */
  lemma FormatValidates(t: Triple)
    requires NonNegative(t)
    ensures MatchesVersionPattern(Format(t))
  {
    SplitFormat(t);
    VersionPatternCharacterisation(Format(t));
  }

  /** A version string is its own strip: it has no white space. */
  lemma FormatStripped(t: Triple)
    ensures Strip(Format(t)) == Format(t)
  {
    SplitFormat(t);
    var s := Format(t);
    forall i | 0 <= i < |s|
      ensures !IsSpace(s[i])
    {
      FormatChars(t, i);
    }
    NoSpaceStrip(s);
  }

  lemma FormatChars(t: Triple, i: nat)
    requires i < |Format(t)|
    ensures IsDigit(Format(t)[i]) || Format(t)[i] == '.' || Format(t)[i] == '-'
  {
    var a := IntToString(t.major);
    var b := IntToString(t.minor);
    var c := IntToString(t.patch);
    IntToStringChars(t.major);
    IntToStringChars(t.minor);
    IntToStringChars(t.patch);
    assert Format(t) == a + "." + b + "." + c;
  }

  lemma IntToStringChars(v: int)
    ensures forall k :: 0 <= k < |IntToString(v)| ==> IsDigit(IntToString(v)[k]) || IntToString(v)[k] == '-'
  {
  }

  /**
   * Bumping a well-formed version: major gives (M+1, 0, 0), minor
   * (M, m+1, 0), patch (M, m, p+1); the result is strictly greater and
   * parses back to the bumped components.
   */
  lemma BumpWellFormed(t: Triple, bumpType: string)
    requires NonNegative(t)
    requires ParseBumpType(bumpType).Some?
    ensures var r := BumpVersion(Some(Format(t)), bumpType);
      var b := ParseBumpType(bumpType).value;
      && r == Success(Format(Bump(t, b)))
      && Less(t, Bump(t, b))
      && ParseVersion(r.value) == Success(Bump(t, b))
      && (b == Major ==> Bump(t, b) == Triple(t.major + 1, 0, 0))
      && (b == Minor ==> Bump(t, b) == Triple(t.major, t.minor + 1, 0))
      && (b == Patch ==> Bump(t, b) == Triple(t.major, t.minor, t.patch + 1))
  {
    var b := ParseBumpType(bumpType).value;
    FormatStripped(t);
    NatToStringNonEmptyFormat(t);
    ParseFormat(t);
    FormatValidates(Bump(t, b));
    ParseFormat(Bump(t, b));
  }

  lemma NatToStringNonEmptyFormat(t: Triple)
    ensures Format(t) != ""
  {
  }

  /** Without a VERSION file, or with a blank one, bumping starts from 1.0.0. */
  lemma MissingFileStartsAtOne(blank: string)
    requires forall i :: 0 <= i < |blank| ==> IsSpace(blank[i])
    ensures BaseVersion(None) == DefaultVersion
    ensures BaseVersion(Some(blank)) == DefaultVersion
    ensures DefaultVersion == Format(Triple(1, 0, 0))
  {
    assert IntToString(1) == "1" && IntToString(0) == "0";
    BlankStrips(blank);
  }

  function Digit(n: nat): char
    requires n < 10
  {
    ('0' as int + n) as char
  }

  /** A version of single-digit components, character by character. */
  lemma FormatSingleDigits(t: Triple)
    requires 0 <= t.major < 10 && 0 <= t.minor < 10 && 0 <= t.patch < 10
    ensures Format(t) == [Digit(t.major), '.', Digit(t.minor), '.', Digit(t.patch)]
  {
    assert IntToString(t.major) == [Digit(t.major)];
    assert IntToString(t.minor) == [Digit(t.minor)];
    assert IntToString(t.patch) == [Digit(t.patch)];
  }

  /** The documented examples: from 1.2.0, patch gives 1.2.1, minor 1.3.0 and major 2.0.0. */
  lemma DocumentedBumps()
    ensures BumpVersion(Some("1.2.0"), "patch") == Success("1.2.1")
    ensures BumpVersion(Some("1.2.0"), "minor") == Success("1.3.0")
    ensures BumpVersion(Some("1.2.0"), "major") == Success("2.0.0")
  {
    SingleDigitBump(Triple(1, 2, 0), "patch", Triple(1, 2, 1));
    SingleDigitBump(Triple(1, 2, 0), "minor", Triple(1, 3, 0));
    SingleDigitBump(Triple(1, 2, 0), "major", Triple(2, 0, 0));
  }

  /** A bump between versions of single-digit components, written out character by character. */
  lemma SingleDigitBump(t: Triple, bumpType: string, u: Triple)
    requires 0 <= t.major < 10 && 0 <= t.minor < 10 && 0 <= t.patch < 10
    requires 0 <= u.major < 10 && 0 <= u.minor < 10 && 0 <= u.patch < 10
    requires ParseBumpType(bumpType).Some? && Bump(t, ParseBumpType(bumpType).value) == u
    ensures BumpVersion(Some([Digit(t.major), '.', Digit(t.minor), '.', Digit(t.patch)]), bumpType)
      == Success([Digit(u.major), '.', Digit(u.minor), '.', Digit(u.patch)])
  {
    FormatSingleDigits(t);
    FormatSingleDigits(u);
    BumpWellFormed(t, bumpType);
  }

  lemma {:induction false} BlankStrips(s: string)
    requires forall i :: 0 <= i < |s| ==> IsSpace(s[i])
    ensures Strip(s) == ""
    decreases |s|
  {
    if s != [] {
      BlankStrips(s[1..]);
      assert LStrip(s) == LStrip(s[1..]);
    }
  }

  /** An unknown bump type is rejected after a successful parse and before anything is written. */
  lemma InvalidBumpTypeRejected(file: Option<string>, bumpType: string)
    requires ParseBumpType(bumpType).None?
    ensures BumpVersion(file, bumpType).Failure?
    ensures ParseVersion(BaseVersion(file)).Success? ==>
        BumpVersion(file, bumpType)
          == Failure(ValueError("Invalid bump type: " + bumpType + ". Use 'major', 'minor', or 'patch'"))
  {
  }
}

=== FILE: wrappers.dfy ===
/** Failure-compatible Option and Result types used throughout the model. */
module Wrappers {

  /** An optional value: Python's `None` versus a present value. */
  datatype Option<+T> = None | Some(value: T) {

    predicate IsFailure() {
      None?
    }

    function PropagateFailure<U>(): Option<U>
      requires None?
    {
      None
    }

    function Extract(): T
      requires Some?
    {
      value
    }

    /** The value, or `default` when absent. */
    function GetOr(default: T): T {
      match this
      case Some(v) => v
      case None => default
    }
  }

  /** Either a value or the exception a Python call would raise. */
  datatype Result<+R, +E> = Success(value: R) | Failure(error: E) {

    predicate IsFailure() {
      Failure?
    }

    function PropagateFailure<U>(): Result<U, E>
      requires Failure?
    {
      Failure(error)
    }

    function Extract(): R
      requires Success?
    {
      value
    }
  }
}
